=== FILE: README.md ===
# sad — a Dafny model of the image-generation core

`sad` reads a script that describes images as trees of canvas operations. It runs every
tree in a dispatcher where one image may wait on another, and it writes the PNGs it
produces. A cache of pixel hashes lets it skip images that have not changed.

This project models the following parts of that system.

**Data**
- The 32-bit ARGB colour: its channels, its parsing from hexadecimal text, and its printing.
- Dimensions that may be `AUTO`.
- The canvas: a single colour or a dense buffer.
- The canvas hash and its hexadecimal text.

**Operations**
- The canvas operations: fill, tint, region, layer, gradient map, raw image and dependency.
- Blending, and gradients (simple and texture-based).

**Dispatch and saving**
- The three dispatchers, in library, application and api flavours, with their
  dependency-cycle check.
- The output cache: parsing it, writing it, and deciding whether to save.
- The save handler.
- The scripting receivers that build operation trees.

Colours are a `Word` in `[0, 2^32)`, and channels are `Byte`s. The api module's `ARGB`
colour and canvas duplicate the library's `Color` and canvas. Both share the `Colors`
and `Canvas` modules here, and `Blend` works over that colour.

Kotlin `Float`s are Dafny `real`s. Exceptions become the `Failure` case of a `Result`,
whose `Throwable` records whether it is a `CanvasOpException`. Operations return only
`CanvasOpException`s, so any other failure stands for a thrown exception. It escapes the
enclosing `coroutineScope` instead of being gathered into a message. The clock, SHA-256,
image loading and the writes and deletes of output images are function parameters. The
cache file itself is assumed to be readable and writable (see "## Left out").

## Model

| member | source | states |
|---|---|---|
| Colors.Clamp | lib/src/main/kotlin/canvas/Color.kt:21-26 | a channel given to the constructor is clamped into 0..255: below 0 gives 0, above 255 gives 255, otherwise the value itself |
| Colors.UnpackPack | lib/src/main/kotlin/canvas/Color.kt:8-15 | packing four channels into a word and reading the accessors back gives the same four channels, and `rgb` is the low 24 bits |
| Colors.PackUnpack | lib/src/main/kotlin/canvas/Color.kt:8-15 | the four channel accessors determine the packed word: repacking them gives the colour back |
| Colors.FromChannels | lib/src/main/kotlin/canvas/Color.kt:21-26 | the four-channel constructor yields a colour whose accessors return the clamped arguments |
| Colors.Opaque | lib/src/main/kotlin/canvas/Color.kt:20 | the three-channel constructor has alpha 255 and the clamped red, green and blue |
| Colors.ChannelsDetermineColor | lib/src/main/kotlin/canvas/Color.kt:8-26 | rebuilding a colour from its channels gives that colour, so two colours with equal channels are equal |
| Colors.Get | lib/src/main/kotlin/canvas/Color.kt:28-33 | `get(component)` returns the alpha, red, green or blue channel named |
| Colors.Copy | lib/src/main/kotlin/canvas/Color.kt:42-47 | `copy` replaces exactly the channels given (clamped) and keeps the rest; with no argument it is the identity |
| Colors.Round | lib/src/main/kotlin/canvas/Color.kt:35-40 | rounding to the nearest integer, half up, as `roundToInt` does on the lerped channels |
| Colors.LerpChannelBetween | lib/src/main/kotlin/canvas/Color.kt:79 | for d in [0,1] an interpolated channel lies between its two ends, and equals them at d = 0 and d = 1 |
| Colors.LerpProperties | lib/src/main/kotlin/canvas/Color.kt:35-40 | `lerp` at 0 is the receiver, at 1 is the other colour, and each channel lies between the two colours' channels |
| Colors.Lerp | lib/src/main/kotlin/canvas/Color.kt:35-40 | interpolating a colour towards itself gives it back, whatever the factor |
| Colors.UpperDigit | lib/src/main/kotlin/canvas/Color.kt:50 | upper-case hex printing of a nibble yields a digit that parses back to that nibble |
| Colors.Hex8 | lib/src/main/kotlin/canvas/Color.kt:50 | `toHexString(HexFormat.UpperCase)` of an `Int` always has exactly eight digits, each 0-9 or A-F |
| Colors.MatchColorText | lib/src/main/kotlin/canvas/Color.kt:57 | the pattern `#?([0-9a-fA-F]{1,8})` matches exactly when the text is 1 to 8 hex digits, with or without a leading `#`, and the group is those digits |
| Colors.C1 | lib/src/main/kotlin/canvas/Color.kt:76 | one hex digit d stands for the byte d·17 (the digit repeated) |
| Colors.TryParse | lib/src/main/kotlin/canvas/Color.kt:62-74 | parsing succeeds exactly for 1, 2, 3, 4, 6 or 8 digits, and the forms without alpha give an opaque colour |
| Colors.ParseGrey | lib/src/main/kotlin/canvas/Color.kt:66-67 | one or two digits give an opaque grey whose channels are the repeated digit or the two-digit byte |
| Colors.ParseArgbForms | lib/src/main/kotlin/canvas/Color.kt:69-71 | four digits give one repeated digit per channel, in the order a, r, g, b; eight digits give one byte per channel in the same order |
| Colors.ParseRejects | lib/src/main/kotlin/canvas/Color.kt:62-74 | 5 or 7 digits, more than nine characters, the empty text and a lone `#` are rejected |
| Colors.Hex8Parses | lib/src/main/kotlin/canvas/Color.kt:71 | the eight-digit text of a word parses its channels byte by byte |
| Colors.RgbChannels | lib/src/main/kotlin/canvas/Color.kt:17-18 | `rgb` keeps red, green and blue and has alpha 0 |
| Colors.ToStringAsWritten | lib/src/main/kotlin/canvas/Color.kt:50 | `toString` as written: `#` and eight upper-case digits; an opaque colour prints the eight digits of its `rgb` word, so they begin `00`, and any other colour those of its `argb` word |
| Colors.Hex8RoundTrip | lib/src/main/kotlin/canvas/Color.kt:50-74 | parsing `#` plus the eight digits of a word gives back the colour of that word |
| Colors.ToStringRoundTripNonOpaque | lib/src/main/kotlin/canvas/Color.kt:50-74 | for a colour that is not opaque, parsing `toString` as written gives the colour back |
| Colors.OpaqueRoundTripFails | lib/src/main/kotlin/canvas/Color.kt:50-74 | for opaque white, `toString` as written is `#00FFFFFF`, which parses to a transparent colour rather than white |
| Colors.ToString | lib/src/main/kotlin/canvas/Color.kt:50 | the corrected printing: six digits of r, g, b for an opaque colour, otherwise the eight digits as written |
| Colors.ToStringRoundTrip | lib/src/main/kotlin/canvas/Color.kt:50-74 | parsing the corrected `toString` of any colour gives that colour back |
| Colors.UpperHexLetters | lib/src/main/kotlin/canvas/Color.kt:57 | upper-casing keeps the length, keeps which characters are hex digits and keeps their values |
| Colors.ParseIgnoresCase | lib/src/main/kotlin/canvas/Color.kt:57-77 | parsing is case-insensitive: upper-casing the text changes nothing |
| Colors.FromStringAsWritten | lib/src/main/kotlin/canvas/Color.kt:59-60 | `fromString` as written succeeds exactly when `tryParse` does; otherwise its message names the companion object, not the input |
| Colors.FromStringLosesInput | lib/src/main/kotlin/canvas/Color.kt:60 | two different unparseable inputs give the same error as written |
| Colors.FromString | lib/src/main/kotlin/canvas/Color.kt:59-60 | the corrected `fromString`: succeeds exactly when `tryParse` does, and its error quotes the input text |
| Colors.FromStringNamesInput | lib/src/main/kotlin/canvas/Color.kt:60 | with the correction, equal error messages come from equal inputs |
| Dimension.OfNullable | lib/src/main/kotlin/canvas/Dimension.kt:31-32 | `of(null)` is `AUTO`, and `of(v)` holds v |
| Dimension.ToNullable | lib/src/main/kotlin/canvas/Dimension.kt:7-8 | the nullable view is non-null exactly when the dimension has a value |
| Dimension.PackingIsBijective | lib/src/main/kotlin/canvas/Dimension.kt:29-32 | `of` and the nullable view are mutually inverse, and `AUTO` has no value |
| Dimension.Or | lib/src/main/kotlin/canvas/Dimension.kt:10 | `or` keeps a known dimension, otherwise takes the fallback, and is known when either side is |
| Dimension.OrMonoid | lib/src/main/kotlin/canvas/Dimension.kt:10 | `or` is associative, with `AUTO` as its identity on both sides |
| Dimension.OrElse | lib/src/main/kotlin/canvas/Dimension.kt:12-16 | `orElse` is the value when known, otherwise the fallback |
| Dimension.OrElseOf | lib/src/main/kotlin/canvas/Dimension.kt:12-13 | `of(v).orElse(f)` is v, and `AUTO.orElse(f)` is f |
| Dimension.OrThrow | lib/src/main/kotlin/canvas/Dimension.kt:18-19 | `orThrow` fails exactly on `AUTO`, with "Cannot resolve dimension"; otherwise it returns the value |
| Dimension.MapValue | lib/src/main/kotlin/canvas/Dimension.kt:21-22 | `mapValue` keeps `AUTO` and applies the transform to a known value |
| Dimension.MapValueFunctor | lib/src/main/kotlin/canvas/Dimension.kt:21-22 | `mapValue` preserves the identity and composition |
| Dimension.IfValid | lib/src/main/kotlin/canvas/Dimension.kt:24-26 | `ifValid` calls its action once, with the value, when known, and never on `AUTO` |
| Dimension.ToString | lib/src/main/kotlin/canvas/Dimension.kt:29 | the value-class text is `Dimension(value=…)`, showing a negative number exactly for `AUTO` |
| Internal.Fail | lib/src/main/kotlin/canvas/internal.kt:3 | `fail` is a failure carrying a `CanvasOpException` whose reported message is the one given |
| Internal.ToCanvasOperationError | lib/src/main/kotlin/canvas/internal.kt:8-9 | a `CanvasOpException` with a message reports that bare message; anything else reports its `toString()`: the class name, then ": " and the message when it has one |
| Internal.MapResultMonadLaws | lib/src/main/kotlin/canvas/internal.kt:5-6 | `mapResult` obeys the monad laws |
| Internal.MapResultFailure | lib/src/main/kotlin/canvas/internal.kt:5-6 | `mapResult` passes a failure through without calling its transform |
| Internal.NatToString | lib/src/main/kotlin/canvas/RegionOp.kt:40-48 | decimal printing of a natural is a non-empty string of digits with no leading zero, whose decimal value is the number itself |
| Internal.IntToString | lib/src/main/kotlin/canvas/RegionOp.kt:40-48 | decimal printing of an int starts with `-` exactly for negatives, and the digits after it denote the magnitude |
| Hash.LeBytes | lib/src/main/kotlin/Hash.kt:8 | the `IntArray` constructor's little-endian buffer puts byte k of word j at index 4j+k |
| Hash.LeBytesRoundTrip | lib/src/main/kotlin/Hash.kt:8 | reading the little-endian buffer back as words recovers the int array |
| Hash.FromInts | lib/src/main/kotlin/Hash.kt:8-9 | the hash of an int array is SHA-256 of its little-endian bytes, a 256-bit value |
| Hash.ToHexDigits | lib/src/main/kotlin/Hash.kt:12 | `BigInteger.toString(16)` is non-empty, lower-case, with no leading zero |
| Hash.HexValueOfDigits | lib/src/main/kotlin/Hash.kt:12 | the hex digits of n denote n |
| Hash.HexDigitsFit | lib/src/main/kotlin/Hash.kt:12 | a 256-bit value needs at most 64 hex digits |
| Hash.HexValueLeadingZeros | lib/src/main/kotlin/Hash.kt:10-12 | leading zeros do not change the value a hex string denotes |
| Hash.PadStart | lib/src/main/kotlin/Hash.kt:12 | `padStart(n, '0')` prefixes exactly the zeros that bring the text to length n and leaves longer text alone |
| Hash.ToString | lib/src/main/kotlin/Hash.kt:12 | a hash prints as lower-case hex, exactly 64 characters for a 256-bit value |
| Hash.FromHexString | lib/src/main/kotlin/Hash.kt:10 | the string constructor accepts exactly non-empty unsigned ASCII hex text, and its value fits the text's digits |
| Hash.ToStringRoundTrip | lib/src/main/kotlin/Hash.kt:10-12 | parsing the printed hash gives the same hash |
| Canvas.CellOfPixel | lib/src/main/kotlin/canvas/canvas.kt:52-55 | the buffer index x + y·width of an in-bounds pixel lies in the buffer and decodes back to (x, y) |
| Canvas.CellsDistinct | lib/src/main/kotlin/canvas/canvas.kt:52-55 | distinct pixels use distinct buffer cells |
| Canvas.Get | lib/src/main/kotlin/canvas/canvas.kt:23-52 | a single-colour canvas reads its colour at every pixel, and a dense canvas reads cell `y * width + x` of its row-major buffer |
| Canvas.IsInBoundary | lib/src/main/kotlin/canvas/canvas.kt:12 | an in-bounds pixel has its cell inside a dense buffer of width × height cells |
| Canvas.NewMutable | lib/src/main/kotlin/canvas/canvas.kt:43 | the buffer constructor accepts exactly a buffer of width·height colours, and otherwise fails with "mismatching data size" |
| Canvas.Blank | lib/src/main/kotlin/canvas/canvas.kt:46 | the blank constructor gives a dense canvas of that size, transparent everywhere |
| Canvas.Set | lib/src/main/kotlin/canvas/canvas.kt:53-55 | `set` changes exactly the one pixel, and every other pixel and the size stay as they were |
| Canvas.Fill | lib/src/main/kotlin/canvas/canvas.kt:67-70 | filling a canvas with a per-pixel function makes each pixel that function's value |
| Canvas.CopyOf | lib/src/main/kotlin/canvas/canvas.kt:47-50 | the copy constructor yields a dense canvas with the same pixels |
| Canvas.RawRead | lib/src/main/kotlin/canvas/canvas.kt:74-75 | reading the backing buffer without a bounds check agrees with `get` in bounds, and fails only past the buffer's end |
| Canvas.CopySubArea | lib/src/main/kotlin/canvas/canvas.kt:74-75 | `copySubArea` fails with an index error exactly when the window reads past the buffer; otherwise it is a canvas of the window's size showing the source shifted by the offset |
| Canvas.CopySubAreaInside | lib/src/main/kotlin/canvas/canvas.kt:74-75 | a window inside the source, or any window of a single-colour canvas, copies successfully |
| Canvas.PixelOrder | lib/src/main/kotlin/canvas/canvas.kt:77-83 | `forEachPixel` makes width·height visits |
| Canvas.PixelOrderInBounds | lib/src/main/kotlin/canvas/canvas.kt:77-83 | every visited pixel is inside the canvas |
| Canvas.PixelOrderVisits | lib/src/main/kotlin/canvas/canvas.kt:77-83 | every pixel is visited, pixel (x, y) at step x·height + y, column by column |
| Canvas.PixelOrderInjective | lib/src/main/kotlin/canvas/canvas.kt:77-83 | no pixel is visited twice |
| Canvas.Cells | lib/src/main/kotlin/canvas/canvas.kt:32-57 | the row-major cell list has width·height entries, and each pixel sits at its own index |
| Canvas.ColorArray | lib/src/main/kotlin/canvas/canvas.kt:32-57 | `createColorArray` gives each pixel's packed word at its row-major index |
| Canvas.SamePixelsSameHash | lib/src/main/kotlin/canvas/canvas.kt:25-57 | two canvases with the same pixels have the same colour array and the same pixel hash, whether single-colour or dense |
| Canvas.PixelHash | lib/src/main/kotlin/canvas/canvas.kt:25-57 | the hash is the digest of the pixels' ARGB words in row-major order, four little-endian bytes per pixel |
| Canvas.MutableExtensional | lib/src/main/kotlin/canvas/canvas.kt:43-57 | two dense canvases with the same pixels are equal |
| Canvas.FillBuffer | lib/src/main/kotlin/canvas/canvas.kt:67-70 | the loop that fills the buffer cell by cell builds exactly the canvas of `Canvas.Fill` |
| Canvas.ForEachPixel | lib/src/main/kotlin/canvas/canvas.kt:77-83 | the nested loop over x, then y, visits the pixels in `PixelOrder` |
| Canvas.CopyStep | lib/src/main/kotlin/canvas/canvas.kt:47-50 | one step of the copy loop extends the copied prefix by one pixel |
| Canvas.CopyComplete | lib/src/main/kotlin/canvas/canvas.kt:47-50 | once every pixel is copied, the result is the copy of the source |
| Canvas.CopyConstruct | lib/src/main/kotlin/canvas/canvas.kt:47-50 | the copy constructor's `forEachPixel` loop over a single-colour source gives the same canvas as `CopyOf` |
| Blend.Factor | api/src/main/kotlin/canvas/blend.kt:49-60 | every blend factor is a weight in [0,1]: ZERO is 0, ONE is 1, and for an opaque source SRC_ALPHA is 1 and ONE_MINUS_SRC_ALPHA is 0 |
| Blend.Truncate | api/src/main/kotlin/canvas/blend.kt:28-34 | `toInt` truncates toward zero |
| Blend.BlendChannels | api/src/main/kotlin/canvas/blend.kt:6-19 | each output channel is the clamped equation applied with the colour factors for r, g, b and the alpha factors for a |
| Blend.Equate | api/src/main/kotlin/canvas/blend.kt:28-34 | `Min` and `Max` pick the smaller or larger of the two channels; `Add` with weights (1, 0) keeps the source channel and with (0, 1) the destination's |
| Blend.BlendColors | api/src/main/kotlin/canvas/blend.kt:6-19 | with `Min` every output channel is at most both inputs' channels, with `Max` at least both |
| Blend.ChannelFunctionsIndependent | api/src/main/kotlin/canvas/blend.kt:15-18 | the colour factors do not affect the alpha channel, and the alpha factors do not affect r, g, b |
| Blend.MinMaxChannelwise | api/src/main/kotlin/canvas/blend.kt:32-33 | MIN and MAX take each channel's minimum or maximum, whatever the factors |
| Blend.AddSelects | api/src/main/kotlin/canvas/blend.kt:28-60 | ADD with (ONE, ZERO) gives the source, and with (ZERO, ONE) gives the destination |
| Blend.SourceOverOpaque | api/src/main/kotlin/canvas/blend.kt:6-34 | source-over blending of an opaque source gives the source's colour channels, and the whole source when alpha uses the same factors |
| Blend.UnitWeights | api/src/main/kotlin/canvas/blend.kt:30-31 | SUBTRACT and REVERSE_SUBTRACT with unit weights are the plain channel differences |
| Blend.SubtractSaturates | api/src/main/kotlin/canvas/blend.kt:6-34 | subtracting with unit weights saturates each channel at 0 |
| Layer.Composite | lib/src/main/kotlin/canvas/LayerOp.kt:48-62 | the composited canvas has the layer's size; entries are painted from the last to the first, the first painted copied and each later one blended over what is below |
| Layer.PassThrough | lib/src/main/kotlin/canvas/LayerOp.kt:52-54 | layers that do not cover a pixel leave it unchanged |
| Layer.Uncovered | lib/src/main/kotlin/canvas/LayerOp.kt:48-54 | a pixel no layer covers stays transparent |
| Layer.OnlyCover | lib/src/main/kotlin/canvas/LayerOp.kt:56-59 | a pixel that exactly one layer covers takes that layer's colour as is when the layer is the last entry, which is painted first; otherwise it takes that colour blended over transparency |
| Layer.OpaqueTopHides | lib/src/main/kotlin/canvas/LayerOp.kt:56-59 | with source-over blending, an opaque pixel of the earliest entry covering a point, which is painted last, hides every entry under it |
| Layer.SingleLayer | lib/src/main/kotlin/canvas/LayerOp.kt:48-62 | one layer at the origin shows its pixels inside its extent and transparency elsewhere |
| Layer.PaintStep | lib/src/main/kotlin/canvas/LayerOp.kt:50-62 | one step of the paint loop keeps the invariant of pixels painted so far |
| Layer.Paint | lib/src/main/kotlin/canvas/LayerOp.kt:48-62 | the nested paint loop over layers and pixels builds exactly the `Composite` canvas |
| Layer.Errors | lib/src/main/kotlin/canvas/LayerOp.kt:24-44 | the gathered errors are empty exactly when every child succeeded |
| Layer.ErrorsAppend | lib/src/main/kotlin/canvas/LayerOp.kt:24-35 | gathering errors distributes over concatenating children |
| Layer.Messages | lib/src/main/kotlin/canvas/LayerOp.kt:37-44 | each reported line is the error's `toCanvasOperationError` text |
| Layer.Compose | lib/src/main/kotlin/canvas/LayerOp.kt:22-62 | a layer fails exactly when a child fails; if a child threw, `awaitAll` rethrows, so the layer fails with that exception unchanged; otherwise the failure is "One of the child operations failed:" with every child's error on its own line; with no entries the layer is a transparent constant canvas, else the composite of the children |
| Ops.Resolve | lib/src/main/kotlin/canvas/ColorFillOp.kt:13-14 | a side resolves exactly when it or the parent's is known, preferring its own, and otherwise fails with "Cannot resolve width/height" |
| Ops.Fill | lib/src/main/kotlin/canvas/ColorFillOp.kt:13-15 | a fill succeeds exactly when both sides resolve; the width error comes first; the result has the fill colour everywhere |
| Ops.MulChannel | lib/src/main/kotlin/canvas/ColorTintOp.kt:17-22 | multiplying channels as p·q/255 gives at most either channel, with 255 as identity and 0 as zero |
| Ops.Multiply | lib/src/main/kotlin/canvas/ColorTintOp.kt:17-22 | `multiplyColor` multiplies each channel |
| Ops.MultiplyProperties | lib/src/main/kotlin/canvas/ColorTintOp.kt:17-22 | tinting only darkens: white leaves a colour unchanged, and transparent turns it transparent |
| Ops.Tint | lib/src/main/kotlin/canvas/ColorTintOp.kt:11-14 | a tint keeps the size and multiplies every pixel by the colour |
| Ops.TintExtremes | lib/src/main/kotlin/canvas/ColorTintOp.kt:11-22 | tinting with white keeps every pixel, and tinting with transparent clears every pixel |
| Ops.Crop | lib/src/main/kotlin/canvas/RegionOp.kt:19-52 | a region with both sides known that exceeds the image fails with the boundary message; on success the size is the known side, or the rest of the source past the offset |
| Ops.CropInside | lib/src/main/kotlin/canvas/RegionOp.kt:19-30 | a region that fits succeeds and shows the source shifted by the offset |
| Ops.GradientMapStep | lib/src/main/kotlin/canvas/GradientMapOp.kt:17-28 | a gradient map fails exactly when its target or its gradient fails; an exception thrown by either escapes the scope and wins, the target's first; otherwise the target's returned failure comes before the gradient's; it keeps the size, and with no map or output channel it keeps the pixels |
| Ops.ReadImage | lib/src/main/kotlin/canvas/RawImageOp.kt:8 | a raw image is the loaded image, or a failure naming the path |
| Ops.Run | lib/src/main/kotlin/canvas/CanvasOp.kt:5-19 | a dependency operation yields exactly what the dependency handle gives for its path; a raw image succeeds exactly when the image loads; a tint succeeds exactly when its target does |
| Ops.RunSize | lib/src/main/kotlin/canvas/ColorFillOp.kt:13-15 | a successful run delivers the size the operation promises: its own side, or the parent's when `AUTO`, with tints and gradient maps keeping their target's |
| Ops.FailurePropagates | lib/src/main/kotlin/canvas/RegionOp.kt:18 | a failing target fails a tint, and a failing source a region, with the same error; a failing target fails a gradient map, with the same error when the target threw |
| Ops.TextureOutOfBoundsWins | lib/src/main/kotlin/canvas/GradientMapOp.kt:17-28 | a texture gradient whose row or column lies outside the rendered texture makes the gradient map fail with the thrown index exception, even when the target returned a failure, unless the target threw too |
| Ops.LayerOutcome | lib/src/main/kotlin/canvas/LayerOp.kt:22-48 | once its size resolves, a layer fails exactly when a child, run at the layer's size, fails, and it throws exactly when such a child throws; with no entries it is transparent |
| Ops.RegionOfAutoFill | lib/src/main/kotlin/canvas/RegionOp.kt:15-30 | a region of an `AUTO` fill asks the fill for the region plus its offset, so it always fits and has the fill colour |
| Ops.RunUsesOnlyDependencies | lib/src/main/kotlin/canvas/DependencyOp.kt:4-5 | a run consults the dispatcher only for the entries its own `DependencyOp`s name |
| Gradient.Replace | lib/src/main/kotlin/canvas/gradient.kt:50-55 | `replace` takes the listed channels from the other colour and keeps the rest |
| Gradient.ReplaceExtremes | lib/src/main/kotlin/canvas/gradient.kt:50-55 | replacing no channel keeps the pixel, and replacing all four gives the other colour |
| Gradient.MapValue | lib/src/main/kotlin/canvas/gradient.kt:45-48 | the map value, the mean of the chosen channels over 255, lies in [0,1] |
| Gradient.ProportionProperties | lib/src/main/kotlin/canvas/gradient.kt:42-43 | `proportion` over [0,1] is the identity; over a degenerate range it returns the value; it sends the ends to 0 and 1 and keeps an inner value in [0,1] |
| Gradient.CountBelow | lib/src/main/kotlin/canvas/gradient.kt:97-104 | the search position splits the stops into those below the value and those at or above it |
| Gradient.GradientGetEnds | lib/src/main/kotlin/canvas/gradient.kt:97-104 | with no stops the gradient is black; below the first stop it is the first colour; past the last it is the last colour |
| Gradient.GradientGetAtStop | lib/src/main/kotlin/canvas/gradient.kt:97-104 | at a stop's point the gradient is that stop's colour |
| Gradient.GradientGetBetween | lib/src/main/kotlin/canvas/gradient.kt:97-104 | strictly between two stops, every channel lies between the two stops' channels |
| Gradient.Reverse | lib/src/main/kotlin/canvas/gradient.kt:87-92 | a reversed direction reads the line from the far end |
| Gradient.StopsOf | lib/src/main/kotlin/canvas/gradient.kt:71-79 | a texture line of n pixels becomes stops at i/n, strictly increasing |
| Gradient.Line | lib/src/main/kotlin/canvas/gradient.kt:71-92 | the sampled line runs along the texture's row or column in the direction's order |
| Gradient.SampleTexture | lib/src/main/kotlin/canvas/gradient.kt:65-84 | a texture gradient fails with an index error exactly when the index is past the texture, and otherwise gives the stops of that line |
| Gradient.SampleTextureStops | lib/src/main/kotlin/canvas/gradient.kt:65-84 | the sampled stops have the line's length, and stop i sits at i/n |
| Gradient.EligibleValues | lib/src/main/kotlin/canvas/gradient.kt:19-29 | the rescale pass collects exactly the map values of the pixels with non-zero alpha, or of every pixel when alpha is a map channel |
| Gradient.RescaleRange | lib/src/main/kotlin/canvas/gradient.kt:19-33 | the range starts at (1, 0), covers every collected value, and each end is either its start or a collected value |
| Gradient.ApplyGradient | lib/src/main/kotlin/canvas/gradient.kt:7-40 | applying a gradient keeps the size, and with no map or output channel it changes nothing |
| Gradient.ApplyGradientPixels | lib/src/main/kotlin/canvas/gradient.kt:34-39 | a transparent pixel is kept unless alpha is a map channel; any other pixel has its output channels replaced by the gradient's colour at its rescaled value |
| Gradient.NoRescaleSamplesMapValue | lib/src/main/kotlin/canvas/gradient.kt:30-39 | without rescaling, an eligible pixel samples the gradient at its own map value |
| Gradient.RescaleSpansValues | lib/src/main/kotlin/canvas/gradient.kt:19-33 | with rescaling, the range spans every eligible pixel's map value |
| Graph.Nodes | lib/src/main/kotlin/CanvasOpDispatcher.kt:54-55 | the node set contains both ends of every edge |
| Graph.ReachesTransitive | lib/src/main/kotlin/CanvasOpDispatcher.kt:61-64 | reachability is transitive |
| Graph.CheckCyclesIsReachability | lib/src/main/kotlin/CanvasOpDispatcher.kt:61-64 | on an acyclic graph, `checkCycles(entry, dependency)` holds exactly when the dependency reaches the entry |
| Graph.CheckCycles | lib/src/main/kotlin/CanvasOpDispatcher.kt:61-64 | an entry listed among the dependency's own dependencies is found at once, and a dependency with no recorded dependencies finds nothing |
| Graph.AddEdge | lib/src/main/kotlin/CanvasOpDispatcher.kt:54-55 | adding a dependency adds exactly that one edge |
| Graph.AddEdgeKeepsAcyclic | lib/src/main/kotlin/CanvasOpDispatcher.kt:51-55 | an edge from a to b with b not reaching a keeps the graph acyclic |
| Graph.EmptyAcyclic | lib/src/main/kotlin/CanvasOpDispatcher.kt:74-85 | a new dispatcher's empty dependency map is acyclic |
| Dispatcher.EmptyValid | lib/src/main/kotlin/CanvasOpDispatcher.kt:74-85 | the empty dispatcher state is valid |
| Dispatcher.Report | lib/src/main/kotlin/CanvasOpDispatcher.kt:29-36 | a failed task reports its bare message for a `CanvasOpException`, and otherwise "Unexpected exception: …" |
| Dispatcher.TaskRunner | lib/src/main/kotlin/CanvasOpDispatcher.kt:29-36 | each task runs its operation with the default size in its entry's context |
| Dispatcher.Dispatch | lib/src/main/kotlin/CanvasOpDispatcher.kt:17-40 | dispatching adds an entry per operation; a success stores the canvas, and a failure stores nothing and reports; the edges stay the same |
| Dispatcher.DispatchValid | lib/src/main/kotlin/CanvasOpDispatcher.kt:17-40 | dispatching keeps the state valid |
| Dispatcher.Create | lib/src/main/kotlin/CanvasOpDispatcher.kt:74-85 | `create` yields a valid state with one entry per operation and no edges |
| Dispatcher.Await | lib/src/main/kotlin/CanvasOpDispatcher.kt:42-44 | `await` gives every dispatched entry's result |
| Dispatcher.CreateThenAwait | lib/src/main/kotlin/CanvasOpDispatcher.kt:17-44 | after `create`, an entry awaits to nothing exactly when its task failed and was reported |
| Dispatcher.Rejection | lib/src/main/kotlin/CanvasOpDispatcher.kt:48-53 | the checks run in the order unknown entry, unknown dependency, self dependency, cycle; a request passes exactly when both are known, distinct, and the dependency does not reach the entry |
| Dispatcher.AddDependency | lib/src/main/kotlin/CanvasOpDispatcher.kt:46-59 | a rejection fails with its message and leaves the state alone; otherwise exactly the one edge is added, the result is the dependency's canvas or "One or more dependency failed", and validity is kept |
| Dispatcher.AddDependencyResult | lib/src/main/kotlin/CanvasOpDispatcher.kt:54-58 | a successful answer is the canvas of a different, dispatched dependency; an accepted request on a failed dependency answers "One or more dependency failed" |
| Dispatcher.Replay | lib/src/main/kotlin/CanvasOpDispatcher.kt:46-59 | any sequence of dependency requests keeps the state valid and the entries unchanged |
| Dispatcher.ReplayKeepsEdges | lib/src/main/kotlin/CanvasOpDispatcher.kt:54-55 | edges are never removed |
| Dispatcher.NoCycleEver | lib/src/main/kotlin/CanvasOpDispatcher.kt:46-64 | no sequence of requests after `create` ever produces a cycle |
| AppDispatcher.Guard | app/src/main/kotlin/CanvasOpDispatcher.kt:35-39 | a thrown exception that is not a `CanvasOpException` becomes `fail("Unexpected exception: …")`; anything else passes through |
| AppDispatcher.Dispatch | app/src/main/kotlin/CanvasOpDispatcher.kt:25-43 | dispatching stores every entry's guarded result with its optimisation type, and keeps the edges |
| AppDispatcher.Create | app/src/main/kotlin/CanvasOpDispatcher.kt:78-88 | `create` yields a valid state with one entry per operation and no edges |
| AppDispatcher.AddDependency | app/src/main/kotlin/CanvasOpDispatcher.kt:45-63 | the same checks and edge as the library dispatcher; an accepted request returns the dependency's result, whose failure is "One or more dependency failed" |
| AppDispatcher.AgreesWithLibrary | app/src/main/kotlin/CanvasOpDispatcher.kt:45-58 | the application dispatcher's dependency step agrees with the library's |
| ApiDispatcher.Rejection | api/src/main/kotlin/CanvasOpDispatcher.kt:45-49 | the api dispatcher checks unknown names and cycles, but not self dependency |
| ApiDispatcher.AddDependency | api/src/main/kotlin/CanvasOpDispatcher.kt:43-55 | an unknown name or a cycle fails and changes nothing; an accepted request records exactly the one new edge and never returns, because it awaits the requester's own unfinished task |
| ApiDispatcher.SelfEdgeRecorded | api/src/main/kotlin/CanvasOpDispatcher.kt:45-52 | a self dependency is accepted, creates a cycle and never returns, where the library dispatcher rejects it |
| ApiDispatcher.AcceptedRequestHangs | api/src/main/kotlin/CanvasOpDispatcher.kt:45-54 | an accepted api request records the same edge as the library dispatcher, but never returns, where the library dispatcher returns the dependency's result |
| Cache.MatchLine | app/src/main/kotlin/main.kt:195 | a line matches the cache pattern only as 64 lower-case hex digits, a space and a path |
| Cache.MatchLineAccepts | app/src/main/kotlin/main.kt:195 | every well-formed line matches and yields its hash and path |
| Cache.ParseLine | app/src/main/kotlin/main.kt:106-110 | a parsed cache entry's hash fits 256 bits |
| Cache.LastFor | app/src/main/kotlin/main.kt:106-110 | finds the last line for a path, or reports that no line names it |
| Cache.LastLineWins | app/src/main/kotlin/main.kt:106-110 | a path is in the cache exactly when some line names it, and its hash comes from the last such line |
| Cache.ReadCache | app/src/main/kotlin/main.kt:102-118 | ignoring the cache, or having no file, gives an empty cache; otherwise the map is read line by line |
| Cache.ReadLines | app/src/main/kotlin/main.kt:105-110 | the path of every well-formed line is in the map, and every hash read fits in 256 bits |
| Cache.LineRoundTrip | app/src/main/kotlin/main.kt:141-152 | a written cache line parses back to its path and hash |
| Cache.FormatLine | app/src/main/kotlin/main.kt:145-147 | a line is the 64 digits of the hash, a space and the path, and it holds no newline when the path is a single line |
| Cache.CacheText | app/src/main/kotlin/main.kt:141-152 | splitting the written file at its newlines gives back exactly one formatted line per finished entry |
| Cache.FormatAll | app/src/main/kotlin/main.kt:141-152 | writes one line per entry, in order |
| Cache.LinesOfJoin | app/src/main/kotlin/main.kt:102-152 | splitting newline-joined lines gives the lines back |
| Cache.ReadFormatted | app/src/main/kotlin/main.kt:102-152 | reading the written lines gives the map of the entries written |
| Cache.CacheFileRoundTrip | app/src/main/kotlin/main.kt:102-152 | reading the cache file that `save` writes gives back the finished entries |
| Cache.Decide | app/src/main/kotlin/main.kt:75-79 | an image whose hash matches the cache is not saved; a saved image had a different or no cached hash |
| Cache.Plan | app/src/main/kotlin/main.kt:73-81 | plans exactly the entries that produced a canvas, deciding each one on its pixel hash against the cached hash |
| Cache.UnchangedNotSaved | app/src/main/kotlin/main.kt:75-79 | an entry whose pixel hash is the cached one is finished without saving |
| Cache.Finished | app/src/main/kotlin/main.kt:141-152 | the finished entries are at most the operations, and their paths are exactly the paths whose task yielded a result |
| Cache.SavedCount | app/src/main/kotlin/main.kt:141-152 | the saved files are at most the finished operations, and none are counted exactly when no finished task wrote its file |
| Cache.FinishedStep | app/src/main/kotlin/main.kt:141-152 | one step of the save loop appends that operation's entry, if any |
| Cache.SaveStep | app/src/main/kotlin/main.kt:141-152 | one step of the save loop keeps the counters, the cache text and the deletion set in step with the processed prefix |
| Cache.Save | app/src/main/kotlin/main.kt:120-164 | `save` counts the finished and saved operations, writes the cache text exactly when output caching is on, and deletes the cached files no finished operation produced |
| SaveHandler.SaveImage | app/src/main/kotlin/SaveHandler.kt:28-51 | saving succeeds exactly when compression and writing both succeed; a compression failure skips the write and reports "Cannot compress PNG file: …"; a write failure reports "Cannot write output: …" |
| SaveHandler.Successes | app/src/main/kotlin/SaveHandler.kt:63-87 | the cache entries are those of the successful operations |
| SaveHandler.UpdateCache | app/src/main/kotlin/SaveHandler.kt:63-96 | the cache is written exactly when output caching is on, and the files to delete are the cached ones with no successful operation |
| SaveHandler.DeleteReports | app/src/main/kotlin/SaveHandler.kt:89-95 | a report is made for exactly the files whose deletion failed |
| SaveHandler.AsOutcomes | app/src/main/kotlin/SaveHandler.kt:63-87 | one outcome per operation |
| SaveHandler.AgreesWithSave | app/src/main/kotlin/SaveHandler.kt:63-96 | the save handler's cache update finishes the same entries and paths as the main `save` |
| SaveHandler.UpdateThenRead | app/src/main/kotlin/SaveHandler.kt:63-96 | reading back the updated cache text gives the map of the successful entries |
| Script.Thrown | script/src/main/kotlin/script.kt:213-215 | an exception thrown from a receiver is a non-`CanvasOpException` failure with that message |
| Script.IsValidLocation | script/src/main/kotlin/script.kt:217-225 | a location is valid exactly when every character is a lower-case letter, a digit, or one of `_ - . /` |
| Script.PathExamples | script/src/main/kotlin/script.kt:217-225 | the empty path and `ui/button_1.hover` are valid; upper case, spaces and backslashes are not |
| Script.CheckDefault | script/src/main/kotlin/script.kt:43-52 | a default size may be unset or non-negative; a negative one fails with "Negative … is not allowed" |
| Script.SetDefaultWidth | script/src/main/kotlin/script.kt:43-47 | setting the default width changes only that field, and only to an allowed value |
| Script.SetDefaultHeight | script/src/main/kotlin/script.kt:48-52 | setting the default height changes only that field, and only to an allowed value |
| Script.ToUIntChecked | script/src/main/kotlin/script.kt:228-229 | a non-negative int converts to itself; a negative one fails with "Negative value is not allowed" |
| Script.Dim | script/src/main/kotlin/script.kt:232-235 | a missing size is `AUTO`, and a given size converts exactly when non-negative |
| Script.Generate | script/src/main/kotlin/script.kt:54-60 | `generate` accepts exactly a valid, new path, with the not-a-location or already-exists error first; on success it records the operation |
| Script.GenerateKeepsEntries | script/src/main/kotlin/script.kt:54-60 | `generate` keeps every earlier entry |
| Script.Image | script/src/main/kotlin/script.kt:62-65 | `image` accepts exactly a valid path and gives its raw image |
| Script.Fill | script/src/main/kotlin/script.kt:67-68 | `fill` succeeds exactly for parseable colour text and valid sizes, and reports a bad colour with `toColorOrThrow`'s `IllegalArgumentException` "Cannot parse color '<text>'", the message of the corrected `Colors.FromString` |
| Script.Region | script/src/main/kotlin/script.kt:72-78 | `region` succeeds exactly for non-negative offsets and valid sizes |
| Script.AtOrigin | script/src/main/kotlin/script.kt:80-96 | the shorthand layer places every operation at offset (0, 0) |
| Script.LayerOf | script/src/main/kotlin/script.kt:98-111 | a layer succeeds exactly when its sizes convert |
| Script.Layer | script/src/main/kotlin/script.kt:80-111 | the shorthand layer succeeds exactly when its sizes convert, and then holds every entry at the origin, those sizes, and the given equation with one pair of functions for colour and alpha alike |
| Script.LayerDefaults | script/src/main/kotlin/script.kt:80-96 | the default shorthand layer blends source-over, has `AUTO` sizes and places every operation at the origin |
| Script.LayerBuilderAdd | script/src/main/kotlin/script.kt:173-177 | `LayerBuilder.add` appends one entry and keeps the earlier ones |
| Script.TextureGradient | script/src/main/kotlin/script.kt:159-163 | a texture gradient accepts exactly a non-negative index |
| Script.Insert | script/src/main/kotlin/script.kt:180-186 | inserting a new point adds exactly one stop and keeps the others |
| Script.GradientAdd | script/src/main/kotlin/script.kt:180-186 | `add` accepts exactly a point in [0,1) that is not already present, with parseable colour text; otherwise the invalid-point or duplicate error |
| Script.ComponentOf | script/src/main/kotlin/script.kt:205-211 | the letters a, r, g, b in either case name the four channels |
| Script.UnknownFlag | script/src/main/kotlin/script.kt:197-200 | the report quotes the character and its code, in hex digits that read back as that code |
| Script.AddFlag | script/src/main/kotlin/script.kt:192-211 | a flag either adds a component not chosen before or appends exactly one report; nothing chosen or reported earlier is lost |
| Script.ParseChannel | script/src/main/kotlin/script.kt:189-211 | the channels parsed are exactly those named in the text, and each other character adds one report |
| Script.ParseChannelSnoc | script/src/main/kotlin/script.kt:189-211 | parsing goes left to right, one character at a time |
| Script.ParseChannelDefaults | script/src/main/kotlin/script.kt:189-211 | the default "RGB" parses to red, green and blue and "RGBA" to all four channels, without a report |
| Script.DistinctFlagsNoReports | script/src/main/kotlin/script.kt:189-211 | text whose every character names a component, none twice, parses without a report |
| Script.GradientMap | script/src/main/kotlin/script.kt:189-211 | a gradient map keeps its target, gradient and rescale flag; its channels are those named; unnamed characters are reported |
| RootScript.SetDefaultWidth | script/src/main/kotlin/root.kt:11-15 | the root default width rejects a negative value with "Negative width is not allowed" and otherwise sets only that field |
| RootScript.SetDefaultHeight | script/src/main/kotlin/root.kt:16-20 | the root default height rejects a negative value with "Negative height is not allowed" and otherwise sets only that field |
| RootScript.Generate | script/src/main/kotlin/root.kt:24-26 | `generate` accepts exactly a new path, with no location check, and records the operation with its optimisation type |
| RootScript.GenerateAll | script/src/main/kotlin/root.kt:24-26 | a run of `generate` calls succeeds exactly when the paths are new and distinct, and records them all |
| RootScript.GenerateThenDispatch | script/src/main/kotlin/root.kt:24-26 | a generated entry reaches the dispatcher with its own operation |
| RootScript.Image | script/src/main/kotlin/root.kt:28 | `image` gives the raw image of the path unchecked |
| RootScript.Output | script/src/main/kotlin/root.kt:33 | `output` is a dependency on the named entry |
| RootScript.ImageUnchecked | script/src/main/kotlin/root.kt:28 | the root `image` accepts a path that the older receiver rejects |
| RootScript.Fill | script/src/main/kotlin/root.kt:30-31 | `fill` takes a colour and succeeds exactly for valid sizes |
| RootScript.FillAgreesWithScript | script/src/main/kotlin/root.kt:30-31 | the root `fill` of a parsed colour equals the older receiver's `fill` of its text |
| RootScript.Tint | script/src/main/kotlin/root.kt:43 | `tint` builds a tint of the target by the colour |
| RootScript.RgbColor | script/src/main/kotlin/root.kt:144 | `rgb(Int)` is opaque with the low 24 bits as its colour |
| RootScript.RgbColorChannels | script/src/main/kotlin/root.kt:144 | `rgb(Int)` is the opaque colour of the int's three low bytes |
| RootScript.ArgbColor | script/src/main/kotlin/root.kt:146 | `argb(Long)` keeps the low 32 bits |
| RootScript.ArgbColorChannels | script/src/main/kotlin/root.kt:146-147 | `argb` of a packed word is the colour of its four channels |
| RootScript.GradientAdd | script/src/main/kotlin/root.kt:160-166 | the root gradient `add` accepts exactly a point in [0,1], including 1, that is not already present |
| RootScript.GradientEndPoint | script/src/main/kotlin/root.kt:160-166 | the point 1.0 is accepted by the root receiver and rejected by the older one; every other point is treated the same by both |
| Optimization.Ordinal | script/src/main/kotlin/OptimizationType.kt:3-7 | the three optimisation types have ordinals below 3 |
| Optimization.Metadata | script/src/main/kotlin/OptimizationType.kt:8 | the metadata is the single ordinal byte |
| Optimization.FromMetadata | script/src/main/kotlin/OptimizationType.kt:3-8 | a single byte below 3 names a type, and the type named has that ordinal |
| Optimization.MetadataRoundTrip | script/src/main/kotlin/OptimizationType.kt:3-8 | metadata decodes back to its type, so distinct types have distinct metadata |

## Left out

- TransformOp and `transform.kt` are not modelled. They are affine transforms with floating-point matrices and interpolation.
- Floating point: `Float` is modelled as `real`, with no rounding. Printing a `Float` in error messages is a parameter (`FloatText`).
- Image loading (`ImageLoader.kt`) becomes the `readImage` function of an operation context.
- PNG encoding and pngtastic compression are outcomes given as parameters. So are the writes and deletes of output images, and `toBufferedImage`.
- SHA-256 is a function parameter.
- Coroutines, locks, `launch` and `awaitAll` are atomic steps. A task's result is given by a `Runner` function.
- `OpTracker.kt`, `config.kt`, the command-line options and the Kotlin scripting host are left out. They are progress output, configuration and I/O.
- Console messages for malformed cache lines and for echoing progress are not modelled.
- Cache.Lines splits on `\n` only. It does not handle the other line terminators of `readLines`.
- Ops.Crop models `UInt` wrap-around only where an `AUTO` side's offset exceeds the source. There it stops with a failure instead of wrapping.
- The library's and api's `CanvasOp.kt` interfaces are the `Ops.CanvasOp` datatype. The api colour and canvas share the `Colors` and `Canvas` modules.
- The api dispatcher's `awaitAll` is the same as `Dispatcher.Await`.
- `root.kt`'s region, layer, gradientMap, gradient, `LayerBuilder.add`, parseChannel, toUIntChecked and dim delegate to the same logic as the `Script` members, and are modelled by them.
- `rgb(r, g, b)` and `argb(a, r, g, b)` in `root.kt` delegate to `Colors.Opaque` and `Colors.FromChannels`.
- `Optimization.kt` declares the enum in a different order from `OptimizationType.kt`. Only `OptimizationType.kt` is modelled.
- Gradient.SampleTexture reports a read outside a dense texture as the thrown `ArrayIndexOutOfBoundsException`, without the index and length in its message.
- Layer.Compose: when several children throw, the source rethrows whichever exception `awaitAll` meets first. The model picks the first child in entry order.
- Ops.GradientMapStep: when both the target and the gradient throw, which exception escapes the scope depends on scheduling. The model lets the target's win.
- Ops.FailurePropagates: for a gradient map it promises only that a target's returned failure fails the map, not with which error. A thrown texture error wins over it; see Ops.TextureOutOfBoundsWins.
- Hash.FromHexString: `BigInteger(s, 16)` also accepts a leading `+` or `-` and non-ASCII digits. The model accepts only unsigned ASCII hex, the only text the cache line pattern lets through.
- Script.ParseChannel: `String.chars()` yields UTF-16 code units, and the model walks `char`s as code points. A character outside the Basic Multilingual Plane makes one report here and two (one per surrogate) in the source.
- Script.UnknownFlag prints the code point, where the source prints the UTF-16 code unit. They agree on every character of the Basic Multilingual Plane.
- Ops.Run: `UInt` arithmetic wraps modulo 2^32 in `RegionOp`'s `it + xOffset` and in a canvas's `width * height`. The model uses unbounded naturals there; only Ops.Crop models wrap-around.
- ApiDispatcher.Rejection: once a self edge is recorded, the api `checkForDependency` recurses without end and dies with a `StackOverflowError`, which `catch (ex: Exception)` does not catch. The model requires an acyclic graph and does not model that crash.
- Colors.LerpProperties states the bounds of `lerp` on reals. It does not model the rounding of 32-bit floats.
- Ops.RunSize says nothing about raw images and dependencies, whose size is not known before they run.
- Cache.Save, SaveHandler.UpdateCache and Cache.ReadCache assume the cache file can be read and written. In the source, an `IOException` from `createParentDirectories()` or `bufferedWriter()` on the cache path (main.kt:138-140, SaveHandler.kt:75) escapes `save` and `updateCache`, so no stale output is deleted and no summary is printed. A read `IOException` other than `NoSuchFileException` (main.kt:103-115) escapes through `cache.await()`. The model always writes the cache text and reads the file's lines.
- Script.Fill: `script.kt` builds a `ColorRectOp`, a class defined in none of the modelled files. The model takes it to be `ColorFillOp` with the same colour and sizes, as `root.kt`'s `fill` builds.
- Dispatcher.Dispatch does not model dispatching the same path twice concurrently. A later map simply overwrites.

## Findings

| source | as written | input that shows it | evidently intended | confidence | as-written member | corrected member |
|---|---|---|---|---|---|---|
| lib/src/main/kotlin/canvas/Color.kt:50 | an opaque colour prints `rgb` through `Int.toHexString`, which always gives eight digits | white prints `#00FFFFFF`, which parses back as a transparent colour | an opaque colour prints six digits, so that printing and parsing round-trip | not executed | Colors.OpaqueRoundTripFails | Colors.ToStringRoundTrip |
| lib/src/main/kotlin/canvas/Color.kt:60 | the error message interpolates `$this`, the companion object, not the input | `fromString("zz")` and `fromString("#12345")` fail with the same message | the message quotes the text that failed to parse | not executed | Colors.FromStringLosesInput | Colors.FromStringNamesInput |
| api/src/main/kotlin/CanvasOpDispatcher.kt:45-52 | no check that an entry depends on itself before the cycle check | `addDependency("a", "a")` records the edge a→a | a self dependency is rejected, as in the library dispatcher | not executed | ApiDispatcher.SelfEdgeRecorded | Dispatcher.AddDependency |
| api/src/main/kotlin/CanvasOpDispatcher.kt:45-54 | the result awaited is `ops[entry]`, the requesting entry's own task, which cannot finish while it waits | entries a and b are dispatched and b does not reach a; a's `dependOn("b")` records the edge and never returns | the dependency's result is returned | not executed | ApiDispatcher.AcceptedRequestHangs | Dispatcher.AddDependency |

=== FILE: api_dispatcher.dfy ===
/** The older dispatcher of the `api` module (api/src/main/kotlin/CanvasOpDispatcher.kt).
    Its `dispatch` and `awaitAll` behave as the library's
    (`Dispatcher.Dispatch`, `Dispatcher.Await`); its `addDependency`
    differs in two ways, both modelled here as written: there is no
    self-dependency check, and the task it awaits is the requester's own,
    so an accepted request never returns. */
module ApiDispatcher {
  import opened Wrappers
  import opened Internal
  import Canvas
  import Graph
  import Dispatcher

  /** The checks of the api `addDependency`: unknown entry, unknown
      dependency, cycle. */
  function Rejection(known: set<string>, deps: Graph.Edges, entry: string, dependency: string): (r: Option<string>)
    requires Graph.Acyclic(deps)
    ensures entry !in known ==> r == Some(Dispatcher.NoEntry(entry))
    ensures entry in known && dependency !in known ==> r == Some(Dispatcher.NoEntry(dependency))
    ensures entry in known && dependency in known ==>
              (Graph.Reaches(deps, dependency, entry) <==> r == Some(Dispatcher.CyclicDependency(entry, dependency)))
    ensures r.None? <==> entry in known && dependency in known && !Graph.Reaches(deps, dependency, entry)
  {
    Graph.CheckCyclesIsReachability(deps, entry, dependency);
    if entry !in known then Some(Dispatcher.NoEntry(entry))
    else if dependency !in known then Some(Dispatcher.NoEntry(dependency))
    else if Graph.CheckCycles(deps, entry, dependency) then Some(Dispatcher.CyclicDependency(entry, dependency))
    else None
  }

  /** What the api `addDependency` comes to: `result` is `None` when the
      call never returns. */
  datatype Step = Step(result: Option<Result<Canvas.Canvas>>, state: Dispatcher.State)

  /** The api `addDependency`, as written. It is only reachable through the
      requester's own `DependencyHandle`, so it runs inside `entry`'s own
      task; once the checks pass, the edge is recorded and the call awaits
      `ops[entry]`, that same unfinished task, and never returns. */
  function AddDependency(s: Dispatcher.State, entry: string, dependency: string): (r: Step)
    requires Graph.Acyclic(s.deps)
    ensures r.state.ops == s.ops
    ensures r.result.None? <==> Rejection(s.ops.Keys, s.deps, entry, dependency).None?
    ensures match Rejection(s.ops.Keys, s.deps, entry, dependency)
            case Some(msg) => r.state == s && r.result == Some(Fail(msg))
            case None =>
              forall a, b :: Graph.Edge(r.state.deps, a, b) <==>
                               Graph.Edge(s.deps, a, b) || (a == entry && b == dependency)
  {
    match Rejection(s.ops.Keys, s.deps, entry, dependency)
    case Some(msg) => Step(Some(Fail(msg)), s)
    case None => Step(None, Dispatcher.State(s.ops, Graph.AddEdge(s.deps, entry, dependency)))
  }

  /** Without the self check, a dispatched entry asking for itself on an
      acyclic graph gets the self-edge recorded, and the graph is no
      longer acyclic; the library's version rejects the same request and
      leaves the state alone. */
  lemma SelfEdgeRecorded(s: Dispatcher.State, e: string)
    requires Dispatcher.Valid(s) && e in s.ops
    ensures Graph.Edge(AddDependency(s, e, e).state.deps, e, e)
    ensures !Graph.Acyclic(AddDependency(s, e, e).state.deps)
    ensures AddDependency(s, e, e).result == None
    ensures Dispatcher.AddDependency(s, e, e) == Dispatcher.Step(Fail(Dispatcher.SelfDependency(e)), s)
  {
    var g := AddDependency(s, e, e).state.deps;
    assert !Graph.Reaches(s.deps, e, e);
    assert Graph.ReachesIn(g, e, e, 1);
    assert Graph.Reaches(g, e, e);
  }

  /** Every request the api dispatcher accepts hangs its requester, where
      the library's version answers it: with the dependency's canvas, or
      with the dependency failure. */
  lemma AcceptedRequestHangs(s: Dispatcher.State, entry: string, dependency: string)
    requires Dispatcher.Valid(s) && entry != dependency
    requires entry in s.ops && dependency in s.ops && !Graph.Reaches(s.deps, dependency, entry)
    ensures AddDependency(s, entry, dependency).result == None
    ensures Dispatcher.AddDependency(s, entry, dependency).result ==
              (if s.ops[dependency].Some? then Success(s.ops[dependency].value) else Fail(Dispatcher.DependencyFailed))
    ensures AddDependency(s, entry, dependency).state == Dispatcher.AddDependency(s, entry, dependency).state
  {
    assert Dispatcher.Rejection(s.ops.Keys, s.deps, entry, dependency).None?;
    assert Rejection(s.ops.Keys, s.deps, entry, dependency).None?;
  }
}

=== FILE: app_dispatcher.dfy ===
/** The application's dispatcher (app/src/main/kotlin/CanvasOpDispatcher.kt).
    It differs from the library's in what it keeps per path: an `Entry`
    holding the task's `Result` (a thrown exception already turned into a
    failure) and the path's optimisation type. The checks `addDependency`
    makes, and the graph they protect, are the library's. */
module AppDispatcher {
  import opened Wrappers
  import opened Internal
  import Canvas
  import Ops
  import Graph
  import Optimization
  import Dispatcher

  /** `ImageGenEntry`: a configured operation and how to compress its output. */
  datatype ImageGenEntry = ImageGenEntry(operation: Ops.CanvasOp, optimizationType: Optimization.OptimizationType)

  /** `Entry`: the task's eventual result and the optimisation type. */
  datatype Entry = Entry(canvasOp: Result<Canvas.Canvas>, optimizationType: Optimization.OptimizationType)

  datatype State = State(ops: map<string, Entry>, deps: Graph.Edges)

  const Empty: State := State(map[], map[])

  /** The same reachable-state property as the library dispatcher's. */
  ghost predicate Valid(s: State) {
    Graph.Acyclic(s.deps) &&
    forall a, b :: Graph.Edge(s.deps, a, b) ==> a in s.ops && b in s.ops
  }

  /** The task body's `try`/`catch`: a returned result is kept, a thrown
      exception becomes `fail("Unexpected exception: $ex")`. */
  function Guard(r: Result<Canvas.Canvas>): (g: Result<Canvas.Canvas>)
    ensures g.Success? <==> r.Success?
    ensures r.Success? || r.error.isCanvasOpException ==> g == r
    ensures g.Failure? ==> g.error.isCanvasOpException
    ensures r.Failure? && !r.error.isCanvasOpException ==>
              g == Fail("Unexpected exception: " + ThrowableToString(r.error))
  {
    if r.Failure? && !r.error.isCanvasOpException then Fail("Unexpected exception: " + ThrowableToString(r.error))
    else r
  }

  /** `dispatch`: one `Entry` per configured path, keeping its optimisation
      type; `run(path, op)` is what the path's task computes. */
  function Dispatch(s: State, canvasOperations: map<string, ImageGenEntry>, run: Dispatcher.Runner): (r: State)
    ensures r.ops.Keys == s.ops.Keys + canvasOperations.Keys
    ensures r.deps == s.deps
    ensures forall p :: p in s.ops && p !in canvasOperations ==> r.ops[p] == s.ops[p]
    ensures forall p :: p in canvasOperations ==>
              r.ops[p].optimizationType == canvasOperations[p].optimizationType &&
              (r.ops[p].canvasOp.Success? <==> run(p, canvasOperations[p].operation).Success?) &&
              r.ops[p].canvasOp == Guard(run(p, canvasOperations[p].operation))
  {
    var entries := map p | p in canvasOperations ::
      Entry(Guard(run(p, canvasOperations[p].operation)), canvasOperations[p].optimizationType);
    State(s.ops + entries, s.deps)
  }

  /** `create`: a new dispatcher that has dispatched `canvasOperations`. */
  function Create(dw: nat, dh: nat, canvasOperations: map<string, ImageGenEntry>,
                  contexts: string -> Ops.Context): (r: State)
    ensures Valid(r)
    ensures r.ops.Keys == canvasOperations.Keys && r.deps == map[]
  {
    Graph.EmptyAcyclic();
    Dispatch(Empty, canvasOperations, Dispatcher.TaskRunner(dw, dh, contexts))
  }

  /** `addDependency(entry, dependency)`: the library's checks, the same
      edge, and any failure of the dependency's result reported only as
      the generic message. */
  function AddDependency(s: State, entry: string, dependency: string): (r: (Result<Canvas.Canvas>, State))
    requires Valid(s)
    ensures Valid(r.1)
    ensures r.1.ops == s.ops
    ensures match Dispatcher.Rejection(s.ops.Keys, s.deps, entry, dependency)
            case Some(msg) => r.1 == s && r.0 == Fail(msg)
            case None =>
              (forall a, b :: Graph.Edge(r.1.deps, a, b) <==>
                                Graph.Edge(s.deps, a, b) || (a == entry && b == dependency)) &&
              match s.ops[dependency].canvasOp
              case Success(c) => r.0 == Success(c)
              case Failure(_) => r.0 == Fail(Dispatcher.DependencyFailed)
  {
    match Dispatcher.Rejection(s.ops.Keys, s.deps, entry, dependency)
    case Some(msg) => (Fail(msg), s)
    case None =>
      Graph.AddEdgeKeepsAcyclic(s.deps, entry, dependency);
      var result := match s.ops[dependency].canvasOp
                    case Success(c) => Success(c)
                    case Failure(_) => Fail(Dispatcher.DependencyFailed);
      (result, State(s.ops, Graph.AddEdge(s.deps, entry, dependency)))
  }

  /** The two dispatchers agree: on the same outcomes and the same graph,
      the application's `addDependency` answers and records exactly what
      the library's does. */
  lemma AgreesWithLibrary(s: State, entry: string, dependency: string)
    requires Valid(s)
    ensures var lib := Dispatcher.State(map p | p in s.ops :: if s.ops[p].canvasOp.Success? then Some(s.ops[p].canvasOp.value) else None, s.deps);
            Dispatcher.Valid(lib) &&
            Dispatcher.AddDependency(lib, entry, dependency).result == AddDependency(s, entry, dependency).0 &&
            Dispatcher.AddDependency(lib, entry, dependency).state.deps == AddDependency(s, entry, dependency).1.deps
  {
  }
}

=== FILE: blend.dfy ===
/** Pixel blending (api/src/main/kotlin/canvas/blend.kt): an OpenGL-style
    blend equation combining a source and a destination colour, with
    separate factor functions for the colour channels and for alpha.
    `Float` arithmetic is modelled with reals; every property stated here
    only involves factors 0, 1 and `255 / 255`, which `Float` represents exactly. */
module Blend {
  import opened Colors

  datatype BlendEquation = Add | Subtract | ReverseSubtract | Min | Max

  datatype BlendFunc =
    | Zero | One
    | SrcColor | OneMinusSrcColor
    | DstColor | OneMinusDstColor
    | SrcAlpha | OneMinusSrcAlpha
    | DstAlpha | OneMinusDstAlpha

  /** `BlendFunc.factor(src, dst, c)`: a weight in [0, 1]. */
  function Factor(f: BlendFunc, src: Color, dst: Color, c: Component): (w: real)
    ensures 0.0 <= w <= 1.0
    ensures f == Zero ==> w == 0.0
    ensures f == One ==> w == 1.0
    ensures f == SrcAlpha && Alpha(src) == 255 ==> w == 1.0
    ensures f == OneMinusSrcAlpha && Alpha(src) == 255 ==> w == 0.0
  {
    match f
    case Zero => 0.0
    case One => 1.0
    case SrcColor => Get(src, c) as real / 255.0
    case OneMinusSrcColor => 1.0 - Get(src, c) as real / 255.0
    case DstColor => Get(dst, c) as real / 255.0
    case OneMinusDstColor => 1.0 - Get(dst, c) as real / 255.0
    case SrcAlpha => Alpha(src) as real / 255.0
    case OneMinusSrcAlpha => 1.0 - Alpha(src) as real / 255.0
    case DstAlpha => Alpha(dst) as real / 255.0
    case OneMinusDstAlpha => 1.0 - Alpha(dst) as real / 255.0
  }

  /** `Float.toInt()`: truncation toward zero. */
  function Truncate(x: real): (n: int)
    ensures x >= 0.0 ==> n as real <= x < n as real + 1.0
    ensures x < 0.0 ==> n as real - 1.0 < x <= n as real
  {
    if x >= 0.0 then x.Floor else -((-x).Floor)
  }

  /** `BlendEquation.equate` on one channel. */
  function Equate(eq: BlendEquation, src: Color, dst: Color, sf: BlendFunc, df: BlendFunc, c: Component): (n: int)
    ensures eq.Min? ==> n <= Get(src, c) && n <= Get(dst, c) && (n == Get(src, c) || n == Get(dst, c))
    ensures eq.Max? ==> n >= Get(src, c) && n >= Get(dst, c) && (n == Get(src, c) || n == Get(dst, c))
    ensures eq.Add? && sf == One && df == Zero ==> n == Get(src, c)
    ensures eq.Add? && sf == Zero && df == One ==> n == Get(dst, c)
  {
    var s := Get(src, c) as real * Factor(sf, src, dst, c);
    var d := Get(dst, c) as real * Factor(df, src, dst, c);
    match eq
    case Add => Truncate(s + d)
    case Subtract => Truncate(s - d)
    case ReverseSubtract => Truncate(d - s)
    case Min => if Get(src, c) <= Get(dst, c) then Get(src, c) else Get(dst, c)
    case Max => if Get(src, c) >= Get(dst, c) then Get(src, c) else Get(dst, c)
  }

  /** `blend(src, dst, eq, srcColor, dstColor, srcAlpha, dstAlpha)`: alpha uses
      the alpha functions, R, G and B the colour functions, and the
      4-argument constructor clamps every channel into 0..255. */
  function BlendColors(src: Color, dst: Color, eq: BlendEquation,
                       srcColor: BlendFunc, dstColor: BlendFunc,
                       srcAlpha: BlendFunc, dstAlpha: BlendFunc): (r: Color)
    ensures eq.Min? ==> forall k :: Get(r, k) <= Get(src, k) && Get(r, k) <= Get(dst, k)
    ensures eq.Max? ==> forall k :: Get(r, k) >= Get(src, k) && Get(r, k) >= Get(dst, k)
  {
    FromChannels(Equate(eq, src, dst, srcAlpha, dstAlpha, A),
                 Equate(eq, src, dst, srcColor, dstColor, R),
                 Equate(eq, src, dst, srcColor, dstColor, G),
                 Equate(eq, src, dst, srcColor, dstColor, B))
  }

  /** The functions a channel is weighted with: the alpha pair for A, the colour pair otherwise. */
  function FuncsFor(k: Component, srcColor: BlendFunc, dstColor: BlendFunc,
                    srcAlpha: BlendFunc, dstAlpha: BlendFunc): (BlendFunc, BlendFunc)
  {
    if k == A then (srcAlpha, dstAlpha) else (srcColor, dstColor)
  }

  /** Each channel of the blend is its own equation, clamped, with the
      alpha functions governing A alone and the colour functions R, G and B. */
  lemma BlendChannels(src: Color, dst: Color, eq: BlendEquation,
                      srcColor: BlendFunc, dstColor: BlendFunc, srcAlpha: BlendFunc, dstAlpha: BlendFunc)
    ensures forall k :: Get(BlendColors(src, dst, eq, srcColor, dstColor, srcAlpha, dstAlpha), k) ==
              Clamp(Equate(eq, src, dst, FuncsFor(k, srcColor, dstColor, srcAlpha, dstAlpha).0,
                           FuncsFor(k, srcColor, dstColor, srcAlpha, dstAlpha).1, k))
  {
    var r := BlendColors(src, dst, eq, srcColor, dstColor, srcAlpha, dstAlpha);
    forall k
      ensures Get(r, k) == Clamp(Equate(eq, src, dst, FuncsFor(k, srcColor, dstColor, srcAlpha, dstAlpha).0,
                                        FuncsFor(k, srcColor, dstColor, srcAlpha, dstAlpha).1, k))
    {
      match k
      case A =>
      case R =>
      case G =>
      case B =>
    }
  }

  /** Changing the colour functions never changes alpha, and changing the
      alpha functions never changes R, G or B. */
  lemma ChannelFunctionsIndependent(src: Color, dst: Color, eq: BlendEquation,
                                    sc: BlendFunc, dc: BlendFunc, sa: BlendFunc, da: BlendFunc,
                                    sc': BlendFunc, dc': BlendFunc, sa': BlendFunc, da': BlendFunc)
    ensures Alpha(BlendColors(src, dst, eq, sc, dc, sa, da)) == Alpha(BlendColors(src, dst, eq, sc', dc', sa, da))
    ensures Rgb(BlendColors(src, dst, eq, sc, dc, sa, da)) == Rgb(BlendColors(src, dst, eq, sc, dc, sa', da'))
  {
    var x := BlendColors(src, dst, eq, sc, dc, sa, da);
    var y := BlendColors(src, dst, eq, sc, dc, sa', da');
    RgbChannels(x);
    RgbChannels(y);
    ChannelsDetermineColor(Color(Rgb(x)), Color(Rgb(y)));
  }

  /** `Min` and `Max` pick the channel-wise minimum or maximum, whatever the functions. */
  lemma MinMaxChannelwise(src: Color, dst: Color, sc: BlendFunc, dc: BlendFunc, sa: BlendFunc, da: BlendFunc)
    ensures forall k :: Get(BlendColors(src, dst, Min, sc, dc, sa, da), k) ==
              if Get(src, k) <= Get(dst, k) then Get(src, k) else Get(dst, k)
    ensures forall k :: Get(BlendColors(src, dst, Max, sc, dc, sa, da), k) ==
              if Get(src, k) >= Get(dst, k) then Get(src, k) else Get(dst, k)
  {
    var lo := BlendColors(src, dst, Min, sc, dc, sa, da);
    var hi := BlendColors(src, dst, Max, sc, dc, sa, da);
    forall k ensures Get(lo, k) == if Get(src, k) <= Get(dst, k) then Get(src, k) else Get(dst, k) {
      BlendChannels(src, dst, Min, sc, dc, sa, da);
    }
    forall k ensures Get(hi, k) == if Get(src, k) >= Get(dst, k) then Get(src, k) else Get(dst, k) {
      BlendChannels(src, dst, Max, sc, dc, sa, da);
    }
  }

  /** `Add` with (One, Zero) everywhere keeps the source; with (Zero, One) the destination. */
  lemma AddSelects(src: Color, dst: Color)
    ensures BlendColors(src, dst, Add, One, Zero, One, Zero) == src
    ensures BlendColors(src, dst, Add, Zero, One, Zero, One) == dst
  {
    ChannelsDetermineColor(BlendColors(src, dst, Add, One, Zero, One, Zero), src);
    ChannelsDetermineColor(BlendColors(src, dst, Add, Zero, One, Zero, One), dst);
  }

  /** Ordinary "source over" (`Add`, `SrcAlpha`, `OneMinusSrcAlpha` on the
      colour channels) shows an opaque source unchanged in R, G and B, and
      with the same pair for alpha it yields the source exactly. */
  lemma SourceOverOpaque(src: Color, dst: Color, sa: BlendFunc, da: BlendFunc)
    requires Alpha(src) == 255
    ensures var r := BlendColors(src, dst, Add, SrcAlpha, OneMinusSrcAlpha, sa, da);
            Red(r) == Red(src) && Green(r) == Green(src) && Blue(r) == Blue(src)
    ensures BlendColors(src, dst, Add, SrcAlpha, OneMinusSrcAlpha, SrcAlpha, OneMinusSrcAlpha) == src
  {
    SourceOverChannel(src, dst, A);
    SourceOverChannel(src, dst, R);
    SourceOverChannel(src, dst, G);
    SourceOverChannel(src, dst, B);
    var r := BlendColors(src, dst, Add, SrcAlpha, OneMinusSrcAlpha, sa, da);
    assert Red(r) == Red(src) && Green(r) == Green(src) && Blue(r) == Blue(src);
    ChannelsDetermineColor(BlendColors(src, dst, Add, SrcAlpha, OneMinusSrcAlpha, SrcAlpha, OneMinusSrcAlpha), src);
  }

  /** One channel of source over with an opaque source is the source's channel. */
  lemma SourceOverChannel(src: Color, dst: Color, k: Component)
    requires Alpha(src) == 255
    ensures Equate(Add, src, dst, SrcAlpha, OneMinusSrcAlpha, k) == Get(src, k)
  {
    assert Factor(SrcAlpha, src, dst, k) == 1.0;
    assert Factor(OneMinusSrcAlpha, src, dst, k) == 0.0;
    TruncateWhole(Get(src, k));
  }

  /** Truncating a whole number gives it back. */
  lemma TruncateWhole(n: int)
    ensures Truncate(n as real) == n
  {
  }

  /** With unit weights the equations are exact integer arithmetic. */
  lemma UnitWeights(src: Color, dst: Color, k: Component)
    ensures Equate(Subtract, src, dst, One, One, k) == Get(src, k) - Get(dst, k)
    ensures Equate(ReverseSubtract, src, dst, One, One, k) == Get(dst, k) - Get(src, k)
  {
    TruncateWhole(Get(src, k) - Get(dst, k));
    TruncateWhole(Get(dst, k) - Get(src, k));
  }

  /** `Subtract` and `ReverseSubtract` with unit weights give the saturated
      channel differences; neither ever goes below zero. */
  lemma SubtractSaturates(src: Color, dst: Color)
    ensures forall k :: Get(BlendColors(src, dst, Subtract, One, One, One, One), k) ==
              if Get(src, k) >= Get(dst, k) then Get(src, k) - Get(dst, k) else 0
    ensures forall k :: Get(BlendColors(src, dst, ReverseSubtract, One, One, One, One), k) ==
              if Get(dst, k) >= Get(src, k) then Get(dst, k) - Get(src, k) else 0
  {
    BlendChannels(src, dst, Subtract, One, One, One, One);
    BlendChannels(src, dst, ReverseSubtract, One, One, One, One);
    forall k
      ensures Equate(Subtract, src, dst, One, One, k) == Get(src, k) - Get(dst, k)
      ensures Equate(ReverseSubtract, src, dst, One, One, k) == Get(dst, k) - Get(src, k)
    {
      UnitWeights(src, dst, k);
    }
  }
}

=== FILE: cache.dfy ===
/** Incremental output (app/src/main/kotlin/main.kt): the `.cache` file
    maps each output path to the pixel hash of the image last written
    there. A run re-encodes only images whose hash changed, rewrites the
    cache from the entries that finished, and deletes the outputs of
    cached paths that did not. File reads and writes are given as values:
    the cache file as its lines, each save's success as a function. */
module Cache {
  import opened Wrappers
  import opened Internal
  import Hash
  import Canvas

  type CacheMap = map<string, Hash.Hash>

  // ---------------------------------------------------------------------------
  // Reading: `readCache`

  /** The characters Java's `.` does not match. */
  predicate IsLineTerminator(ch: char) {
    ch == '\n' || ch == '\r' || ch == '\U{85}' || ch == '\U{2028}' || ch == '\U{2029}'
  }

  /** What `(.+)` matches: one or more characters, none a line terminator. */
  predicate IsPathText(s: string) {
    |s| >= 1 && forall i :: 0 <= i < |s| ==> !IsLineTerminator(s[i])
  }

  /** `cachePattern.matchEntire(line)` for `([0-9a-f]{64}) (.+)`: the two groups. */
  function MatchLine(line: string): (m: Option<(string, string)>)
    ensures m.Some? ==>
              line == m.value.0 + " " + m.value.1 &&
              |m.value.0| == 64 && Hash.IsLowerHex(m.value.0) && IsPathText(m.value.1)
  {
    if |line| >= 66 && Hash.IsLowerHex(line[..64]) && line[64] == ' ' && IsPathText(line[65..])
    then
      assert line == line[..64] + " " + line[65..];
      Some((line[..64], line[65..]))
    else
      None
  }

  /** Every line of the pattern's form is matched, with exactly its two parts. */
  lemma MatchLineAccepts(line: string, h: string, p: string)
    requires line == h + " " + p && |h| == 64 && Hash.IsLowerHex(h) && IsPathText(p)
    ensures MatchLine(line) == Some((h, p))
  {
    assert h == line[..64] && p == line[65..];
  }

  /** One cache line: its path and its hash (`Hash(m.groupValues[1])`). */
  function ParseLine(line: string): (e: Option<(string, Hash.Hash)>)
    ensures e.Some? ==> e.value.1.value < Hash.Pow16(64)
  {
    match MatchLine(line)
    case Some((h, p)) =>
      var parsed := Hash.FromHexString(h);
      Some((p, parsed.value))
    case None => None
  }

  /** The path a line names, if it is well formed. */
  function ParsedPath(line: string): Option<string> {
    match ParseLine(line)
    case Some((p, _)) => Some(p)
    case None => None
  }

  /** The loop over the file's lines: malformed lines are skipped, and a
      later line for a path overwrites an earlier one. */
  function ReadLines(lines: seq<string>): (m: CacheMap)
    ensures forall p :: p in m ==> m[p].value < Hash.Pow16(64)
    ensures forall i :: 0 <= i < |lines| && ParsedPath(lines[i]).Some? ==> ParsedPath(lines[i]).value in m
    decreases |lines|
  {
    if |lines| == 0 then map[]
    else
      var init := lines[..|lines| - 1];
      assert forall i :: 0 <= i < |init| ==> init[i] == lines[i];
      var m := ReadLines(init);
      match ParseLine(lines[|lines| - 1])
      case Some((p, h)) => m[p := h]
      case None => m
  }

  /** The index of the last `Some(p)` in `names`. */
  function LastIndex(names: seq<Option<string>>, p: string): (k: Option<nat>)
    ensures k.Some? ==>
              k.value < |names| && names[k.value] == Some(p) &&
              forall j :: k.value < j < |names| ==> names[j] != Some(p)
    ensures k.None? ==> forall j :: 0 <= j < |names| ==> names[j] != Some(p)
    decreases |names|
  {
    if |names| == 0 then None
    else if names[|names| - 1] == Some(p) then Some(|names| - 1)
    else
      var init := names[..|names| - 1];
      assert forall j :: 0 <= j < |init| ==> init[j] == names[j];
      LastIndex(init, p)
  }

  /** The path each line names, line by line. */
  function Names(lines: seq<string>): (names: seq<Option<string>>)
    ensures |names| == |lines|
    ensures forall j :: 0 <= j < |lines| ==> names[j] == ParsedPath(lines[j])
  {
    seq(|lines|, j requires 0 <= j < |lines| => ParsedPath(lines[j]))
  }

  /** The index of the last well-formed line naming `p`. */
  function LastFor(lines: seq<string>, p: string): (k: Option<nat>)
    ensures k.Some? ==>
              k.value < |lines| && ParsedPath(lines[k.value]) == Some(p) &&
              forall j :: k.value < j < |lines| ==> ParsedPath(lines[j]) != Some(p)
    ensures k.None? ==> forall j :: 0 <= j < |lines| ==> ParsedPath(lines[j]) != Some(p)
  {
    LastIndex(Names(lines), p)
  }

  /** The cache read holds exactly the paths named by well-formed lines,
      each with the hash of the last such line. */
  lemma {:induction false} LastLineWins(lines: seq<string>, p: string)
    ensures p in ReadLines(lines) <==> LastFor(lines, p).Some?
    ensures p in ReadLines(lines) ==> ParseLine(lines[LastFor(lines, p).value]) == Some((p, ReadLines(lines)[p]))
    decreases |lines|
  {
    if |lines| > 0 {
      var n := |lines| - 1;
      var init := lines[..n];
      LastLineWins(init, p);
      assert Names(lines)[..n] == Names(init);
      if ParsedPath(lines[n]) != Some(p) {
        assert LastFor(lines, p) == LastFor(init, p);
        assert p in ReadLines(lines) <==> p in ReadLines(init);
        match LastFor(init, p)
        case Some(k) => assert lines[k] == init[k];
        case None =>
      } else {
        assert LastFor(lines, p) == Some(n);
      }
    }
  }


  /** `readCache`: nothing with `--ignore-cache` or when there is no cache
      file (`None`), otherwise the lines read as above. */
  function ReadCache(ignoreCache: bool, file: Option<seq<string>>): (m: CacheMap)
    ensures ignoreCache || file.None? ==> m == map[]
    ensures !ignoreCache && file.Some? ==>
              forall p :: p in m <==> LastFor(file.value, p).Some?
  {
    if ignoreCache then map[]
    else match file
      case None => map[]
      case Some(lines) =>
        forall p ensures p in ReadLines(lines) <==> LastFor(lines, p).Some? {
          LastLineWins(lines, p);
        }
        ReadLines(lines)
  }

  // ---------------------------------------------------------------------------
  // The cache file as text

  /** `hash.toString() + " " + path`: a 256-bit hash gives its 64 digits,
      a space and the path, and with a path of one line the line holds no
      newline. */
  function FormatLine(h: Hash.Hash, path: string): (line: string)
    ensures h.value < Hash.Pow16(64) ==> |line| == 65 + |path| && line[64] == ' ' && line[65..] == path
    ensures h.value < Hash.Pow16(64) && IsPathText(path) ==> NoNewline(line)
  {
    var digits := Hash.ToString(h);
    DigitsSpacePath(digits, path);
    digits + " " + path
  }

  /** Lower-case digits, a space and a path of one line hold no newline. */
  lemma DigitsSpacePath(digits: string, path: string)
    requires Hash.IsLowerHex(digits)
    ensures IsPathText(path) ==> NoNewline(digits + " " + path)
  {
    var line := digits + " " + path;
    if IsPathText(path) {
      forall j | 0 <= j < |line| ensures line[j] != '\n' {
        if j > |digits| {
          assert line[j] == path[j - |digits| - 1];
        } else if j < |digits| {
          assert line[j] == digits[j];
        }
      }
    }
  }

  /** A written line reads back as the same path and hash. */
  lemma LineRoundTrip(h: Hash.Hash, path: string)
    requires h.value < Hash.Pow16(64) && IsPathText(path)
    ensures ParseLine(FormatLine(h, path)) == Some((path, h))
  {
    Hash.ToStringRoundTrip(h);
    MatchLineAccepts(FormatLine(h, path), Hash.ToString(h), path);
  }

  /** The written file: one line per finished entry, joined by `\n`, with
      no trailing newline. */
  function CacheText(entries: seq<(string, Hash.Hash)>): (text: string)
    ensures Writable(entries) ==> Lines(text) == FormatAll(entries)
  {
    var ls := FormatAll(entries);
    if Writable(entries) then
      assert forall i :: 0 <= i < |ls| ==> |ls[i]| >= 1 && NoNewline(ls[i]);
      LinesOfJoin(ls);
      Join("\n", ls)
    else
      Join("\n", ls)
  }

  function FormatAll(entries: seq<(string, Hash.Hash)>): (ls: seq<string>)
    ensures |ls| == |entries|
    ensures forall i :: 0 <= i < |entries| ==> ls[i] == FormatLine(entries[i].1, entries[i].0)
  {
    seq(|entries|, i requires 0 <= i < |entries| => FormatLine(entries[i].1, entries[i].0))
  }

  /** The first `\n` at or after `k`, or `|s|`. */
  function NextNewline(s: string, k: nat): (i: nat)
    requires k <= |s|
    ensures k <= i <= |s|
    ensures i < |s| ==> s[i] == '\n'
    ensures forall j :: k <= j < i ==> s[j] != '\n'
    decreases |s| - k
  {
    if k == |s| || s[k] == '\n' then k else NextNewline(s, k + 1)
  }

  /** The lines a reader yields for text whose only terminator is `\n`:
      a final newline ends the last line rather than starting an empty one. */
  function Lines(s: string): seq<string>
    decreases |s|
  {
    if |s| == 0 then []
    else
      var i := NextNewline(s, 0);
      if i == |s| then [s] else [s[..i]] + Lines(s[i + 1..])
  }

  predicate NoNewline(s: string) {
    forall i :: 0 <= i < |s| ==> s[i] != '\n'
  }

  /** Joining non-empty, newline-free lines with `\n` and reading the text
      back gives the same lines. */
  lemma {:induction false} LinesOfJoin(ls: seq<string>)
    requires forall i :: 0 <= i < |ls| ==> |ls[i]| >= 1 && NoNewline(ls[i])
    ensures Lines(Join("\n", ls)) == ls
    decreases |ls|
  {
    if |ls| == 1 {
      assert NoNewline(ls[0]);
      assert NextNewline(ls[0], 0) == |ls[0]|;
    } else if |ls| > 1 {
      var s := Join("\n", ls);
      var rest := Join("\n", ls[1..]);
      assert s == ls[0] + "\n" + rest;
      var n := |ls[0]|;
      assert s[n] == '\n';
      assert NoNewline(ls[0]);
      assert forall j :: 0 <= j < n ==> s[j] == ls[0][j];
      var i := NextNewline(s, 0);
      assert i == n;
      assert s[..n] == ls[0];
      assert s[n + 1..] == rest;
      LinesOfJoin(ls[1..]);
      assert ls == [ls[0]] + ls[1..];
    }
  }

  /** A path-to-hash map built from a sequence, a later entry overwriting an earlier one. */
  function ToMap(entries: seq<(string, Hash.Hash)>): (m: CacheMap)
    ensures forall i :: 0 <= i < |entries| ==> entries[i].0 in m
    ensures forall p :: p in m ==> exists i :: 0 <= i < |entries| && entries[i].0 == p
    decreases |entries|
  {
    if |entries| == 0 then map[]
    else
      var last := entries[|entries| - 1];
      var m := ToMap(entries[..|entries| - 1]);
      assert forall i :: 0 <= i < |entries| - 1 ==> entries[..|entries| - 1][i] == entries[i];
      m[last.0 := last.1]
  }

  predicate Writable(entries: seq<(string, Hash.Hash)>) {
    forall i :: 0 <= i < |entries| ==>
      entries[i].1.value < Hash.Pow16(64) && IsPathText(entries[i].0)
  }

  /** Reading the formatted lines gives exactly the written entries. */
  lemma {:induction false} ReadFormatted(entries: seq<(string, Hash.Hash)>)
    requires Writable(entries)
    ensures ReadLines(FormatAll(entries)) == ToMap(entries)
    decreases |entries|
  {
    if |entries| > 0 {
      var n := |entries| - 1;
      ReadFormatted(entries[..n]);
      assert FormatAll(entries)[..n] == FormatAll(entries[..n]);
      LineRoundTrip(entries[n].1, entries[n].0);
    }
  }

  /** The cache file this run writes is read back by the next run as
      exactly the entries written. */
  lemma CacheFileRoundTrip(entries: seq<(string, Hash.Hash)>)
    requires Writable(entries)
    ensures ReadCache(false, Some(Lines(CacheText(entries)))) == ToMap(entries)
  {
    ReadFormatted(entries);
  }

  // ---------------------------------------------------------------------------
  // One run: which entries are written, and `save`

  /** What an output task yields: the new hash and whether a file was written. */
  datatype Outcome = Outcome(hash: Hash.Hash, saved: bool)

  /** The output task of one successful operation (main.kt, lines 74-80):
      an unchanged hash skips the save, a failed save yields `null`. */
  function Decide(hash: Hash.Hash, previous: Option<Hash.Hash>, saveImage: () -> bool): (o: Option<Outcome>)
    ensures o.Some? ==> o.value.hash == hash
    ensures o.Some? && o.value.saved ==> previous != Some(hash)
    ensures previous == Some(hash) ==> o == Some(Outcome(hash, false))
    ensures o.None? ==> previous != Some(hash)
  {
    if previous == Some(hash) then Some(Outcome(hash, false))
    else if saveImage() then Some(Outcome(hash, true))
    else None
  }

  /** The output tasks for a dispatcher's results: none for a failed
      operation, `Decide` on the pixel hash for every other. */
  function Plan(results: map<string, Option<Canvas.Canvas>>, cache: CacheMap,
                sha256: seq<Byte> -> Hash.Digest, saveImage: (string, Canvas.Canvas) -> bool)
    : (plan: map<string, Option<Outcome>>)
    ensures plan.Keys == set p | p in results && results[p].Some?
    ensures forall p :: p in plan ==>
              var c := results[p].value;
              plan[p] == Decide(Canvas.PixelHash(c, sha256), if p in cache then Some(cache[p]) else None,
                                () => saveImage(p, c))
  {
    map p | p in results && results[p].Some? ::
      Decide(Canvas.PixelHash(results[p].value, sha256), if p in cache then Some(cache[p]) else None,
             () => saveImage(p, results[p].value))
  }

  /** An image whose pixels hash as they did last run is never re-encoded. */
  lemma UnchangedNotSaved(results: map<string, Option<Canvas.Canvas>>, cache: CacheMap,
                          sha256: seq<Byte> -> Hash.Digest, saveImage: (string, Canvas.Canvas) -> bool, p: string)
    requires p in results && results[p].Some? && p in cache
    requires cache[p] == Canvas.PixelHash(results[p].value, sha256)
    ensures Plan(results, cache, sha256, saveImage)[p] == Some(Outcome(cache[p], false))
  {
  }

  /** The entries that finished, in iteration order, as cache entries. */
  function Finished(ops: seq<(string, Option<Outcome>)>): (es: seq<(string, Hash.Hash)>)
    ensures |es| <= |ops|
    ensures forall i :: 0 <= i < |es| ==> es[i].0 in FinishedPaths(ops)
    ensures forall p :: p in FinishedPaths(ops) ==> exists i :: 0 <= i < |es| && es[i].0 == p
    decreases |ops|
  {
    if |ops| == 0 then []
    else
      var last := ops[|ops| - 1];
      var init := ops[..|ops| - 1];
      assert forall i :: 0 <= i < |init| ==> init[i] == ops[i];
      assert FinishedPaths(ops) == FinishedPaths(init) + (if last.1.Some? then {last.0} else {}) by {
        assert forall p :: p in FinishedPaths(ops) && p !in FinishedPaths(init) ==> last.1.Some? && p == last.0;
      }
      var es := Finished(init);
      var tail: seq<(string, Hash.Hash)> := if last.1.Some? then [(last.0, last.1.value.hash)] else [];
      assert forall i :: 0 <= i < |es| ==> (es + tail)[i] == es[i];
      assert last.1.Some? ==> (es + tail)[|es|].0 == last.0;
      es + tail
  }

  /** How many finished entries wrote a file. */
  function SavedCount(ops: seq<(string, Option<Outcome>)>): (n: nat)
    ensures n <= |Finished(ops)|
    ensures n == 0 <==> forall i :: 0 <= i < |ops| ==> !(ops[i].1.Some? && ops[i].1.value.saved)
    decreases |ops|
  {
    if |ops| == 0 then 0
    else
      var last := ops[|ops| - 1];
      SavedCount(ops[..|ops| - 1]) + (if last.1.Some? && last.1.value.saved then 1 else 0)
  }

  /** The paths whose task yielded a result. */
  function FinishedPaths(ops: seq<(string, Option<Outcome>)>): set<string> {
    set i | 0 <= i < |ops| && ops[i].1.Some? :: ops[i].0
  }

  datatype SaveResult = SaveResult(opsFinished: nat, filesSaved: nat, cacheText: Option<string>, toDelete: set<string>)

  /** `Join(sep, parts + [x])` adds one separator and `x`. */
  lemma {:induction false} JoinSnoc(sep: string, parts: seq<string>, x: string)
    ensures Join(sep, parts + [x]) == if |parts| == 0 then x else Join(sep, parts) + sep + x
    decreases |parts|
  {
    if |parts| > 1 {
      JoinSnoc(sep, parts[1..], x);
      assert (parts + [x])[1..] == parts[1..] + [x];
      assert parts[0] + sep + (Join(sep, parts[1..]) + sep + x) == (parts[0] + sep + Join(sep, parts[1..])) + sep + x;
    } else if |parts| == 1 {
      assert (parts + [x])[1..] == [x];
    }
  }

  /** Appending one finished entry to the text written so far. */
  lemma AppendLine(text: string, before: seq<(string, Hash.Hash)>, path: string, h: Hash.Hash)
    requires text == CacheText(before)
    ensures (if |before| > 0 then text + "\n" else text) + FormatLine(h, path) == CacheText(before + [(path, h)])
  {
    assert FormatAll(before + [(path, h)]) == FormatAll(before) + [FormatLine(h, path)];
    JoinSnoc("\n", FormatAll(before), FormatLine(h, path));
  }

  /** One more task extends the finished entries, the count and the paths by its own result. */
  lemma FinishedStep(ops: seq<(string, Option<Outcome>)>, i: nat)
    requires i < |ops|
    ensures Finished(ops[..i + 1]) ==
              Finished(ops[..i]) + (if ops[i].1.Some? then [(ops[i].0, ops[i].1.value.hash)] else [])
    ensures SavedCount(ops[..i + 1]) ==
              SavedCount(ops[..i]) + (if ops[i].1.Some? && ops[i].1.value.saved then 1 else 0)
    ensures FinishedPaths(ops[..i + 1]) == FinishedPaths(ops[..i]) + (if ops[i].1.Some? then {ops[i].0} else {})
  {
    assert ops[..i + 1][..i] == ops[..i] && ops[..i + 1][i] == ops[i];
  }

  /** One loop step of `save`: the text, the newline flag and the stale set
      after task `i` are those of the first `i + 1` tasks. */
  lemma SaveStep(cache: CacheMap, ops: seq<(string, Option<Outcome>)>, i: nat, text: string, nl: bool,
                 toDelete: set<string>, opsFinished: nat, filesSaved: nat)
    requires i < |ops|
    requires text == CacheText(Finished(ops[..i])) && (nl <==> |Finished(ops[..i])| > 0)
    requires toDelete == cache.Keys - FinishedPaths(ops[..i])
    requires opsFinished == |Finished(ops[..i])| && filesSaved == SavedCount(ops[..i])
    ensures ops[i].1.None? ==>
              opsFinished == |Finished(ops[..i + 1])| && filesSaved == SavedCount(ops[..i + 1])
    ensures ops[i].1.Some? ==>
              opsFinished + 1 == |Finished(ops[..i + 1])| &&
              filesSaved + (if ops[i].1.value.saved then 1 else 0) == SavedCount(ops[..i + 1])
    ensures var op := ops[i].1;
            var text' := if op.Some? then (if nl then text + "\n" else text) + FormatLine(op.value.hash, ops[i].0) else text;
            text' == CacheText(Finished(ops[..i + 1])) &&
            ((nl || op.Some?) <==> |Finished(ops[..i + 1])| > 0) &&
            (if op.Some? then toDelete - {ops[i].0} else toDelete) == cache.Keys - FinishedPaths(ops[..i + 1])
  {
    FinishedStep(ops, i);
    if ops[i].1.Some? {
      AppendLine(text, Finished(ops[..i]), ops[i].0, ops[i].1.value.hash);
    } else {
      assert Finished(ops[..i]) + [] == Finished(ops[..i]);
    }
  }

  /** `save`: walk the output tasks in order, count them, write the cache
      text unless `--no-output-cache`, and compute the stale outputs. */
  method Save(cache: CacheMap, ops: seq<(string, Option<Outcome>)>, noOutputCache: bool) returns (r: SaveResult)
    ensures r.opsFinished == |Finished(ops)|
    ensures r.filesSaved == SavedCount(ops) && r.filesSaved <= r.opsFinished
    ensures r.cacheText.None? <==> noOutputCache
    ensures !noOutputCache ==> r.cacheText == Some(CacheText(Finished(ops)))
    ensures r.toDelete == cache.Keys - FinishedPaths(ops)
  {
    var opsFinished, filesSaved := 0, 0;
    var toDelete := cache.Keys;
    var text, nl := "", false;
    var i := 0;
    while i < |ops|
      invariant 0 <= i <= |ops|
      invariant opsFinished == |Finished(ops[..i])|
      invariant filesSaved == SavedCount(ops[..i])
      invariant text == CacheText(Finished(ops[..i]))
      invariant nl <==> opsFinished > 0
      invariant toDelete == cache.Keys - FinishedPaths(ops[..i])
    {
      SaveStep(cache, ops, i, text, nl, toDelete, opsFinished, filesSaved);
      var path, op := ops[i].0, ops[i].1;
      if op.Some? {
        text := (if nl then text + "\n" else text) + FormatLine(op.value.hash, path);
        nl := true;
        opsFinished := opsFinished + 1;
        filesSaved := filesSaved + (if op.value.saved then 1 else 0);
        toDelete := toDelete - {path};
      }
      i := i + 1;
    }
    assert ops[..|ops|] == ops;
    r := SaveResult(opsFinished, filesSaved, if noOutputCache then None else Some(text), toDelete);
  }
}

=== FILE: canvas.dfy ===
/** Pixel buffers (lib/src/main/kotlin/canvas/canvas.kt): the `Canvas`
    interface with its two realisations, a constant-colour canvas and a
    dense row-major `MutableCanvas`, plus `fill`, `copySubArea`,
    `forEachPixel` and the pixel hash. */
module Canvas {
  import opened Wrappers
  import opened Internal
  import Colors
  import Hash

  type Color = Colors.Color

  datatype CanvasData =
    | SingleColor(width: nat, height: nat, color: Color)
    | Mutable(width: nat, height: nat, data: seq<Color>)

  /** The invariant every canvas keeps: a dense buffer has one cell per pixel. */
  predicate Valid(c: CanvasData) {
    c.Mutable? ==> |c.data| == c.width * c.height
  }

  type Canvas = c: CanvasData | Valid(c) witness SingleColor(0, 0, Colors.Transparent)

  /** `isInBoundary(x, y)`: an in-bounds pixel has a cell in a dense buffer. */
  predicate IsInBoundary(c: Canvas, x: nat, y: nat)
    ensures IsInBoundary(c, x, y) ==> Index(c.width, x, y) < c.width * c.height
  {
    InsideCell(c.width, c.height, x, y);
    x < c.width && y < c.height
  }

  /** Multiplication by a natural number is monotone. */
  lemma MulMono(a: int, b: int, w: nat)
    requires a <= b
    ensures a * w <= b * w
  {
    assert b * w - a * w == (b - a) * w;
  }

  /** Euclidean division by `w` recovers quotient and remainder. */
  lemma DivModUnique(w: nat, q: nat, r: nat)
    requires r < w
    ensures (q * w + r) / w == q && (q * w + r) % w == r
  {
    var i := q * w + r;
    var q' := i / w;
    assert i == q' * w + i % w;
    if q' < q {
      MulMono(q' + 1, q, w);
      assert false;
    } else if q' > q {
      MulMono(q + 1, q', w);
      assert false;
    }
  }

  /** The row-major cell of pixel (x, y) in a buffer `w` pixels wide. */
  function Index(w: nat, x: nat, y: nat): nat {
    y * w + x
  }

  /** A pixel's cell is inside the buffer, and division by the width
      recovers the pixel. */
  lemma CellOfPixel(w: nat, h: nat, x: nat, y: nat)
    requires x < w && y < h
    ensures Index(w, x, y) < w * h
    ensures Index(w, x, y) % w == x && Index(w, x, y) / w == y
  {
    MulMono(y + 1, h, w);
    assert (y + 1) * w == y * w + w;
    assert h * w == w * h;
    DivModUnique(w, y, x);
  }

  lemma PixelOfCell(w: nat, h: nat, i: nat)
    requires i < w * h
    ensures w > 0 && i % w < w && i / w < h
    ensures (i / w) * w + i % w == i
  {
    if w == 0 {
      assert false;
    } else if i / w >= h {
      MulMono(h, i / w, w);
      assert false;
    }
  }

  /** `CellOfPixel` for callers that do not yet know the pixel is inside. */
  lemma InsideCell(w: nat, h: nat, x: nat, y: nat)
    ensures x < w && y < h ==> Index(w, x, y) < w * h
  {
    if x < w && y < h {
      CellOfPixel(w, h, x, y);
    }
  }

  /** Distinct pixels live in distinct cells. */
  lemma CellsDistinct(w: nat, x: nat, y: nat, x': nat, y': nat)
    requires x < w && x' < w && (x, y) != (x', y')
    ensures Index(w, x, y) != Index(w, x', y')
  {
    DivModUnique(w, y, x);
    DivModUnique(w, y', x');
  }

  /** `operator get(x, y)` on an in-bounds pixel. */
  function Get(c: Canvas, x: nat, y: nat): (v: Color)
    requires IsInBoundary(c, x, y)
    ensures c.SingleColor? ==> v == c.color
    ensures c.Mutable? ==> Index(c.width, x, y) < |c.data| && v == c.data[Index(c.width, x, y)]
  {
    match c
    case SingleColor(_, _, color) => color
    case Mutable(w, h, data) => CellOfPixel(w, h, x, y); data[Index(w, x, y)]
  }

  /** Two canvases of the same size that agree on every pixel. */
  ghost predicate SamePixels(c: Canvas, d: Canvas) {
    c.width == d.width && c.height == d.height &&
    forall x: nat, y: nat :: x < c.width && y < c.height ==> Get(c, x, y) == Get(d, x, y)
  }

  /** The `MutableCanvas(width, height, data)` constructor: its `init` check. */
  function NewMutable(w: nat, h: nat, data: seq<Color>): (r: Result<Canvas>)
    ensures r.Success? <==> |data| == w * h
    ensures r.Success? ==> r.value == Mutable(w, h, data)
    ensures r.Failure? ==> r.error.message == Some("mismatching data size")
  {
    if |data| == w * h then Success(Mutable(w, h, data))
    else Failure(Throwable(false, Some("mismatching data size"), "java.lang.IllegalArgumentException"))
  }

  /** `MutableCanvas(width, height)`: a zero-filled, i.e. transparent, buffer. */
  function Blank(w: nat, h: nat): (c: Canvas)
    ensures c.Mutable? && c.width == w && c.height == h
    ensures forall x: nat, y: nat :: x < w && y < h ==> Get(c, x, y) == Colors.Transparent
  {
    var c := Mutable(w, h, seq(w * h, _ => Colors.Transparent));
    assert forall x: nat, y: nat :: x < w && y < h ==> Get(c, x, y) == Colors.Transparent by {
      forall x: nat, y: nat | x < w && y < h
        ensures Get(c, x, y) == Colors.Transparent
      {
        CellOfPixel(w, h, x, y);
      }
    }
    c
  }

  /** `operator set(x, y, color)`: writes cell `y * width + x`. */
  function Set(c: Canvas, x: nat, y: nat, v: Color): (r: Canvas)
    requires c.Mutable? && IsInBoundary(c, x, y)
    ensures r.Mutable? && r.width == c.width && r.height == c.height
    ensures Get(r, x, y) == v
    ensures forall x': nat, y': nat :: x' < c.width && y' < c.height && (x', y') != (x, y) ==>
              Get(r, x', y') == Get(c, x', y')
  {
    CellOfPixel(c.width, c.height, x, y);
    var r := Mutable(c.width, c.height, c.data[Index(c.width, x, y) := v]);
    assert forall x': nat, y': nat :: x' < c.width && y' < c.height && (x', y') != (x, y) ==>
              Get(r, x', y') == Get(c, x', y') by {
      forall x': nat, y': nat | x' < c.width && y' < c.height && (x', y') != (x, y)
        ensures Get(r, x', y') == Get(c, x', y')
      {
        CellOfPixel(c.width, c.height, x', y');
        CellsDistinct(c.width, x, y, x', y');
      }
    }
    r
  }

  /** `MutableCanvas.fill(width, height, fill)`: cell `i` holds `fill(i % width, i / width)`. */
  function Fill(w: nat, h: nat, f: (nat, nat) --> Color): (c: Canvas)
    requires forall x: nat, y: nat :: x < w && y < h ==> f.requires(x, y)
    ensures c.Mutable? && c.width == w && c.height == h
    ensures forall x: nat, y: nat :: x < w && y < h ==> Get(c, x, y) == f(x, y)
  {
    var data := seq(w * h, i requires 0 <= i < w * h => PixelOfCell(w, h, i); f(i % w, i / w));
    var c := Mutable(w, h, data);
    assert forall x: nat, y: nat :: x < w && y < h ==> Get(c, x, y) == f(x, y) by {
      forall x: nat, y: nat | x < w && y < h
        ensures Get(c, x, y) == f(x, y)
      {
        CellOfPixel(w, h, x, y);
      }
    }
    c
  }

  /** The copy constructor `MutableCanvas(canvas)`: a dense canvas with the same pixels. */
  function CopyOf(c: Canvas): (r: Canvas)
    ensures r.Mutable? && SamePixels(r, c)
  {
    match c
    case Mutable(w, h, data) => Mutable(w, h, data)
    case SingleColor(w, h, color) =>
      var r := Mutable(w, h, seq(w * h, _ => color));
      assert SamePixels(r, c) by {
        forall x: nat, y: nat | x < w && y < h
          ensures Get(r, x, y) == Get(c, x, y)
        {
          CellOfPixel(w, h, x, y);
        }
      }
      r
  }

  /** What `this[x, y]` reads when nothing checks the coordinates: a
      constant canvas answers every coordinate; a dense canvas reads cell
      `y * width + x`, which throws once that cell is past the buffer. */
  function RawRead(c: Canvas, x: nat, y: nat): (r: Option<Color>)
    ensures IsInBoundary(c, x, y) ==> r == Some(Get(c, x, y))
    ensures c.SingleColor? ==> r == Some(c.color)
    ensures c.Mutable? ==> (r.Some? <==> Index(c.width, x, y) < c.width * c.height)
  {
    match c
    case SingleColor(_, _, color) => Some(color)
    case Mutable(w, h, data) =>
      InsideCell(w, h, x, y);
      if Index(w, x, y) < w * h then Some(data[Index(w, x, y)]) else None
  }

  /** The read `copySubArea` makes for window pixel (x, y). */
  function WindowRead(c: Canvas, xo: nat, yo: nat, x: nat, y: nat): Option<Color> {
    RawRead(c, x + xo, y + yo)
  }

  /** Whether every read of the window stays inside the canvas' storage. */
  predicate WindowReadable(c: Canvas, w: nat, h: nat, xo: nat, yo: nat) {
    forall x: nat, y: nat :: x < w && y < h ==> WindowRead(c, xo, yo, x, y).Some?
  }

  /** `copySubArea(width, height, xOffset, yOffset)`: a `width` by `height`
      canvas whose pixel (x, y) is the source's (x + xOffset, y + yOffset).
      The source does not check the window: a read past a dense canvas'
      buffer throws. */
  function CopySubArea(c: Canvas, w: nat, h: nat, xo: nat, yo: nat): (r: Result<Canvas>)
    ensures r.Success? <==> WindowReadable(c, w, h, xo, yo)
    ensures r.Failure? ==> r.error == ArrayIndexOutOfBounds
    ensures r.Success? ==> r.value.Mutable? && r.value.width == w && r.value.height == h
    ensures r.Success? ==> forall x: nat, y: nat :: x < w && y < h ==> Some(Get(r.value, x, y)) == WindowRead(c, xo, yo, x, y)
  {
    if WindowReadable(c, w, h, xo, yo) then
      Success(Fill(w, h, (x: nat, y: nat) requires x < w && y < h => WindowRead(c, xo, yo, x, y).value))
    else Failure(ArrayIndexOutOfBounds)
  }

  /** A window inside the canvas is always copied, pixel for pixel; a
      constant canvas gives its colour for any window. */
  lemma CopySubAreaInside(c: Canvas, w: nat, h: nat, xo: nat, yo: nat)
    ensures (w > 0 && h > 0 ==> xo + w <= c.width && yo + h <= c.height) ==>
              CopySubArea(c, w, h, xo, yo).Success? &&
              forall x: nat, y: nat :: x < w && y < h ==>
                Get(CopySubArea(c, w, h, xo, yo).value, x, y) == Get(c, x + xo, y + yo)
    ensures c.SingleColor? ==>
              CopySubArea(c, w, h, xo, yo).Success? &&
              forall x: nat, y: nat :: x < w && y < h ==> Get(CopySubArea(c, w, h, xo, yo).value, x, y) == c.color
  {
    if (w > 0 && h > 0 ==> xo + w <= c.width && yo + h <= c.height) || c.SingleColor? {
      forall x: nat, y: nat | x < w && y < h
        ensures WindowRead(c, xo, yo, x, y).Some?
      {
      }
    }
  }

  /** The visit order of `forEachPixel`: x outer, y inner. */
  function PixelOrder(w: nat, h: nat): (order: seq<(nat, nat)>)
    ensures |order| == w * h
  {
    assert w * h == h * w;
    seq(w * h, k requires 0 <= k < w * h => PixelOfCell(h, w, k); (k / h, k % h))
  }

  /** Every entry of the visit order is an in-bounds pixel. */
  lemma PixelOrderInBounds(w: nat, h: nat, k: nat)
    requires k < w * h
    ensures PixelOrder(w, h)[k].0 < w && PixelOrder(w, h)[k].1 < h
  {
    PixelOfCell(h, w, k);
  }

  /** Pixel (x, y) is visited at step `x * height + y`. */
  lemma PixelOrderVisits(w: nat, h: nat, x: nat, y: nat)
    requires x < w && y < h
    ensures x * h + y < w * h && PixelOrder(w, h)[x * h + y] == (x, y)
  {
    CellOfPixel(h, w, y, x);
  }

  /** No pixel is visited twice. */
  lemma PixelOrderInjective(w: nat, h: nat, k: nat, k': nat)
    requires k < k' < w * h
    ensures PixelOrder(w, h)[k] != PixelOrder(w, h)[k']
  {
    PixelOfCell(h, w, k);
    PixelOfCell(h, w, k');
  }

  /** The cells of a canvas in row-major order. */
  function Cells(c: Canvas): (cells: seq<Color>)
    ensures |cells| == c.width * c.height
    ensures forall x: nat, y: nat :: x < c.width && y < c.height ==>
              Index(c.width, x, y) < |cells| && cells[Index(c.width, x, y)] == Get(c, x, y)
  {
    var cells := if c.Mutable? then c.data else seq(c.width * c.height, _ => c.color);
    assert forall x: nat, y: nat :: x < c.width && y < c.height ==>
              Index(c.width, x, y) < |cells| && cells[Index(c.width, x, y)] == Get(c, x, y) by {
      forall x: nat, y: nat | x < c.width && y < c.height
        ensures Index(c.width, x, y) < |cells| && cells[Index(c.width, x, y)] == Get(c, x, y)
      {
        CellOfPixel(c.width, c.height, x, y);
      }
    }
    cells
  }

  /** The `IntArray` a canvas hashes: its own data, or `width * height`
      copies of the single colour. */
  function ColorArray(c: Canvas): (ints: seq<Word>)
    ensures |ints| == c.width * c.height
    ensures forall x: nat, y: nat :: x < c.width && y < c.height ==>
              Index(c.width, x, y) < |ints| && ints[Index(c.width, x, y)] == Get(c, x, y).argb
  {
    var cells := Cells(c);
    seq(|cells|, i requires 0 <= i < |cells| => cells[i].argb)
  }

  /** `pixelHash()`: the digest of the pixels' ARGB words in row-major
      order, four little-endian bytes per pixel. */
  function PixelHash(c: Canvas, sha256: seq<Byte> -> Hash.Digest): (h: Hash.Hash)
    ensures h.value == sha256(Hash.LeBytes(ColorArray(c))) && |Hash.LeBytes(ColorArray(c))| == 4 * c.width * c.height
  {
    Hash.FromInts(ColorArray(c), sha256)
  }

  /** The hash depends only on the pixels: a constant-colour canvas and a
      dense canvas showing the same picture hash the same bytes. */
  lemma SamePixelsSameHash(c: Canvas, d: Canvas, sha256: seq<Byte> -> Hash.Digest)
    requires SamePixels(c, d)
    ensures ColorArray(c) == ColorArray(d)
    ensures PixelHash(c, sha256) == PixelHash(d, sha256)
  {
    var a := ColorArray(c);
    var b := ColorArray(d);
    forall i | 0 <= i < |a|
      ensures a[i] == b[i]
    {
      PixelOfCell(c.width, c.height, i);
      var x, y := i % c.width, i / c.width;
      assert i == Index(c.width, x, y);
      assert a[Index(c.width, x, y)] == Get(c, x, y).argb;
      assert b[Index(d.width, x, y)] == Get(d, x, y).argb;
    }
  }

  /** Dense canvases with the same pixels are the same canvas. */
  lemma MutableExtensional(c: Canvas, d: Canvas)
    requires c.Mutable? && d.Mutable? && SamePixels(c, d)
    ensures c == d
  {
    forall i | 0 <= i < |c.data|
      ensures c.data[i] == d.data[i]
    {
      PixelOfCell(c.width, c.height, i);
      var x, y := i % c.width, i / c.width;
      assert Index(c.width, x, y) == i;
      assert Get(c, x, y) == Get(d, x, y);
    }
  }

  /** `IntArray(width * height) { ... }` inside `fill`: the buffer is
      built one cell at a time, cell `i` from pixel (i % width, i / width). */
  method FillBuffer(w: nat, h: nat, f: (nat, nat) --> Color) returns (c: Canvas)
    requires forall x: nat, y: nat :: x < w && y < h ==> f.requires(x, y)
    ensures c == Fill(w, h, f)
  {
    ghost var target := Fill(w, h, f).data;
    var data: seq<Color> := [];
    var i := 0;
    while i < w * h
      invariant 0 <= i <= w * h
      invariant data == target[..i]
    {
      PixelOfCell(w, h, i);
      data := data + [f(i % w, i / w)];
      i := i + 1;
    }
    assert data == target;
    c := Mutable(w, h, data);
  }

  /** `forEachPixel`: the nested loops, x outer and y inner, return the
      pixels in the order the action sees them. */
  method ForEachPixel(w: nat, h: nat) returns (visited: seq<(nat, nat)>)
    ensures visited == PixelOrder(w, h)
  {
    visited := [];
    var x := 0;
    while x < w
      invariant 0 <= x <= w
      invariant |visited| == x * h
      invariant forall k :: 0 <= k < |visited| ==> visited[k] == (k / h, k % h)
    {
      var y := 0;
      while y < h
        invariant 0 <= y <= h
        invariant |visited| == x * h + y
        invariant forall k :: 0 <= k < |visited| ==> visited[k] == (k / h, k % h)
      {
        DivModUnique(h, x, y);
        visited := visited + [(x, y)];
        y := y + 1;
      }
      assert x * h + h == (x + 1) * h;
      x := x + 1;
    }
  }

  /** After `k` steps of the pixel-by-pixel copy, the pixels visited so far
      hold `color` and the rest are still zero. */
  ghost predicate CopiedUpTo(r: Canvas, w: nat, h: nat, color: Color, k: nat) {
    r.Mutable? && r.width == w && r.height == h &&
    forall x: nat, y: nat :: x < w && y < h ==>
      Get(r, x, y) == if Index(h, y, x) < k then color else Colors.Transparent
  }

  /** One step of the copy: writing the `k`-th pixel of `forEachPixel` order. */
  lemma CopyStep(r: Canvas, w: nat, h: nat, color: Color, k: nat)
    requires k < w * h && CopiedUpTo(r, w, h, color, k)
    ensures PixelOrder(w, h)[k].0 < w && PixelOrder(w, h)[k].1 < h
    ensures CopiedUpTo(Set(r, PixelOrder(w, h)[k].0, PixelOrder(w, h)[k].1, color), w, h, color, k + 1)
  {
    PixelOfCell(h, w, k);
    var (x, y) := PixelOrder(w, h)[k];
    assert Index(h, y, x) == k;
    var r' := Set(r, x, y, color);
    forall x': nat, y': nat | x' < w && y' < h
      ensures Get(r', x', y') == if Index(h, y', x') < k + 1 then color else Colors.Transparent
    {
      if (x', y') != (x, y) {
        CellsDistinct(h, y', x', y, x);
      }
    }
  }

  /** Once every pixel has been visited, the copy is the canvas `CopyOf` describes. */
  lemma CopyComplete(r: Canvas, c: Canvas)
    requires c.SingleColor? && CopiedUpTo(r, c.width, c.height, c.color, c.width * c.height)
    ensures r == CopyOf(c)
  {
    forall x: nat, y: nat | x < c.width && y < c.height
      ensures Get(r, x, y) == Get(CopyOf(c), x, y)
    {
      CellOfPixel(c.height, c.width, y, x);
      assert c.height * c.width == c.width * c.height;
    }
    MutableExtensional(r, CopyOf(c));
  }

  /** The copy constructor `MutableCanvas(canvas)`: a dense source is copied
      cell for cell, any other source is written pixel by pixel in
      `forEachPixel` order into a zero-filled buffer. */
  method CopyConstruct(c: Canvas) returns (r: Canvas)
    ensures r == CopyOf(c)
  {
    if c.Mutable? {
      r := Mutable(c.width, c.height, c.data);
      return;
    }
    var w, h := c.width, c.height;
    r := Blank(w, h);
    assert CopiedUpTo(r, w, h, c.color, 0);
    var order := ForEachPixel(w, h);
    var k := 0;
    while k < |order|
      invariant 0 <= k <= |order| == w * h
      invariant CopiedUpTo(r, w, h, c.color, k)
    {
      CopyStep(r, w, h, c.color, k);
      var (x, y) := order[k];
      r := Set(r, x, y, Get(c, x, y));
      k := k + 1;
    }
    CopyComplete(r, c);
  }
}

=== FILE: color.dfy ===
/** The packed ARGB colour value (lib/src/main/kotlin/canvas/Color.kt):
    accessors, the clamping constructors, `copy`, `get`, the hex parser
    `tryParse` and the `toString` renderer. */
module Colors {
  import opened Wrappers
  import Internal

  /** `ColorComponent`: one of the four channels. */
  datatype Component = A | R | G | B

  /** A colour is one Kotlin `Int`, here its unsigned 32-bit view. */
  datatype Color = Color(argb: Word)

  const Alpha24: int := 0x100_0000
  const Red16: int := 0x1_0000

  /** `a`: bits 24..31. */
  function Alpha(c: Color): Byte { c.argb / Alpha24 }
  /** `r`: bits 16..23. */
  function Red(c: Color): Byte { (c.argb / Red16) % 0x100 }
  /** `g`: bits 8..15. */
  function Green(c: Color): Byte { (c.argb / 0x100) % 0x100 }
  /** `b`: bits 0..7. */
  function Blue(c: Color): Byte { c.argb % 0x100 }
  /** `rgb`: the low 24 bits. */
  function Rgb(c: Color): int { c.argb % Alpha24 }

  /** `Int.coerceIn(lo, hi)`. */
  function Clamp(v: int): (r: Byte)
    ensures v < 0 ==> r == 0
    ensures v > 255 ==> r == 255
    ensures 0 <= v <= 255 ==> r == v
  {
    if v < 0 then 0 else if v > 255 then 255 else v
  }

  /** The word whose four bytes, high to low, are `a`, `r`, `g`, `b`. */
  function Pack(a: Byte, r: Byte, g: Byte, b: Byte): Word {
    a * Alpha24 + r * Red16 + g * 0x100 + b
  }

  lemma UnpackPack(a: Byte, r: Byte, g: Byte, b: Byte)
    ensures Pack(a, r, g, b) / Alpha24 == a
    ensures (Pack(a, r, g, b) / Red16) % 0x100 == r
    ensures (Pack(a, r, g, b) / 0x100) % 0x100 == g
    ensures Pack(a, r, g, b) % 0x100 == b
    ensures Pack(a, r, g, b) % Alpha24 == r * Red16 + g * 0x100 + b
  {
    var n := Pack(a, r, g, b);
    var low := r * Red16 + g * 0x100 + b;
    assert n == a * Alpha24 + low;
    assert n / Alpha24 == a;
    assert n % Alpha24 == low;
    var mid := g * 0x100 + b;
    assert n == (a * 0x100 + r) * Red16 + mid;
    assert n / Red16 == a * 0x100 + r;
    assert n == ((a * 0x100 + r) * 0x100 + g) * 0x100 + b;
    assert n / 0x100 == (a * 0x100 + r) * 0x100 + g;
  }

  lemma PackUnpack(c: Color)
    ensures Pack(Alpha(c), Red(c), Green(c), Blue(c)) == c.argb
  {
    var n := c.argb;
    assert n == (n / 0x100) * 0x100 + Blue(c);
    assert n / 0x100 == ((n / 0x100) / 0x100) * 0x100 + Green(c);
    assert (n / 0x100) / 0x100 == n / Red16;
    assert n / Red16 == ((n / Red16) / 0x100) * 0x100 + Red(c);
    assert (n / Red16) / 0x100 == Alpha(c);
  }

  /** The 4-argument constructor `Color(a, r, g, b)`: every channel clamped to 0..255. */
  function FromChannels(a: int, r: int, g: int, b: int): (c: Color)
    ensures Alpha(c) == Clamp(a) && Red(c) == Clamp(r)
    ensures Green(c) == Clamp(g) && Blue(c) == Clamp(b)
  {
    UnpackPack(Clamp(a), Clamp(r), Clamp(g), Clamp(b));
    Color(Pack(Clamp(a), Clamp(r), Clamp(g), Clamp(b)))
  }

  /** The 3-argument constructor `Color(r, g, b)`: fully opaque. */
  function Opaque(r: int, g: int, b: int): (c: Color)
    ensures Alpha(c) == 255
    ensures Red(c) == Clamp(r) && Green(c) == Clamp(g) && Blue(c) == Clamp(b)
  {
    FromChannels(255, r, g, b)
  }

  /** Two colours with the same four channels are the same colour, and
      rebuilding a colour from its own channels gives it back. */
  lemma ChannelsDetermineColor(c: Color, d: Color)
    ensures FromChannels(Alpha(c), Red(c), Green(c), Blue(c)) == c
    ensures Alpha(c) == Alpha(d) && Red(c) == Red(d) && Green(c) == Green(d) && Blue(c) == Blue(d)
            ==> c == d
  {
    PackUnpack(c);
    PackUnpack(d);
  }

  const Transparent: Color := FromChannels(0, 0, 0, 0)
  const Black: Color := Opaque(0, 0, 0)
  const White: Color := Opaque(255, 255, 255)

  /** `operator get(component)`. */
  function Get(c: Color, k: Component): (v: Byte)
    ensures k == A ==> v == Alpha(c)
    ensures k == R ==> v == Red(c)
    ensures k == G ==> v == Green(c)
    ensures k == B ==> v == Blue(c)
  {
    match k
    case A => Alpha(c)
    case R => Red(c)
    case G => Green(c)
    case B => Blue(c)
  }

  /** `copy(a = this.a, r = this.r, g = this.g, b = this.b)`: an absent
      argument keeps the channel, a given one is clamped into it. */
  function Copy(c: Color, a: Option<int>, r: Option<int>, g: Option<int>, b: Option<int>): (d: Color)
    ensures Alpha(d) == (if a.Some? then Clamp(a.value) else Alpha(c))
    ensures Red(d) == (if r.Some? then Clamp(r.value) else Red(c))
    ensures Green(d) == (if g.Some? then Clamp(g.value) else Green(c))
    ensures Blue(d) == (if b.Some? then Clamp(b.value) else Blue(c))
    ensures a.None? && r.None? && g.None? && b.None? ==> d == c
  {
    ChannelsDetermineColor(c, c);
    FromChannels(a.GetOr(Alpha(c)), r.GetOr(Red(c)), g.GetOr(Green(c)), b.GetOr(Blue(c)))
  }

  // ---------------------------------------------------------------------------
  // Interpolation

  /** `Float.roundToInt()` on a finite value: halves round up. */
  function Round(x: real): (n: int)
    ensures n as real <= x + 0.5 < n as real + 1.0
  {
    (x + 0.5).Floor
  }

  /** The private `lerp(a, b, d) = a + d * (b - a)`, before rounding. */
  function LerpReal(x: real, y: real, d: real): real {
    x + d * (y - x)
  }

  /** The private `lerp` on one channel, rounded. */
  function LerpChannel(a: Byte, b: Byte, d: real): int {
    Round(LerpReal(a as real, b as real, d))
  }

  /** Scaling by a factor in [0, 1] stays between 0 and the scaled value. */
  lemma ScaleBetween(d: real, e: real)
    requires 0.0 <= d <= 1.0 && e >= 0.0
    ensures 0.0 <= d * e <= e
  {
    assert e - d * e == (1.0 - d) * e;
  }

  /** Interpolating upwards stays between the end values. */
  lemma LerpUp(x: real, y: real, d: real)
    requires 0.0 <= d <= 1.0 && x <= y
    ensures x <= LerpReal(x, y, d) <= y
  {
    var e := y - x;
    ScaleBetween(d, e);
    var de := d * e;
    assert 0.0 <= de <= e;
  }

  /** Interpolating downwards stays between the end values. */
  lemma LerpDown(x: real, y: real, d: real)
    requires 0.0 <= d <= 1.0 && y < x
    ensures y <= LerpReal(x, y, d) <= x
  {
    var e := x - y;
    ScaleBetween(d, e);
    var de := d * e;
    assert 0.0 <= de <= e;
    assert d * (y - x) == -de;
  }

  /** For `d` in [0, 1] the rounded channel lies between the two end values,
      and the end points are reached exactly. */
  lemma LerpChannelBetween(a: Byte, b: Byte, d: real)
    requires 0.0 <= d <= 1.0
    ensures (if a <= b then a else b) <= LerpChannel(a, b, d) <= (if a <= b then b else a)
    ensures d == 0.0 ==> LerpChannel(a, b, d) == a
    ensures d == 1.0 ==> LerpChannel(a, b, d) == b
  {
    var ar, br := a as real, b as real;
    var x := LerpReal(ar, br, d);
    var n := LerpChannel(a, b, d);
    assert n as real <= x + 0.5 < n as real + 1.0;
    if a <= b {
      LerpUp(ar, br, d);
      assert (a - 1) as real < n as real < (b + 1) as real;
    } else {
      LerpDown(ar, br, d);
      assert (b - 1) as real < n as real < (a + 1) as real;
    }
    if d == 0.0 { assert x == ar; }
    if d == 1.0 { assert x == br; }
  }

  /** Every channel of `r` lies between the same channel of `c` and of `d`. */
  predicate ChannelsBetween(c: Color, d: Color, r: Color) {
    forall k :: (if Get(c, k) <= Get(d, k) then Get(c, k) else Get(d, k)) <= Get(r, k)
                <= (if Get(c, k) <= Get(d, k) then Get(d, k) else Get(c, k))
  }

  /** `lerp(other, d)`: each channel interpolated and rounded, then clamped
      by the 4-argument constructor. */
  function Lerp(c: Color, other: Color, d: real): (r: Color)
    ensures c == other ==> r == c
  {
    LerpSelf(c, d);
    FromChannels(LerpChannel(Alpha(c), Alpha(other), d), LerpChannel(Red(c), Red(other), d),
                 LerpChannel(Green(c), Green(other), d), LerpChannel(Blue(c), Blue(other), d))
  }

  /** Interpolating a colour with itself, channel by channel, rebuilds it. */
  lemma LerpSelf(c: Color, d: real)
    ensures FromChannels(LerpChannel(Alpha(c), Alpha(c), d), LerpChannel(Red(c), Red(c), d),
                         LerpChannel(Green(c), Green(c), d), LerpChannel(Blue(c), Blue(c), d)) == c
  {
    LerpChannelSame(Alpha(c), d);
    LerpChannelSame(Red(c), d);
    LerpChannelSame(Green(c), d);
    LerpChannelSame(Blue(c), d);
    ChannelsDetermineColor(c, c);
  }

  /** Interpolating a channel with itself gives it back. */
  lemma LerpChannelSame(a: Byte, d: real)
    ensures LerpChannel(a, a, d) == a
  {
    assert LerpReal(a as real, a as real, d) == a as real;
  }

  /** Interpolating from `c` to `other` starts at `c`, ends at `other`, and in
      between keeps every channel within the range of its two end values. */
  lemma LerpProperties(c: Color, other: Color, d: real)
    requires 0.0 <= d <= 1.0
    ensures d == 0.0 ==> Lerp(c, other, d) == c
    ensures d == 1.0 ==> Lerp(c, other, d) == other
    ensures ChannelsBetween(c, other, Lerp(c, other, d))
  {
    var r := Lerp(c, other, d);
    LerpChannelBetween(Alpha(c), Alpha(other), d);
    LerpChannelBetween(Red(c), Red(other), d);
    LerpChannelBetween(Green(c), Green(other), d);
    LerpChannelBetween(Blue(c), Blue(other), d);
    ChannelsDetermineColor(r, c);
    ChannelsDetermineColor(r, other);
  }

  // ---------------------------------------------------------------------------
  // Hex digits

  predicate IsHexDigit(ch: char) {
    ('0' <= ch <= '9') || ('a' <= ch <= 'f') || ('A' <= ch <= 'F')
  }

  /** `Char.digitToInt(16)` on an ASCII hex digit of either case. */
  function DigitValue(ch: char): (v: nat)
    requires IsHexDigit(ch)
    ensures v < 16
  {
    if '0' <= ch <= '9' then ch as int - '0' as int
    else if 'a' <= ch <= 'f' then ch as int - 'a' as int + 10
    else ch as int - 'A' as int + 10
  }

  /** The digit `HexFormat.UpperCase` prints for a nibble. */
  function UpperDigit(v: nat): (ch: char)
    requires v < 16
    ensures IsHexDigit(ch) && DigitValue(ch) == v
    ensures !('a' <= ch <= 'f')
  {
    if v < 10 then ('0' as int + v) as char else ('A' as int + v - 10) as char
  }

  /** Two upper-case digits of one byte. */
  function HexByte(v: Byte): string {
    [UpperDigit(v / 16), UpperDigit(v % 16)]
  }

  /** `Int.toHexString(HexFormat.UpperCase)` as of Kotlin 1.9: always all
      eight nibbles of the 32-bit value, most significant first. */
  function Hex8(w: Word): (s: string)
    ensures |s| == 8
    ensures forall i :: 0 <= i < |s| ==> '0' <= s[i] <= '9' || 'A' <= s[i] <= 'F'
  {
    var c := Color(w);
    HexByte(Alpha(c)) + HexByte(Red(c)) + HexByte(Green(c)) + HexByte(Blue(c))
  }

  // ---------------------------------------------------------------------------
  // Parsing

  predicate AllHex(s: string) {
    forall i :: 0 <= i < |s| ==> IsHexDigit(s[i])
  }

  /** The capture of `#?([0-9a-fA-F]{1,8})` under `matchEntire`, or `None`. */
  function MatchColorText(s: string): (m: Option<string>)
    ensures m.Some? <==> exists t :: (s == t || s == "#" + t) && 1 <= |t| <= 8 && AllHex(t)
    ensures m.Some? ==> 1 <= |m.value| <= 8 && AllHex(m.value) && (s == m.value || s == "#" + m.value)
  {
    var t := if |s| > 0 && s[0] == '#' then s[1..] else s;
    if 1 <= |t| <= 8 && AllHex(t) then Some(t)
    else
      None
  }

  /** `c1`: one digit, duplicated into both nibbles. */
  function C1(t: string, i: nat): (v: Byte)
    requires i < |t| && IsHexDigit(t[i])
    ensures v == DigitValue(t[i]) * 17
  {
    DigitValue(t[i]) * 16 + DigitValue(t[i])
  }

  /** `c2`: two digits, high nibble first. */
  function C2(t: string, i: nat): (v: Byte)
    requires i + 1 < |t| && IsHexDigit(t[i]) && IsHexDigit(t[i + 1])
  {
    DigitValue(t[i]) * 16 + DigitValue(t[i + 1])
  }

  /** The colour a matched digit string stands for, by its length. */
  function ParseText(t: string): Option<Color>
    requires AllHex(t)
  {
    if |t| == 1 then var v := C1(t, 0); Some(Opaque(v, v, v))
    else if |t| == 2 then var v := C2(t, 0); Some(Opaque(v, v, v))
    else if |t| == 3 then Some(Opaque(C1(t, 0), C1(t, 1), C1(t, 2)))
    else if |t| == 4 then Some(FromChannels(C1(t, 0), C1(t, 1), C1(t, 2), C1(t, 3)))
    else if |t| == 6 then Some(Opaque(C2(t, 0), C2(t, 2), C2(t, 4)))
    else if |t| == 8 then Some(FromChannels(C2(t, 0), C2(t, 2), C2(t, 4), C2(t, 6)))
    else None
  }

  /** `Color.tryParse`: grey (1 or 2 digits), RGB (3 or 6), ARGB (4 or 8); else `null`. */
  function TryParse(s: string): (r: Option<Color>)
    ensures r.Some? <==> MatchColorText(s).Some? && |MatchColorText(s).value| in {1, 2, 3, 4, 6, 8}
    ensures r.Some? && |MatchColorText(s).value| in {1, 2, 3, 6} ==> Alpha(r.value) == 255
  {
    match MatchColorText(s)
    case None => None
    case Some(t) => ParseText(t)
  }

  /** A single digit `n` gives the opaque grey `n * 17`; two digits give the
      opaque grey of their byte value. */
  lemma ParseGrey(s: string)
    requires AllHex(s) && 1 <= |s| <= 2
    ensures TryParse(s).Some?
    ensures var c := TryParse(s).value;
            Alpha(c) == 255 && Red(c) == Green(c) == Blue(c)
    ensures |s| == 1 ==> Red(TryParse(s).value) == DigitValue(s[0]) * 17
    ensures |s| == 2 ==> Red(TryParse(s).value) == DigitValue(s[0]) * 16 + DigitValue(s[1])
  {
    assert s[0] != '#' by { assert IsHexDigit(s[0]); }
    assert MatchColorText(s) == Some(s);
  }

  /** Four digits read as A, R, G, B nibbles; eight digits as AARRGGBB. */
  lemma ParseArgbForms(s: string)
    requires AllHex(s) && (|s| == 4 || |s| == 8)
    ensures TryParse(s).Some?
    ensures |s| == 4 ==> var c := TryParse(s).value;
              Alpha(c) == DigitValue(s[0]) * 17 && Red(c) == DigitValue(s[1]) * 17 &&
              Green(c) == DigitValue(s[2]) * 17 && Blue(c) == DigitValue(s[3]) * 17
    ensures |s| == 8 ==> var c := TryParse(s).value;
              Alpha(c) == DigitValue(s[0]) * 16 + DigitValue(s[1]) &&
              Red(c) == DigitValue(s[2]) * 16 + DigitValue(s[3]) &&
              Green(c) == DigitValue(s[4]) * 16 + DigitValue(s[5]) &&
              Blue(c) == DigitValue(s[6]) * 16 + DigitValue(s[7])
  {
    assert s[0] != '#' by { assert IsHexDigit(s[0]); }
    assert MatchColorText(s) == Some(s);
  }

  /** Five or seven digits, or anything outside the accepted grammar, is rejected. */
  lemma ParseRejects(s: string)
    requires (AllHex(s) && (|s| == 5 || |s| == 7)) || (|s| > 9) || s == "" || s == "#"
    ensures TryParse(s) == None
  {
    if AllHex(s) && (|s| == 5 || |s| == 7) {
      assert s[0] != '#' by { assert IsHexDigit(s[0]); }
      assert MatchColorText(s) == Some(s);
    }
  }

  // ---------------------------------------------------------------------------
  // Rendering

  lemma HexByteParses(t: string, i: nat, v: Byte)
    requires i + 1 < |t| && t[i..i + 2] == HexByte(v)
    ensures IsHexDigit(t[i]) && IsHexDigit(t[i + 1]) && C2(t, i) == v
  {
    assert t[i] == t[i..i + 2][0] && t[i + 1] == t[i..i + 2][1];
  }

  /** Reading the eight digits of `Hex8(w)` back, two at a time, yields the bytes of `w`. */
  lemma Hex8Parses(w: Word)
    ensures AllHex(Hex8(w))
    ensures var t := Hex8(w); var c := Color(w);
            C2(t, 0) == Alpha(c) && C2(t, 2) == Red(c) && C2(t, 4) == Green(c) && C2(t, 6) == Blue(c)
  {
    var c := Color(w);
    var t := Hex8(w);
    assert t[0..2] == HexByte(Alpha(c));
    assert t[2..4] == HexByte(Red(c));
    assert t[4..6] == HexByte(Green(c));
    assert t[6..8] == HexByte(Blue(c));
    HexByteParses(t, 0, Alpha(c));
    HexByteParses(t, 2, Red(c));
    HexByteParses(t, 4, Green(c));
    HexByteParses(t, 6, Blue(c));
  }

  /** The low 24 bits of a colour, read as a colour, have alpha 0 and the same RGB. */
  lemma RgbChannels(c: Color)
    ensures var d := Color(Rgb(c));
            Alpha(d) == 0 && Red(d) == Red(c) && Green(d) == Green(c) && Blue(d) == Blue(c)
  {
    PackUnpack(c);
    UnpackPack(Alpha(c), Red(c), Green(c), Blue(c));
    UnpackPack(0, Red(c), Green(c), Blue(c));
    assert Rgb(c) == Pack(0, Red(c), Green(c), Blue(c));
  }

  /** `toString` exactly as compiled against Kotlin 1.9.22: `#` and the eight
      digits of `rgb` when opaque, of `argb` otherwise. */
  function ToStringAsWritten(c: Color): (s: string)
    ensures |s| == 9 && s[0] == '#' && AllHex(s[1..])
    ensures Alpha(c) == 255 ==> s[1..3] == "00" && s[1..] == Hex8(Rgb(c))
    ensures forall i :: 1 <= i < |s| ==> '0' <= s[i] <= '9' || 'A' <= s[i] <= 'F'
    ensures Alpha(c) != 255 ==> s[1..] == Hex8(c.argb)
  {
    var w := if Alpha(c) == 255 then Rgb(c) else c.argb;
    Hex8Parses(w);
    RgbChannels(c);
    "#" + Hex8(w)
  }

  /** `#` and the eight digits of a word parse back to that word. */
  lemma Hex8RoundTrip(w: Word)
    ensures TryParse("#" + Hex8(w)) == Some(Color(w))
  {
    Hex8Parses(w);
    MatchHashed(Hex8(w));
    ParseHex8(w);
  }

  lemma MatchHashed(t: string)
    requires 1 <= |t| <= 8 && AllHex(t)
    ensures MatchColorText("#" + t) == Some(t)
  {
    assert ("#" + t)[1..] == t;
  }

  lemma ParseHex8(w: Word)
    ensures AllHex(Hex8(w)) && ParseText(Hex8(w)) == Some(Color(w))
  {
    Hex8Parses(w);
    var c := Color(w);
    ChannelsDetermineColor(c, c);
  }

  /** For a colour that is not fully opaque, parsing its rendering gives it back. */
  lemma ToStringRoundTripNonOpaque(c: Color)
    requires Alpha(c) != 255
    ensures TryParse(ToStringAsWritten(c)) == Some(c)
  {
    assert ToStringAsWritten(c) == "#" + Hex8(c.argb);
    Hex8RoundTrip(c.argb);
  }

  /** The rendering of an opaque colour parses to the same RGB with alpha 0:
      white renders as `#00FFFFFF`, which reads back as transparent white. */
  lemma OpaqueRoundTripFails()
    ensures ToStringAsWritten(White) == "#00FFFFFF"
    ensures TryParse(ToStringAsWritten(White)) == Some(FromChannels(0, 255, 255, 255))
    ensures TryParse(ToStringAsWritten(White)) != Some(White)
  {
    UnpackPack(255, 255, 255, 255);
    UnpackPack(0, 255, 255, 255);
    var w := Rgb(White);
    assert w == Pack(0, 255, 255, 255);
    assert ToStringAsWritten(White) == "#" + Hex8(w);
    assert Hex8(w) == "00FFFFFF";
    Hex8RoundTrip(w);
    assert FromChannels(0, 255, 255, 255) == Color(w);
  }

  /** The rendering the source evidently intends: `#RRGGBB` when opaque,
      `#AARRGGBB` otherwise. */
  function ToString(c: Color): (s: string)
    ensures Alpha(c) == 255 ==> |s| == 7 && s == "#" + HexByte(Red(c)) + HexByte(Green(c)) + HexByte(Blue(c))
    ensures Alpha(c) != 255 ==> s == ToStringAsWritten(c)
  {
    if Alpha(c) == 255 then "#" + HexByte(Red(c)) + HexByte(Green(c)) + HexByte(Blue(c))
    else ToStringAsWritten(c)
  }

  /** With the intended rendering, every colour survives a print/parse round trip. */
  lemma {:induction false} ToStringRoundTrip(c: Color)
    ensures TryParse(ToString(c)) == Some(c)
  {
    if Alpha(c) == 255 {
      var t := HexByte(Red(c)) + HexByte(Green(c)) + HexByte(Blue(c));
      assert ToString(c) == "#" + t;
      assert t[0..2] == HexByte(Red(c));
      assert t[2..4] == HexByte(Green(c));
      assert t[4..6] == HexByte(Blue(c));
      HexByteParses(t, 0, Red(c));
      HexByteParses(t, 2, Green(c));
      HexByteParses(t, 4, Blue(c));
      assert AllHex(t);
      assert MatchColorText("#" + t) == Some(t);
      ChannelsDetermineColor(c, c);
    } else {
      ToStringRoundTripNonOpaque(c);
    }
  }

  // ---------------------------------------------------------------------------
  // Case

  /** Upper-cases a hex letter `a`..`f`; every other character is kept. */
  function UpperHexLetter(ch: char): (u: char)
    ensures IsHexDigit(u) <==> IsHexDigit(ch)
    ensures IsHexDigit(ch) ==> DigitValue(u) == DigitValue(ch)
    ensures u == '#' <==> ch == '#'
  {
    if 'a' <= ch <= 'f' then (ch as int - 32) as char else ch
  }

  function UpperHexLetters(s: string): (u: string)
    ensures |u| == |s|
    ensures forall i :: 0 <= i < |s| ==> u[i] == UpperHexLetter(s[i])
  {
    seq(|s|, i requires 0 <= i < |s| => UpperHexLetter(s[i]))
  }

  /** Digit strings that agree digit for digit in value denote the same colour. */
  lemma ParseTextSameDigits(t: string, t': string)
    requires AllHex(t) && AllHex(t') && |t| == |t'|
    requires forall i :: 0 <= i < |t| ==> DigitValue(t[i]) == DigitValue(t'[i])
    ensures ParseText(t) == ParseText(t')
  {
  }

  /** The parser reads digits of either case alike: upper-casing the hex
      letters of any string changes neither acceptance nor the colour. */
  lemma ParseIgnoresCase(s: string)
    ensures TryParse(UpperHexLetters(s)) == TryParse(s)
  {
    var u := UpperHexLetters(s);
    var hash := |s| > 0 && s[0] == '#';
    assert hash <==> |u| > 0 && u[0] == '#';
    var t := if hash then s[1..] else s;
    var tu := if hash then u[1..] else u;
    assert |tu| == |t|;
    assert forall i :: 0 <= i < |t| ==> tu[i] == UpperHexLetter(t[i]);
    assert AllHex(tu) <==> AllHex(t);
    assert MatchColorText(s) == if 1 <= |t| <= 8 && AllHex(t) then Some(t) else None;
    assert MatchColorText(u) == if 1 <= |tu| <= 8 && AllHex(tu) then Some(tu) else None;
    if 1 <= |t| <= 8 && AllHex(t) {
      ParseTextSameDigits(tu, t);
    }
  }

  // ---------------------------------------------------------------------------
  // fromString

  /** `fromString` as written: its message interpolates `$this`, which inside
      the companion object is the companion itself, whose text is `companion`. */
  function FromStringAsWritten(s: string, companion: string): (r: Internal.Result<Color>)
    ensures r.Success? <==> TryParse(s).Some?
    ensures r.Success? ==> r.value == TryParse(s).value
    ensures r.Failure? ==> r.error.message == Some("Cannot parse color '" + companion + "'")
  {
    match TryParse(s)
    case Some(c) => Internal.Success(c)
    case None => Internal.Failure(Internal.Throwable(false, Some("Cannot parse color '" + companion + "'"),
                                                     "java.lang.IllegalArgumentException"))
  }

  /** The rejected text never reaches the message: "zz" and "#12345" are
      reported identically. */
  lemma FromStringLosesInput(companion: string)
    ensures FromStringAsWritten("zz", companion).Failure?
    ensures FromStringAsWritten("zz", companion) == FromStringAsWritten("#12345", companion)
  {
    var zz, bad := "zz", "#12345";
    assert zz[0] == 'z' && !IsHexDigit(zz[0]);
    assert MatchColorText(zz) == None;
    assert bad[0] == '#' && |bad[1..]| == 5;
    assert TryParse(bad) == None;
  }

  /** `fromString` as evidently intended: the message quotes the rejected text. */
  function FromString(s: string): (r: Internal.Result<Color>)
    ensures r.Success? <==> TryParse(s).Some?
    ensures r.Success? ==> r.value == TryParse(s).value
    ensures r.Failure? ==> r.error.message == Some("Cannot parse color '" + s + "'")
  {
    match TryParse(s)
    case Some(c) => Internal.Success(c)
    case None => Internal.Failure(Internal.Throwable(false, Some("Cannot parse color '" + s + "'"),
                                                     "java.lang.IllegalArgumentException"))
  }

  lemma ConcatCancel(p: string, s: string, s': string, q: string)
    requires p + s + q == p + s' + q
    ensures s == s'
  {
    assert |s| == |s'|;
    assert s == (p + s + q)[|p|..|p| + |s|];
    assert s' == (p + s' + q)[|p|..|p| + |s'|];
  }

  /** With the intended message, the report identifies the rejected input:
      two rejections reported alike come from the same text. */
  lemma FromStringNamesInput(s: string, s': string)
    requires FromString(s).Failure? && FromString(s').Failure?
    ensures FromString(s).error.message == FromString(s').error.message ==> s == s'
  {
    if FromString(s).error.message == FromString(s').error.message {
      ConcatCancel("Cannot parse color '", s, s', "'");
    }
  }
}

=== FILE: dimension.dfy ===
/** `Dimension` (lib/src/main/kotlin/canvas/Dimension.kt): a width or
    height that is either a value or AUTO, packed into one `Long` whose
    value -1 means AUTO. */
module Dimension {
  import opened Wrappers
  import opened Internal

  datatype Packed = Packed(value: int)

  /** Only the private constructor's two uses exist: -1, or a non-negative size. */
  type Dimension = d: Packed | d.value >= -1 witness Packed(-1)

  const Auto: Dimension := Packed(-1)

  /** `Dimension.of(value: UInt)`. */
  function Of(v: nat): Dimension { Packed(v) }

  /** `Dimension.of(value: UInt?)`: `null` is AUTO. */
  function OfNullable(v: Option<nat>): (d: Dimension)
    ensures v.None? ==> d == Auto
    ensures v.Some? ==> d == Of(v.value)
  {
    match v
    case Some(x) => Of(x)
    case None => Auto
  }

  /** `hasValue`. */
  predicate HasValue(d: Dimension) { d.value >= 0 }

  /** The nullable size a dimension stands for: the inverse of `OfNullable`. */
  function ToNullable(d: Dimension): (v: Option<nat>)
    ensures v.Some? <==> HasValue(d)
  {
    if d.value >= 0 then Some(d.value) else None
  }

  /** The packing is a faithful encoding of a nullable size, both ways round. */
  lemma PackingIsBijective(d: Dimension, v: Option<nat>)
    ensures OfNullable(ToNullable(d)) == d
    ensures ToNullable(OfNullable(v)) == v
    ensures !HasValue(Auto) && (v.Some? ==> HasValue(Of(v.value)))
  {
  }

  /** `or(fallback)`: this dimension if it has a value, else the fallback. */
  function Or(d: Dimension, fallback: Dimension): (r: Dimension)
    ensures HasValue(d) ==> r == d
    ensures !HasValue(d) ==> r == fallback
    ensures HasValue(r) <==> HasValue(d) || HasValue(fallback)
  {
    if HasValue(d) then d else fallback
  }

  /** `or` is associative and AUTO is its identity on both sides. */
  lemma OrMonoid(x: Dimension, y: Dimension, z: Dimension)
    ensures Or(Or(x, y), z) == Or(x, Or(y, z))
    ensures Or(Auto, x) == x && Or(x, Auto) == x
  {
  }

  /** `orElse(fallback: UInt)`. */
  function OrElse(d: Dimension, fallback: nat): (r: nat)
    ensures ToNullable(d).Some? ==> r == ToNullable(d).value
    ensures ToNullable(d).None? ==> r == fallback
  {
    if HasValue(d) then d.value else fallback
  }

  /** `of(v).orElse(f) == v` and `AUTO.orElse(f) == f`. */
  lemma OrElseOf(v: nat, f: nat)
    ensures OrElse(Of(v), f) == v
    ensures OrElse(Auto, f) == f
  {
  }

  /** `orThrow()`: the value, or the default `IllegalStateException`. */
  function OrThrow(d: Dimension): (r: Result<nat>)
    ensures r.Failure? <==> !HasValue(d)
    ensures r.Success? ==> Of(r.value) == d
    ensures r.Failure? ==> r.error.message == Some("Cannot resolve dimension")
  {
    if HasValue(d) then Success(d.value)
    else Failure(Throwable(false, Some("Cannot resolve dimension"), "java.lang.IllegalStateException"))
  }

  /** `mapValue(transform)`: AUTO stays AUTO, a value `v` becomes `of(transform(v))`. */
  function MapValue(d: Dimension, transform: nat -> nat): (r: Dimension)
    ensures HasValue(r) <==> HasValue(d)
    ensures ToNullable(d).Some? ==> ToNullable(r) == Some(transform(ToNullable(d).value))
  {
    if HasValue(d) then Of(transform(d.value)) else d
  }

  /** `mapValue` is a functor map: it preserves identity and composition. */
  lemma MapValueFunctor(d: Dimension, f: nat -> nat, g: nat -> nat)
    ensures MapValue(d, x => x) == d
    ensures MapValue(MapValue(d, f), g) == MapValue(d, x => g(f(x)))
  {
  }

  /** `ifValid(action)`: the arguments the action is invoked with, in order. */
  function IfValid(d: Dimension): (calls: seq<nat>)
    ensures |calls| == (if HasValue(d) then 1 else 0)
    ensures forall i :: 0 <= i < |calls| ==> Of(calls[i]) == d
  {
    if HasValue(d) then [d.value] else []
  }

  /** The generated `toString` of the value class: `Dimension(value=…)`,
      with -1 for AUTO. */
  function ToString(d: Dimension): (s: string)
    ensures |s| > |"Dimension(value=)"| && s[..16] == "Dimension(value=" && s[|s| - 1] == ')'
    ensures s[16] == '-' <==> !HasValue(d)
  {
    "Dimension(value=" + IntToString(d.value) + ")"
  }
}

=== FILE: dispatcher.dfy ===
/** The canvas-operation dispatcher (lib/src/main/kotlin/CanvasOpDispatcher.kt).
    One task per configured path is started, each running its operation
    with the configured default size, and a running operation may ask for
    the result of another through `addDependency`. Every call is one
    atomic step on the state `(ops, dependencies)`: the tasks' outcomes are
    given values, and the lock that serialises the steps is not modelled. */
module Dispatcher {
  import opened Wrappers
  import opened Internal
  import Canvas
  import Dimension
  import Ops
  import Graph

  /** `ops` (each task's eventual value, `null` for a failed operation)
      and the recorded `dependencies`. */
  datatype State = State(ops: map<string, Option<Canvas.Canvas>>, deps: Graph.Edges)

  /** A freshly constructed dispatcher. */
  const Empty: State := State(map[], map[])

  /** What every reachable state satisfies: the recorded graph is acyclic
      (which is what lets `checkCycles` terminate) and it only mentions
      dispatched entries. */
  ghost predicate Valid(s: State) {
    Graph.Acyclic(s.deps) &&
    forall a, b :: Graph.Edge(s.deps, a, b) ==> a in s.ops && b in s.ops
  }

  lemma EmptyValid()
    ensures Valid(Empty)
  {
    Graph.EmptyAcyclic();
  }

  // ---------------------------------------------------------------------------
  // dispatch / await

  /** The string handed to `errorHandler` for a failed run: the bare
      message of a returned `fail(...)`, and "Unexpected exception: " plus
      `toString()` for anything thrown. */
  function Report(e: Throwable): (msg: string)
    ensures e.isCanvasOpException && e.message.Some? ==> msg == e.message.value
    ensures !e.isCanvasOpException ==>
              msg == "Unexpected exception: " + ThrowableToString(e)
  {
    if e.isCanvasOpException then ToCanvasOperationError(e)
    else "Unexpected exception: " + ThrowableToString(e)
  }

  /** The result of a dispatch: the new state and the `errorHandler`
      calls, one message per failed path. */
  datatype Dispatched = Dispatched(state: State, reports: map<string, string>)

  /** The run of one configured operation: the default size given as
      explicit dimensions, and `ctx` standing for the loader and the
      path's dependency handle. */
  function RunTask(ctx: Ops.Context, op: Ops.CanvasOp, dw: nat, dh: nat): Result<Canvas.Canvas> {
    Ops.Run(ctx, op, Dimension.Of(dw), Dimension.Of(dh))
  }

  /** What the task launched for a path computes: its operation run with
      that path's context at the default size. */
  type Runner = (string, Ops.CanvasOp) -> Result<Canvas.Canvas>

  function TaskRunner(dw: nat, dh: nat, contexts: string -> Ops.Context): (run: Runner)
    ensures forall p, op :: run(p, op) == RunTask(contexts(p), op, dw, dh)
  {
    (p: string, op: Ops.CanvasOp) => RunTask(contexts(p), op, dw, dh)
  }

  /** `dispatch`: one task per path of `canvasOperations`, its outcome
      `run(path, op)`; a failed run becomes `null` and exactly one report
      for its path. */
  function Dispatch(s: State, canvasOperations: map<string, Ops.CanvasOp>, run: Runner): (r: Dispatched)
    ensures r.state.ops.Keys == s.ops.Keys + canvasOperations.Keys
    ensures r.state.deps == s.deps
    ensures forall p :: p in s.ops && p !in canvasOperations ==> r.state.ops[p] == s.ops[p]
    ensures r.reports.Keys <= canvasOperations.Keys
    ensures forall p :: p in canvasOperations ==>
              match run(p, canvasOperations[p])
              case Success(c) => r.state.ops[p] == Some(c) && p !in r.reports
              case Failure(e) => r.state.ops[p] == None && p in r.reports && r.reports[p] == Report(e)
  {
    var outcome := map p | p in canvasOperations :: run(p, canvasOperations[p]);
    var tasks := map p | p in outcome :: if outcome[p].Success? then Some(outcome[p].value) else None;
    var reports := map p | p in outcome && outcome[p].Failure? :: Report(outcome[p].error);
    Dispatched(State(s.ops + tasks, s.deps), reports)
  }

  /** Dispatching keeps every reachable-state property. */
  lemma DispatchValid(s: State, canvasOperations: map<string, Ops.CanvasOp>, run: Runner)
    requires Valid(s)
    ensures Valid(Dispatch(s, canvasOperations, run).state)
  {
  }

  /** `create`: a new dispatcher that has dispatched `canvasOperations`. */
  function Create(dw: nat, dh: nat, canvasOperations: map<string, Ops.CanvasOp>,
                  contexts: string -> Ops.Context): (r: Dispatched)
    ensures Valid(r.state)
    ensures r.state.ops.Keys == canvasOperations.Keys && r.state.deps == map[]
  {
    EmptyValid();
    DispatchValid(Empty, canvasOperations, TaskRunner(dw, dh, contexts));
    Dispatch(Empty, canvasOperations, TaskRunner(dw, dh, contexts))
  }

  /** `await`: every task's value, keyed by its path. */
  function Await(s: State): (m: map<string, Option<Canvas.Canvas>>)
    ensures m.Keys == s.ops.Keys
    ensures forall p :: p in m ==> m[p] == s.ops[p]
  {
    s.ops
  }

  /** A dispatcher created for `canvasOperations` awaits to exactly one
      value per configured path, `null` exactly where a report was made. */
  lemma CreateThenAwait(dw: nat, dh: nat, canvasOperations: map<string, Ops.CanvasOp>,
                        contexts: string -> Ops.Context)
    ensures var d := Create(dw, dh, canvasOperations, contexts);
            Await(d.state).Keys == canvasOperations.Keys &&
            forall p :: p in canvasOperations ==> (Await(d.state)[p].None? <==> p in d.reports)
  {
    var d := Create(dw, dh, canvasOperations, contexts);
    forall p | p in canvasOperations
      ensures Await(d.state)[p].None? <==> p in d.reports
    {
      match TaskRunner(dw, dh, contexts)(p, canvasOperations[p])
      case Success(c) =>
      case Failure(e) =>
    }
  }

  // ---------------------------------------------------------------------------
  // addDependency

  function NoEntry(name: string): string {
    "Invalid dependency: No entry with name '" + name + "'"
  }

  function SelfDependency(entry: string): string {
    "Entry '" + entry + "' depending on itself"
  }

  function CyclicDependency(entry: string, dependency: string): string {
    "Cyclic dependency detected between entry '" + entry + "' and '" + dependency + "'"
  }

  const DependencyFailed: string := "One or more dependency failed"

  /** The checks `addDependency` makes before recording an edge, in the
      source's order: unknown entry, unknown dependency, self-dependency,
      cycle. `None` when the edge may be recorded. */
  function Rejection(known: set<string>, deps: Graph.Edges, entry: string, dependency: string): (r: Option<string>)
    requires Graph.Acyclic(deps)
    ensures entry !in known ==> r == Some(NoEntry(entry))
    ensures entry in known && dependency !in known ==> r == Some(NoEntry(dependency))
    ensures entry in known && dependency in known && entry == dependency ==> r == Some(SelfDependency(entry))
    ensures entry in known && dependency in known && entry != dependency ==>
              (Graph.Reaches(deps, dependency, entry) <==> r == Some(CyclicDependency(entry, dependency)))
    ensures r.None? <==>
              entry in known && dependency in known && entry != dependency &&
              !Graph.Reaches(deps, dependency, entry)
  {
    Graph.CheckCyclesIsReachability(deps, entry, dependency);
    if entry !in known then Some(NoEntry(entry))
    else if dependency !in known then Some(NoEntry(dependency))
    else if entry == dependency then Some(SelfDependency(entry))
    else if Graph.CheckCycles(deps, entry, dependency) then Some(CyclicDependency(entry, dependency))
    else None
  }

  /** The outcome of one `addDependency` call and the state after it. */
  datatype Step = Step(result: Result<Canvas.Canvas>, state: State)

  /** `addDependency(entry, dependency)`: validate, record the edge, then
      hand back the dependency's canvas or the generic failure. */
  function AddDependency(s: State, entry: string, dependency: string): (r: Step)
    requires Valid(s)
    ensures Valid(r.state)
    ensures r.state.ops == s.ops
    ensures match Rejection(s.ops.Keys, s.deps, entry, dependency)
            case Some(msg) => r.state == s && r.result == Fail(msg)
            case None =>
              (forall a, b :: Graph.Edge(r.state.deps, a, b) <==>
                                Graph.Edge(s.deps, a, b) || (a == entry && b == dependency)) &&
              match s.ops[dependency]
              case Some(c) => r.result == Success(c)
              case None => r.result == Fail(DependencyFailed)
  {
    match Rejection(s.ops.Keys, s.deps, entry, dependency)
    case Some(msg) => Step(Fail(msg), s)
    case None =>
      Graph.AddEdgeKeepsAcyclic(s.deps, entry, dependency);
      var result := match s.ops[dependency]
                    case Some(c) => Success(c)
                    case None => Fail(DependencyFailed);
      Step(result, State(s.ops, Graph.AddEdge(s.deps, entry, dependency)))
  }

  /** A successful call hands back exactly the dependency's canvas, and a
      call that passed validation but found the dependency failed reports
      only the generic message. */
  lemma AddDependencyResult(s: State, entry: string, dependency: string)
    requires Valid(s)
    ensures var r := AddDependency(s, entry, dependency);
            r.result.Success? ==>
              entry != dependency && dependency in s.ops && s.ops[dependency] == Some(r.result.value)
    ensures var r := AddDependency(s, entry, dependency);
            entry in s.ops && dependency in s.ops && entry != dependency &&
            !Graph.Reaches(s.deps, dependency, entry) && s.ops[dependency].None? ==>
              r.result == Fail(DependencyFailed)
  {
  }

  /** Any sequence of `dependOn` requests, applied one at a time. */
  function Replay(s: State, requests: seq<(string, string)>): (r: State)
    requires Valid(s)
    ensures Valid(r)
    ensures r.ops == s.ops
    decreases |requests|
  {
    if |requests| == 0 then s
    else Replay(AddDependency(s, requests[0].0, requests[0].1).state, requests[1..])
  }

  /** Recorded dependencies only accumulate: a replay keeps every edge. */
  lemma {:induction false} ReplayKeepsEdges(s: State, requests: seq<(string, string)>, a: string, b: string)
    requires Valid(s)
    ensures Graph.Edge(s.deps, a, b) ==> Graph.Edge(Replay(s, requests).deps, a, b)
    decreases |requests|
  {
    if |requests| > 0 {
      ReplayKeepsEdges(AddDependency(s, requests[0].0, requests[0].1).state, requests[1..], a, b);
    }
  }

  /** After `create` and any sequence of requests, no entry depends on
      itself, directly or transitively. */
  lemma NoCycleEver(dw: nat, dh: nat, canvasOperations: map<string, Ops.CanvasOp>,
                    contexts: string -> Ops.Context, requests: seq<(string, string)>)
    ensures forall a :: !Graph.Reaches(Replay(Create(dw, dh, canvasOperations, contexts).state, requests).deps, a, a)
  {
  }
}

=== FILE: gradient.dfy ===
/** Gradient mapping (lib/src/main/kotlin/canvas/gradient.kt): the
    per-pixel map value, channel replacement, `SimpleGradient` stop
    selection, texture sampling and `applyGradient`. `Float` values are
    modelled as reals. */
module Gradient {
  import opened Wrappers
  import opened Internal
  import opened Colors
  import Canvas

  // ---------------------------------------------------------------------------
  // Channels

  /** `replace(other, channels)`: the listed channels come from `other`, the rest stay. */
  function Replace(px: Color, other: Color, channels: set<Component>): (r: Color)
    ensures forall k :: Get(r, k) == if k in channels then Get(other, k) else Get(px, k)
  {
    var a := if A in channels then Alpha(other) else Alpha(px);
    var red := if R in channels then Red(other) else Red(px);
    var green := if G in channels then Green(other) else Green(px);
    var blue := if B in channels then Blue(other) else Blue(px);
    FromChannels(a, red, green, blue)
  }

  /** Replacing no channel keeps the pixel; replacing all of them gives the other colour. */
  lemma ReplaceExtremes(px: Color, other: Color)
    ensures Replace(px, other, {}) == px
    ensures Replace(px, other, {A, R, G, B}) == other
  {
    ChannelsDetermineColor(Replace(px, other, {}), px);
    ChannelsDetermineColor(Replace(px, other, {A, R, G, B}), other);
  }

  function Indicator(b: bool): nat { if b then 1 else 0 }

  /** `channels.sumOf { this[it] }`. */
  function ChannelSum(px: Color, channels: set<Component>): nat {
    Indicator(A in channels) * Alpha(px) + Indicator(R in channels) * Red(px) +
    Indicator(G in channels) * Green(px) + Indicator(B in channels) * Blue(px)
  }

  /** Removing one component lowers the size by one exactly when it was there. */
  lemma RemoveOne(s: set<Component>, k: Component)
    ensures |s| == |s - {k}| + Indicator(k in s)
  {
    if k in s { assert s == (s - {k}) + {k}; }
  }

  /** The size of a channel set is the number of components it contains. */
  lemma ChannelCount(channels: set<Component>)
    ensures |channels| == Indicator(A in channels) + Indicator(R in channels) +
                          Indicator(G in channels) + Indicator(B in channels)
  {
    var s1 := channels - {A};
    var s2 := s1 - {R};
    var s3 := s2 - {G};
    var s4 := s3 - {B};
    assert s4 == {} by {
      forall k | k in s4 ensures false { match k case A => case R => case G => case B => }
    }
    RemoveOne(channels, A);
    RemoveOne(s1, R);
    RemoveOne(s2, G);
    RemoveOne(s3, B);
    assert (R in s1) == (R in channels) && (G in s2) == (G in channels) && (B in s3) == (B in channels);
  }

  /** The channel sum is at most 255 per selected channel. */
  lemma ChannelSumBound(px: Color, channels: set<Component>)
    ensures ChannelSum(px, channels) <= 255 * |channels|
  {
    ChannelCount(channels);
  }

  /** `getGradientMapValue`: the mean of the selected channels, scaled to [0, 1]. */
  function MapValue(px: Color, channels: set<Component>): (v: real)
    requires channels != {}
    ensures 0.0 <= v <= 1.0
  {
    ChannelSumBound(px, channels);
    FractionInUnit(ChannelSum(px, channels) as real, (255 * |channels|) as real);
    ChannelSum(px, channels) as real / (255 * |channels|) as real
  }

  /** `proportion(min, max, value)`. */
  function Proportion(lo: real, hi: real, value: real): real {
    if hi == lo then value else (value - lo) / (hi - lo)
  }

  /** A quotient of a part by its whole lies in [0, 1], and is positive for a positive part. */
  lemma FractionInUnit(a: real, b: real)
    requires 0.0 <= a <= b && b > 0.0
    ensures 0.0 <= a / b <= 1.0
    ensures a > 0.0 ==> a / b > 0.0
  {
    assert (a / b) * b == a;
  }

  lemma SelfQuotient(w: real)
    requires w != 0.0
    ensures 0.0 / w == 0.0 && w / w == 1.0
  {
  }

  /** Over the fixed range [0, 1] the proportion is the value itself; a
      collapsed range also passes the value through; otherwise the ends of
      the range map to 0 and 1. */
  lemma ProportionProperties(lo: real, hi: real, value: real)
    ensures Proportion(0.0, 1.0, value) == value
    ensures hi == lo ==> Proportion(lo, hi, value) == value
    ensures hi != lo ==> Proportion(lo, hi, lo) == 0.0 && Proportion(lo, hi, hi) == 1.0
    ensures lo < hi && lo <= value <= hi ==> 0.0 <= Proportion(lo, hi, value) <= 1.0
  {
    if hi != lo {
      SelfQuotient(hi - lo);
    }
    if lo < hi && lo <= value <= hi {
      FractionInUnit(value - lo, hi - lo);
    }
  }

  // ---------------------------------------------------------------------------
  // SimpleGradient

  /** The keys of a `SortedMap<Float, Color>` strictly increase. */
  predicate StrictlySorted(stops: seq<(real, Color)>) {
    forall i, j :: 0 <= i < j < |stops| ==> stops[i].0 < stops[j].0
  }

  type Stops = s: seq<(real, Color)> | StrictlySorted(s) witness []

  /** The number of leading stops whose key is below `value`: the size of `headMap(value)`. */
  function CountBelow(stops: seq<(real, Color)>, value: real): (n: nat)
    ensures n <= |stops|
    ensures forall j :: 0 <= j < n ==> stops[j].0 < value
    ensures n < |stops| ==> stops[n].0 >= value
  {
    if |stops| == 0 || stops[0].0 >= value then 0 else 1 + CountBelow(stops[1..], value)
  }

  /** On sorted stops the keys below `value` form exactly the prefix `CountBelow` counts. */
  lemma {:induction false} CountBelowSplits(stops: Stops, value: real)
    ensures forall j :: 0 <= j < |stops| ==> (stops[j].0 < value <==> j < CountBelow(stops, value))
  {
    var n := CountBelow(stops, value);
    forall j | 0 <= j < |stops|
      ensures stops[j].0 < value <==> j < n
    {
      if n <= j && n < j {
        assert stops[n].0 < stops[j].0;
      }
    }
  }

  /** `SimpleGradient.get(value)`: `head` is the greatest key below `value`,
      `tail` the least key at or above it. */
  function GradientGet(stops: Stops, value: real): Color {
    var n := CountBelow(stops, value);
    if |stops| == 0 then Black
    else if n == 0 then stops[0].1
    else if n == |stops| then stops[n - 1].1
    else
      var head := stops[n - 1];
      var tail := stops[n];
      Lerp(head.1, tail.1, (value - head.0) / (tail.0 - head.0))
  }

  /** No stops give black; at or before the first stop the first colour;
      after the last stop the last colour. */
  lemma {:induction false} GradientGetEnds(stops: Stops, value: real)
    ensures |stops| == 0 ==> GradientGet(stops, value) == Black
    ensures |stops| > 0 && value <= stops[0].0 ==> GradientGet(stops, value) == stops[0].1
    ensures |stops| > 0 && value > stops[|stops| - 1].0 ==> GradientGet(stops, value) == stops[|stops| - 1].1
  {
    CountBelowSplits(stops, value);
  }

  /** Exactly on a stop, the gradient gives that stop's colour. */
  lemma {:induction false} GradientGetAtStop(stops: Stops, value: real, j: nat)
    requires j < |stops| && stops[j].0 == value
    ensures GradientGet(stops, value) == stops[j].1
  {
    var n := CountBelow(stops, value);
    CountBelowSplits(stops, value);
    assert n == j;
    if 0 < n {
      var head := stops[n - 1];
      var d := (value - head.0) / (stops[n].0 - head.0);
      assert d == 1.0;
      LerpProperties(head.1, stops[n].1, d);
    }
  }

  /** Strictly between two neighbouring stops, every channel lies between theirs. */
  lemma {:induction false} GradientGetBetween(stops: Stops, value: real, j: nat)
    requires 0 < j < |stops| && stops[j - 1].0 < value < stops[j].0
    ensures ChannelsBetween(stops[j - 1].1, stops[j].1, GradientGet(stops, value))
  {
    var n := CountBelow(stops, value);
    CountBelowSplits(stops, value);
    assert n == j;
    var head := stops[n - 1];
    var tail := stops[n];
    FractionInUnit(value - head.0, tail.0 - head.0);
    LerpProperties(head.1, tail.1, (value - head.0) / (tail.0 - head.0));
  }

  // ---------------------------------------------------------------------------
  // TextureGradientProvider

  datatype GradientDirection = LeftToRight | RightToLeft | TopToBottom | BottomToTop {
    predicate XAxis() { this == LeftToRight || this == RightToLeft }
    predicate Reversed() { this == RightToLeft || this == BottomToTop }
  }

  function Reverse<T>(s: seq<T>): (r: seq<T>)
    ensures |r| == |s| && forall i :: 0 <= i < |s| ==> r[i] == s[|s| - 1 - i]
  {
    seq(|s|, i requires 0 <= i < |s| => s[|s| - 1 - i])
  }

  /** Dividing by a positive number keeps strict order. */
  lemma DivideKeepsOrder(i: real, j: real, n: real)
    requires i < j && n > 0.0
    ensures i / n < j / n
  {
    assert (i / n) * n == i && (j / n) * n == j;
  }

  /** Stop `i` of `n` sits at `i / n`. */
  function StopsOf(pixels: seq<Color>): (stops: Stops)
    ensures |stops| == |pixels|
    ensures forall i :: 0 <= i < |pixels| ==> stops[i] == (i as real / |pixels| as real, pixels[i])
  {
    var n := |pixels|;
    var stops := seq(n, i requires 0 <= i < n => (i as real / n as real, pixels[i]));
    assert StrictlySorted(stops) by {
      forall i, j | 0 <= i < j < n
        ensures stops[i].0 < stops[j].0
      {
        DivideKeepsOrder(i as real, j as real, n as real);
      }
    }
    stops
  }

  /** The length of the sampled line: the width for x-axis directions, else the height. */
  function LineLength(texture: Canvas.Canvas, direction: GradientDirection): nat {
    if direction.XAxis() then texture.width else texture.height
  }

  /** Whether every read of the line stays inside a dense buffer: the row
      index must be below the height (x-axis) or the column below the width. */
  predicate LineInside(texture: Canvas.Canvas, index: nat, direction: GradientDirection) {
    texture.SingleColor? || LineLength(texture, direction) == 0 ||
    index < (if direction.XAxis() then texture.height else texture.width)
  }

  /** Pixel `i` of the line, before any reversal. */
  function LinePixel(texture: Canvas.Canvas, index: nat, direction: GradientDirection, i: nat): Color
    requires LineInside(texture, index, direction) && i < LineLength(texture, direction)
  {
    if texture.SingleColor? then texture.color
    else if direction.XAxis() then Canvas.Get(texture, i, index)
    else Canvas.Get(texture, index, i)
  }

  /** The `pixels` array of `TextureGradientProvider.run`, reversed when the direction says so. */
  function Line(texture: Canvas.Canvas, index: nat, direction: GradientDirection): (pixels: seq<Color>)
    requires LineInside(texture, index, direction)
    ensures |pixels| == LineLength(texture, direction)
    ensures forall i :: 0 <= i < |pixels| ==>
              pixels[i] == LinePixel(texture, index, direction, if direction.Reversed() then |pixels| - 1 - i else i)
  {
    var n := LineLength(texture, direction);
    var line := seq(n, i requires 0 <= i < n => LinePixel(texture, index, direction, i));
    if direction.Reversed() then Reverse(line) else line
  }

  /** `TextureGradientProvider` on an already rendered texture: stop `i` of
      `n` at `i / n` holds pixel `i` of the (possibly reversed) line; a dense
      texture read outside its buffer throws. */
  function SampleTexture(texture: Canvas.Canvas, index: nat, direction: GradientDirection): (r: Result<Stops>)
    ensures r.Success? <==> LineInside(texture, index, direction)
    ensures r.Failure? ==> r.error == ArrayIndexOutOfBounds
    ensures r.Success? ==> r.value == StopsOf(Line(texture, index, direction))
  {
    if LineInside(texture, index, direction) then Success(StopsOf(Line(texture, index, direction)))
    else Failure(ArrayIndexOutOfBounds)
  }

  /** The sampled stops: `n` of them, stop `i` at `i / n`, with the colour of
      the matching pixel of row or column `index`, read backwards for
      `RightToLeft` and `BottomToTop`; a constant texture gives its colour everywhere. */
  lemma SampleTextureStops(texture: Canvas.Canvas, index: nat, direction: GradientDirection)
    requires LineInside(texture, index, direction)
    ensures var stops := SampleTexture(texture, index, direction).value;
            var n := LineLength(texture, direction);
            |stops| == n &&
            (forall i :: 0 <= i < n ==> stops[i].0 == i as real / n as real) &&
            (forall i :: 0 <= i < n && texture.SingleColor? ==> stops[i].1 == texture.color) &&
            (forall i :: 0 <= i < n && texture.Mutable? && direction.XAxis() ==>
               stops[i].1 == Canvas.Get(texture, if direction.Reversed() then n - 1 - i else i, index)) &&
            (forall i :: 0 <= i < n && texture.Mutable? && !direction.XAxis() ==>
               stops[i].1 == Canvas.Get(texture, index, if direction.Reversed() then n - 1 - i else i))
  {
  }

  // ---------------------------------------------------------------------------
  // applyGradient

  /** A pixel the mapping looks at: fully transparent pixels are skipped
      unless alpha itself is a map channel. */
  predicate Eligible(px: Color, mapChannels: set<Component>) {
    !(Alpha(px) == 0 && A !in mapChannels)
  }

  /** The map values of the eligible pixels, in buffer order. */
  function EligibleValues(cells: seq<Color>, mapChannels: set<Component>): (vs: seq<real>)
    requires mapChannels != {}
    ensures forall v :: v in vs ==> 0.0 <= v <= 1.0
    ensures forall i :: 0 <= i < |cells| && Eligible(cells[i], mapChannels) ==> MapValue(cells[i], mapChannels) in vs
    ensures forall v :: v in vs ==> exists i :: 0 <= i < |cells| && Eligible(cells[i], mapChannels) && v == MapValue(cells[i], mapChannels)
  {
    if |cells| == 0 then []
    else
      var rest := EligibleValues(cells[1..], mapChannels);
      assert forall i :: 1 <= i < |cells| ==> cells[i] == cells[1..][i - 1];
      if Eligible(cells[0], mapChannels) then [MapValue(cells[0], mapChannels)] + rest else rest
  }

  /** The first pass of `applyGradient` with `rescale`: `min` starts at 1
      and `max` at 0, folded over the map values. */
  function RescaleRange(vs: seq<real>): (range: (real, real))
    ensures range.0 <= 1.0 && range.1 >= 0.0
    ensures forall v :: v in vs ==> range.0 <= v <= range.1
    ensures range.0 == 1.0 || range.0 in vs
    ensures range.1 == 0.0 || range.1 in vs
  {
    if |vs| == 0 then (1.0, 0.0)
    else
      var rest := RescaleRange(vs[1..]);
      assert forall v :: v in vs[1..] ==> v in vs;
      assert forall v :: v in vs ==> v == vs[0] || v in vs[1..];
      (if vs[0] < rest.0 then vs[0] else rest.0, if vs[0] > rest.1 then vs[0] else rest.1)
  }

  /** `applyGradient(gradient, gradientMapChannel, outputChannel, rescale)` on
      a dense canvas. */
  function ApplyGradient(c: Canvas.Canvas, gradient: Stops, mapChannels: set<Component>,
                         outputChannels: set<Component>, rescale: bool): (r: Canvas.Canvas)
    requires c.Mutable?
    ensures r.Mutable? && r.width == c.width && r.height == c.height
    ensures mapChannels == {} || outputChannels == {} ==> r == c
  {
    if mapChannels == {} || outputChannels == {} then c
    else
      var range := if rescale then RescaleRange(EligibleValues(c.data, mapChannels)) else (0.0, 1.0);
      Canvas.Fill(c.width, c.height, (x: nat, y: nat) requires x < c.width && y < c.height =>
        var px := Canvas.Get(c, x, y);
        if Eligible(px, mapChannels)
        then Replace(px, GradientGet(gradient, Proportion(range.0, range.1, MapValue(px, mapChannels))), outputChannels)
        else px)
  }

  /** Per pixel: skipped pixels are kept; every other pixel keeps its
      non-output channels and takes its output channels from the gradient
      colour at its (rescaled) map value. */
  lemma ApplyGradientPixels(c: Canvas.Canvas, gradient: Stops, mapChannels: set<Component>,
                            outputChannels: set<Component>, rescale: bool, x: nat, y: nat)
    requires c.Mutable? && x < c.width && y < c.height
    requires mapChannels != {} && outputChannels != {}
    ensures var px := Canvas.Get(c, x, y);
            var q := Canvas.Get(ApplyGradient(c, gradient, mapChannels, outputChannels, rescale), x, y);
            var range := if rescale then RescaleRange(EligibleValues(c.data, mapChannels)) else (0.0, 1.0);
            (!Eligible(px, mapChannels) ==> q == px) &&
            (Eligible(px, mapChannels) ==>
               forall k :: Get(q, k) == if k in outputChannels
                 then Get(GradientGet(gradient, Proportion(range.0, range.1, MapValue(px, mapChannels))), k)
                 else Get(px, k))
  {
  }

  /** Without rescaling the gradient is sampled at the raw map value. */
  lemma NoRescaleSamplesMapValue(c: Canvas.Canvas, gradient: Stops, mapChannels: set<Component>,
                                 outputChannels: set<Component>, x: nat, y: nat)
    requires c.Mutable? && x < c.width && y < c.height
    requires mapChannels != {} && outputChannels != {}
    requires Eligible(Canvas.Get(c, x, y), mapChannels)
    ensures var px := Canvas.Get(c, x, y);
            Canvas.Get(ApplyGradient(c, gradient, mapChannels, outputChannels, false), x, y) ==
            Replace(px, GradientGet(gradient, MapValue(px, mapChannels)), outputChannels)
  {
    ProportionProperties(0.0, 1.0, MapValue(Canvas.Get(c, x, y), mapChannels));
  }

  /** With rescaling the range spans exactly the eligible map values: the
      darkest eligible pixel samples the gradient at 0, the brightest at 1. */
  lemma RescaleSpansValues(c: Canvas.Canvas, mapChannels: set<Component>, x: nat, y: nat)
    requires c.Mutable? && x < c.width && y < c.height && mapChannels != {}
    requires Eligible(Canvas.Get(c, x, y), mapChannels)
    ensures var vs := EligibleValues(c.data, mapChannels);
            var range := RescaleRange(vs);
            range.0 in vs && range.1 in vs &&
            range.0 <= MapValue(Canvas.Get(c, x, y), mapChannels) <= range.1
  {
    var vs := EligibleValues(c.data, mapChannels);
    Canvas.CellOfPixel(c.width, c.height, x, y);
    var i := Canvas.Index(c.width, x, y);
    assert c.data[i] == Canvas.Get(c, x, y);
    assert MapValue(c.data[i], mapChannels) in vs;
    var range := RescaleRange(vs);
    if range.0 == 1.0 {
      assert MapValue(c.data[i], mapChannels) == 1.0;
    }
    if range.1 == 0.0 {
      assert MapValue(c.data[i], mapChannels) == 0.0;
    }
  }
}

=== FILE: graph.dfy ===
/** The dependency graph the dispatchers record
    (lib/src/main/kotlin/CanvasOpDispatcher.kt): `dependencies` maps an
    entry to the entries it has asked for, and `checkCycles` is a
    depth-first search over it. The search only terminates because the
    recorded graph stays acyclic; that is the invariant proved here. */
module Graph {

  /** `dependencies`: entry to the set of entries it depends on. */
  type Edges = map<string, set<string>>

  /** `dependencies[a]?.contains(b) == true`. */
  predicate Edge(g: Edges, a: string, b: string) {
    a in g && b in g[a]
  }

  /** `b` is reachable from `a` in exactly `n >= 1` steps. */
  ghost predicate ReachesIn(g: Edges, a: string, b: string, n: nat)
    decreases n
  {
    if n == 0 then false
    else if n == 1 then Edge(g, a, b)
    else a in g && exists c :: c in g[a] && ReachesIn(g, c, b, n - 1)
  }

  /** `b` is reachable from `a` by a non-empty path. */
  ghost predicate Reaches(g: Edges, a: string, b: string) {
    exists n: nat :: ReachesIn(g, a, b, n)
  }

  /** No entry reaches itself. */
  ghost predicate Acyclic(g: Edges) {
    forall a :: !Reaches(g, a, a)
  }

  /** Every entry that occurs in the graph, as a key or as a target. */
  function Nodes(g: Edges): (ns: set<string>)
    ensures forall a, b :: Edge(g, a, b) ==> a in ns && b in ns
  {
    g.Keys + set a, b | a in g && b in g[a] :: b
  }

  /** The entries reachable from `a`. */
  ghost function Descendants(g: Edges, a: string): set<string> {
    set b | b in Nodes(g) && Reaches(g, a, b)
  }

  // ---------------------------------------------------------------------------
  // Paths

  /** An edge followed by a path is a path one step longer. */
  lemma StepThen(g: Edges, a: string, c: string, b: string, n: nat)
    requires Edge(g, a, c) && ReachesIn(g, c, b, n)
    ensures ReachesIn(g, a, b, n + 1)
  {
    if n == 1 {
      assert ReachesIn(g, c, b, 1);
    }
  }

  /** A path followed by an edge is a path one step longer. */
  lemma {:induction false} ThenStep(g: Edges, a: string, c: string, b: string, n: nat)
    requires ReachesIn(g, a, c, n) && Edge(g, c, b)
    ensures ReachesIn(g, a, b, n + 1)
    decreases n
  {
    if n > 1 {
      var m :| m in g[a] && ReachesIn(g, m, c, n - 1);
      ThenStep(g, m, c, b, n - 1);
      StepThen(g, a, m, b, n);
    }
  }

  /** Paths compose. */
  lemma {:induction false} Concat(g: Edges, a: string, b: string, c: string, n: nat, m: nat)
    requires ReachesIn(g, a, b, n) && ReachesIn(g, b, c, m)
    ensures ReachesIn(g, a, c, n + m)
    decreases n
  {
    if n == 1 {
      StepThen(g, a, b, c, m);
    } else {
      var k :| k in g[a] && ReachesIn(g, k, b, n - 1);
      Concat(g, k, b, c, n - 1, m);
      StepThen(g, a, k, c, n - 1 + m);
    }
  }

  /** The first step of a path. */
  lemma FirstStep(g: Edges, a: string, b: string, n: nat)
    requires ReachesIn(g, a, b, n)
    ensures a in g
    ensures n == 1 ==> b in g[a]
    ensures n > 1 ==> exists c :: c in g[a] && ReachesIn(g, c, b, n - 1)
  {
  }

  /** The end of a path is a node of the graph. */
  lemma {:induction false} EndIsNode(g: Edges, a: string, b: string, n: nat)
    requires ReachesIn(g, a, b, n)
    ensures b in Nodes(g)
    decreases n
  {
    if n > 1 {
      var c :| c in g[a] && ReachesIn(g, c, b, n - 1);
      EndIsNode(g, c, b, n - 1);
    }
  }

  /** In an acyclic graph, following an edge strictly shrinks the set of descendants. */
  lemma DescendantsShrink(g: Edges, a: string)
    requires Acyclic(g)
    ensures forall c :: Edge(g, a, c) ==> |Descendants(g, c)| < |Descendants(g, a)|
  {
    forall c | Edge(g, a, c)
      ensures |Descendants(g, c)| < |Descendants(g, a)|
    {
      assert ReachesIn(g, a, c, 1);
      forall b | b in Descendants(g, c)
        ensures b in Descendants(g, a)
      {
        var n: nat :| ReachesIn(g, c, b, n);
        StepThen(g, a, c, b, n);
      }
      var below, here := Descendants(g, c), Descendants(g, a);
      assert c in here && c !in below;
      var rest := here - below;
      assert here == below + rest && below * rest == {};
      assert |here| == |below| + |rest|;
      assert c in rest;
    }
  }

  /** Reachability is transitive. */
  lemma ReachesTransitive(g: Edges, a: string, b: string, c: string)
    ensures Reaches(g, a, b) && Reaches(g, b, c) ==> Reaches(g, a, c)
  {
    if Reaches(g, a, b) && Reaches(g, b, c) {
      var n: nat :| ReachesIn(g, a, b, n);
      var m: nat :| ReachesIn(g, b, c, m);
      Concat(g, a, b, c, n, m);
    }
  }

  // ---------------------------------------------------------------------------
  // checkCycles

  /** `checkCycles(entry, dependency)`: whether `entry` is among the
      dependencies of `dependency`, or found by searching from any of them. */
  function CheckCycles(g: Edges, entry: string, dependency: string): (found: bool)
    requires Acyclic(g)
    ensures dependency in g && entry in g[dependency] ==> found
    ensures found ==> dependency in g && g[dependency] != {}
    decreases |Descendants(g, dependency)|
  {
    if dependency !in g then false
    else
      DescendantsShrink(g, dependency);
      entry in g[dependency] || exists it :: it in g[dependency] && CheckCycles(g, entry, it)
  }

  /** The search answers exactly whether `dependency` already reaches `entry`. */
  lemma {:induction false} CheckCyclesIsReachability(g: Edges, entry: string, dependency: string)
    requires Acyclic(g)
    ensures CheckCycles(g, entry, dependency) <==> Reaches(g, dependency, entry)
    decreases |Descendants(g, dependency)|
  {
    if dependency in g {
      DescendantsShrink(g, dependency);
      forall it | it in g[dependency]
        ensures CheckCycles(g, entry, it) <==> Reaches(g, it, entry)
      {
        CheckCyclesIsReachability(g, entry, it);
      }
      if CheckCycles(g, entry, dependency) {
        if entry in g[dependency] {
          assert ReachesIn(g, dependency, entry, 1);
        } else {
          var it :| it in g[dependency] && CheckCycles(g, entry, it);
          var n: nat :| ReachesIn(g, it, entry, n);
          StepThen(g, dependency, it, entry, n);
        }
      }
      if Reaches(g, dependency, entry) {
        var n: nat :| ReachesIn(g, dependency, entry, n);
        if n > 1 {
          var c :| c in g[dependency] && ReachesIn(g, c, entry, n - 1);
          assert Reaches(g, c, entry);
        }
      }
    }
  }

  // ---------------------------------------------------------------------------
  // Recording an edge

  /** `dependencies.getOrPut(entry) { mutableSetOf() }.add(dependency)`. */
  function AddEdge(g: Edges, a: string, b: string): (g': Edges)
    ensures Edge(g', a, b)
    ensures forall x, y :: Edge(g', x, y) <==> Edge(g, x, y) || (x == a && y == b)
  {
    g[a := (if a in g then g[a] else {}) + {b}]
  }

  /** A path in the graph with the new edge either existed already, or
      runs from `x` to `a`, across the new edge, and on from `b` to `y`. */
  lemma {:induction false} ReachAfterAdd(g: Edges, a: string, b: string, x: string, y: string, n: nat)
    requires a != b && !Reaches(g, b, a)
    ensures ReachesIn(AddEdge(g, a, b), x, y, n) ==>
              Reaches(g, x, y) || ((x == a || Reaches(g, x, a)) && (b == y || Reaches(g, b, y)))
    decreases n
  {
    var g' := AddEdge(g, a, b);
    if ReachesIn(g', x, y, n) {
      if n == 1 {
        if Edge(g, x, y) {
          assert ReachesIn(g, x, y, 1);
        }
      } else {
        var c :| c in g'[x] && ReachesIn(g', c, y, n - 1);
        ReachAfterAdd(g, a, b, c, y, n - 1);
        if Edge(g, x, c) {
          assert ReachesIn(g, x, c, 1);
          if Reaches(g, c, y) {
            var m: nat :| ReachesIn(g, c, y, m);
            StepThen(g, x, c, y, m);
          }
          if Reaches(g, c, a) {
            var m: nat :| ReachesIn(g, c, a, m);
            StepThen(g, x, c, a, m);
          }
        }
      }
    }
  }

  /** Recording `a -> b` keeps the graph acyclic when `a != b` and `b`
      does not already reach `a`: the two checks `addDependency` makes. */
  lemma AddEdgeKeepsAcyclic(g: Edges, a: string, b: string)
    requires Acyclic(g) && a != b && !Reaches(g, b, a)
    ensures Acyclic(AddEdge(g, a, b))
  {
    var g' := AddEdge(g, a, b);
    forall x
      ensures !Reaches(g', x, x)
    {
      forall n: nat
        ensures !ReachesIn(g', x, x, n)
      {
        ReachAfterAdd(g, a, b, x, x, n);
        ReachesTransitive(g, b, x, a);
      }
    }
  }

  /** The empty graph has no cycle. */
  lemma EmptyAcyclic()
    ensures Acyclic(map[])
  {
    forall a, n: nat
      ensures !ReachesIn(map[], a, a, n)
    {
    }
  }
}

=== FILE: hash.dfy ===
/** The content hash (lib/src/main/kotlin/Hash.kt): SHA-256 over the
    little-endian bytes of an `IntArray`, held as a non-negative big
    integer and printed as 64 lower-case hex digits. SHA-256 itself is a
    parameter of the model. */
module Hash {
  import opened Wrappers
  import Colors

  function Pow16(k: nat): (r: nat)
    ensures r >= 1
  {
    if k == 0 then 1 else 16 * Pow16(k - 1)
  }

  /** Every digest is a 256-bit value, below 16^64. */
  type Digest = x: nat | x < Pow16(64)

  /** A hash is a non-negative `BigInteger`. */
  datatype Hash = Hash(value: nat)

  /** The shift `it % 4 * 8` of the byte encoding, as a divisor. */
  function ByteShift(k: nat): (r: nat)
    requires k < 4
    ensures r > 0
  {
    if k == 0 then 1 else if k == 1 then 0x100 else if k == 2 then 0x1_0000 else 0x100_0000
  }

  /** `ByteArray(data.size * 4) { (data[it / 4] shr it % 4 * 8).toByte() }`. */
  function LeBytes(data: seq<Word>): (bytes: seq<Byte>)
    ensures |bytes| == 4 * |data|
    ensures forall i :: 0 <= i < |bytes| ==> bytes[i] == (data[i / 4] / ByteShift(i % 4)) % 0x100
  {
    seq(4 * |data|, i requires 0 <= i < 4 * |data| => (data[i / 4] / ByteShift(i % 4)) % 0x100)
  }

  /** Reassembles words from groups of four little-endian bytes. */
  function WordsFromLeBytes(bytes: seq<Byte>): (data: seq<int>)
    ensures |data| == |bytes| / 4
  {
    seq(|bytes| / 4, j requires 0 <= j < |bytes| / 4 =>
      JoinBytes(bytes[4 * j], bytes[4 * j + 1], bytes[4 * j + 2], bytes[4 * j + 3]))
  }

  /** The word whose little-endian bytes are `b0`..`b3`. */
  function JoinBytes(b0: Byte, b1: Byte, b2: Byte, b3: Byte): int {
    b0 as int + 0x100 * b1 + 0x1_0000 * b2 + 0x100_0000 * b3
  }

  lemma WordBytes(w: Word)
    ensures JoinBytes(w % 0x100, (w / 0x100) % 0x100, (w / 0x1_0000) % 0x100, (w / 0x100_0000) % 0x100) == w
  {
    var c := Colors.Color(w);
    Colors.PackUnpack(c);
    assert (w / 0x100_0000) % 0x100 == Colors.Alpha(c);
  }

  lemma LeByteAt(data: seq<Word>, j: nat, k: nat)
    requires j < |data| && k < 4
    ensures 4 * j + k < |LeBytes(data)|
    ensures LeBytes(data)[4 * j + k] == (data[j] / ByteShift(k)) % 0x100
  {
    assert (4 * j + k) / 4 == j && (4 * j + k) % 4 == k;
  }

  /** Word `j` is read back from its own four bytes. */
  lemma LeWordAt(data: seq<Word>, j: nat)
    requires j < |data|
    ensures j < |WordsFromLeBytes(LeBytes(data))|
    ensures WordsFromLeBytes(LeBytes(data))[j] == data[j]
  {
    var bytes := LeBytes(data);
    assert |bytes| / 4 == |data|;
    JoinedAt(bytes, j);
    LeByteAt(data, j, 0);
    LeByteAt(data, j, 1);
    LeByteAt(data, j, 2);
    LeByteAt(data, j, 3);
    JoinWord(data[j], bytes[4 * j], bytes[4 * j + 1], bytes[4 * j + 2], bytes[4 * j + 3]);
  }

  lemma JoinWord(w: Word, b0: Byte, b1: Byte, b2: Byte, b3: Byte)
    requires b0 == (w / ByteShift(0)) % 0x100 && b1 == (w / ByteShift(1)) % 0x100
    requires b2 == (w / ByteShift(2)) % 0x100 && b3 == (w / ByteShift(3)) % 0x100
    ensures JoinBytes(b0, b1, b2, b3) == w
  {
    WordBytes(w);
  }

  lemma JoinedAt(bytes: seq<Byte>, j: nat)
    requires j < |bytes| / 4
    ensures 4 * j + 3 < |bytes|
    ensures WordsFromLeBytes(bytes)[j] == JoinBytes(bytes[4 * j], bytes[4 * j + 1], bytes[4 * j + 2], bytes[4 * j + 3])
  {
  }

  /** The byte encoding loses nothing: the words can be read back from it,
      so equal hashes are only forced by equal pixel words or a digest collision. */
  lemma LeBytesRoundTrip(data: seq<Word>)
    ensures WordsFromLeBytes(LeBytes(data)) == data
  {
    var back := WordsFromLeBytes(LeBytes(data));
    forall j | 0 <= j < |data|
      ensures back[j] == data[j]
    {
      LeWordAt(data, j);
    }
  }

  /** `Hash(data: IntArray)`: the digest of the little-endian byte encoding. */
  function FromInts(data: seq<Word>, sha256: seq<Byte> -> Digest): (h: Hash)
    ensures h.value < Pow16(64)
    ensures h.value == sha256(LeBytes(data))
  {
    Hash(sha256(LeBytes(data)))
  }

  // ---------------------------------------------------------------------------
  // Hex text

  /** The digit `BigInteger.toString(16)` prints for a nibble. */
  function LowerDigit(v: nat): (ch: char)
    requires v < 16
    ensures Colors.IsHexDigit(ch) && Colors.DigitValue(ch) == v
    ensures '0' <= ch <= '9' || 'a' <= ch <= 'f'
  {
    if v < 10 then ('0' as int + v) as char else ('a' as int + v - 10) as char
  }

  predicate IsLowerHex(s: string) {
    forall i :: 0 <= i < |s| ==> ('0' <= s[i] <= '9' || 'a' <= s[i] <= 'f')
  }

  /** `BigInteger.toString(16)` of a non-negative value: no leading zeros, "0" for zero. */
  function ToHexDigits(n: nat): (s: string)
    ensures |s| >= 1 && IsLowerHex(s)
    ensures n > 0 ==> s[0] != '0'
    decreases n
  {
    if n < 16 then [LowerDigit(n)] else ToHexDigits(n / 16) + [LowerDigit(n % 16)]
  }

  /** The value of a string of hex digits, most significant first. */
  function HexValue(s: string): nat
    requires Colors.AllHex(s)
  {
    if s == [] then 0 else HexValue(s[..|s| - 1]) * 16 + Colors.DigitValue(s[|s| - 1])
  }

  lemma {:induction false} HexValueBound(s: string)
    requires Colors.AllHex(s)
    ensures HexValue(s) < Pow16(|s|)
  {
    if s != [] {
      HexValueBound(s[..|s| - 1]);
    }
  }

  lemma {:induction false} HexValueOfDigits(n: nat)
    ensures Colors.AllHex(ToHexDigits(n)) && HexValue(ToHexDigits(n)) == n
    decreases n
  {
    var s := ToHexDigits(n);
    if n >= 16 {
      HexValueOfDigits(n / 16);
      assert s[..|s| - 1] == ToHexDigits(n / 16);
    }
  }

  lemma {:induction false} HexDigitsLength(n: nat, k: nat)
    requires k >= 1 && n < Pow16(k)
    ensures |ToHexDigits(n)| <= k
    decreases k
  {
    if n >= 16 {
      HexDigitsLength(n / 16, k - 1);
    }
  }

  lemma HexDigitsFit(n: nat)
    ensures n < Pow16(64) ==> |ToHexDigits(n)| <= 64
  {
    if n < Pow16(64) {
      HexDigitsLength(n, 64);
    }
  }

  /** Prefixing zeros does not change the value. */
  lemma {:induction false} HexValueLeadingZeros(z: string, s: string)
    requires forall i :: 0 <= i < |z| ==> z[i] == '0'
    requires Colors.AllHex(s)
    ensures Colors.AllHex(z + s) && HexValue(z + s) == HexValue(s)
    decreases |s|
  {
    var t := z + s;
    if s == [] {
      assert t == z;
      ZerosValue(z);
    } else {
      assert t[..|t| - 1] == z + s[..|s| - 1];
      HexValueLeadingZeros(z, s[..|s| - 1]);
    }
  }

  lemma {:induction false} ZerosValue(z: string)
    requires forall i :: 0 <= i < |z| ==> z[i] == '0'
    ensures Colors.AllHex(z) && HexValue(z) == 0
    decreases |z|
  {
    if z != [] {
      ZerosValue(z[..|z| - 1]);
    }
  }

  /** `padStart(64, '0')`. */
  function PadStart(s: string, n: nat): (r: string)
    ensures |r| == if |s| >= n then |s| else n
    ensures |s| < n ==> r == seq(n - |s|, _ => '0') + s
    ensures |s| >= n ==> r == s
  {
    if |s| >= n then s else seq(n - |s|, _ => '0') + s
  }

  /** `Hash.toString()`. */
  function ToString(h: Hash): (s: string)
    ensures IsLowerHex(s)
    ensures h.value < Pow16(64) ==> |s| == 64
  {
    HexDigitsFit(h.value);
    PadStart(ToHexDigits(h.value), 64)
  }

  /** `Hash(data: String)`, i.e. `BigInteger(data, 16)`, on unsigned digit strings. */
  function FromHexString(s: string): (r: Option<Hash>)
    ensures r.Some? <==> |s| >= 1 && Colors.AllHex(s)
    ensures r.Some? ==> r.value.value < Pow16(|s|)
  {
    if |s| >= 1 && Colors.AllHex(s) then HexValueBound(s); Some(Hash(HexValue(s))) else None
  }

  /** Every hash produced by a digest prints to 64 digits that read back as itself. */
  lemma {:induction false} ToStringRoundTrip(h: Hash)
    requires h.value < Pow16(64)
    ensures |ToString(h)| == 64
    ensures FromHexString(ToString(h)) == Some(h)
  {
    var d := ToHexDigits(h.value);
    HexDigitsLength(h.value, 64);
    HexValueOfDigits(h.value);
    var z := seq(64 - |d|, _ => '0');
    assert ToString(h) == z + d;
    HexValueLeadingZeros(z, d);
  }
}

=== FILE: internal.dfy ===
/** The failure plumbing shared by every canvas operation
    (lib/src/main/kotlin/canvas/internal.kt): Kotlin's `Result`, the
    `fail` shorthand, `mapResult` and the error-message rendering. */
module Internal {
  import opened Wrappers

  /** Class name used when a `CanvasOpException` is rendered by `toString`. */
  const CanvasOpExceptionClass: string := "CanvasOpException"

  /** A thrown value: whether it is a `CanvasOpException`, its (nullable)
      message and its class name, which is what `Throwable.toString` prints. */
  datatype Throwable = Throwable(isCanvasOpException: bool, message: Option<string>, className: string)

  /** Kotlin's `Result<T>`. */
  datatype Result<+T> = Success(value: T) | Failure(error: Throwable)

  /** `Throwable.toString()`: the class name, then `": " + message` when there is one. */
  function ThrowableToString(t: Throwable): string {
    match t.message
    case Some(m) => t.className + ": " + m
    case None => t.className
  }

  /** `fail(message)`: a failure carrying a `CanvasOpException` with that message. */
  function Fail<T>(message: string): (r: Result<T>)
    ensures r.Failure? && r.error.isCanvasOpException
    ensures ToCanvasOperationError(r.error) == message
  {
    Failure(Throwable(true, Some(message), CanvasOpExceptionClass))
  }

  /** Whether a failure stands for an exception thrown rather than
      returned: every failure an operation returns is a `CanvasOpException`
      made by `fail`, so anything else was thrown, and it escapes the
      enclosing `coroutineScope` instead of being gathered. */
  predicate Escapes<T>(r: Result<T>) {
    r.Failure? && !r.error.isCanvasOpException
  }

  /** `Result.mapResult(transform)`: chains a computation that may itself fail. */
  function MapResult<T, R>(r: Result<T>, transform: T -> Result<R>): Result<R> {
    match r
    case Success(v) => transform(v)
    case Failure(e) => Failure(e)
  }

  /** `Throwable.toCanvasOperationError()`: the bare message of a
      `CanvasOpException`, `toString()` for anything else. */
  function ToCanvasOperationError(t: Throwable): (s: string)
    ensures t.isCanvasOpException && t.message.Some? ==> s == t.message.value
    ensures !(t.isCanvasOpException && t.message.Some?) ==>
              |s| >= |t.className| && s[..|t.className|] == t.className
    ensures !(t.isCanvasOpException && t.message.Some?) && t.message.Some? ==>
              s == t.className + ": " + t.message.value
  {
    if t.isCanvasOpException && t.message.Some? then t.message.value else ThrowableToString(t)
  }

  /** A failure is passed through unchanged, whatever the transform. */
  lemma MapResultFailure<T, R>(e: Throwable, f: T -> Result<R>, g: T -> Result<R>)
    ensures MapResult(Failure(e), f) == Failure(e)
    ensures MapResult(Failure(e), f) == MapResult(Failure(e), g)
  {
  }

  /** `mapResult` is a monadic bind: left identity, right identity and associativity. */
  lemma MapResultMonadLaws<T, U, V>(v: T, r: Result<T>, f: T -> Result<U>, g: U -> Result<V>)
    ensures MapResult(Success(v), f) == f(v)
    ensures MapResult(r, x => Success(x)) == r
    ensures MapResult(MapResult(r, f), g) == MapResult(r, x => MapResult(f(x), g))
  {
  }

  /** What a read past the end of an `IntArray` throws. The index and
      length in its message are not modelled. */
  const ArrayIndexOutOfBounds: Throwable :=
    Throwable(false, None, "java.lang.ArrayIndexOutOfBoundsException")

  /** The decimal digit for `d`. */
  function DecimalDigit(d: nat): (ch: char)
    requires d < 10
    ensures '0' <= ch <= '9'
  {
    ('0' as int + d) as char
  }

  /** The number a string of decimal digits denotes, most significant first. */
  function DecValue(s: string): nat
    requires forall i :: 0 <= i < |s| ==> '0' <= s[i] <= '9'
  {
    if |s| == 0 then 0 else DecValue(s[..|s| - 1]) * 10 + (s[|s| - 1] as int - '0' as int)
  }

  /** A non-negative number in decimal, as string templates print it: the
      digits denote `n`, with no leading zero. */
  function NatToString(n: nat): (s: string)
    ensures |s| >= 1
    ensures forall i :: 0 <= i < |s| ==> '0' <= s[i] <= '9'
    ensures DecValue(s) == n
    ensures |s| > 1 ==> s[0] != '0'
  {
    if n < 10 then [DecimalDigit(n)]
    else
      var s := NatToString(n / 10) + [DecimalDigit(n % 10)];
      assert s[..|s| - 1] == NatToString(n / 10);
      s
  }

  /** A signed number in decimal: a minus sign exactly for negatives, then
      the digits of the magnitude. */
  function IntToString(i: int): (s: string)
    ensures |s| >= 1
    ensures i < 0 <==> s[0] == '-'
    ensures i >= 0 ==> s == NatToString(i) && DecValue(s) == i
    ensures i < 0 ==> s[1..] == NatToString(-i) && DecValue(s[1..]) == -i
  {
    if i < 0 then "-" + NatToString(-i) else NatToString(i)
  }

  /** `joinToString(separator)`: the parts with the separator between neighbours. */
  function Join(sep: string, parts: seq<string>): string {
    if |parts| == 0 then "" else if |parts| == 1 then parts[0] else parts[0] + sep + Join(sep, parts[1..])
  }
}

=== FILE: layer.dfy ===
/** Compositing for `LayerOp` (lib/src/main/kotlin/canvas/LayerOp.kt): the
    rendered children, each shifted by a signed offset, are painted into a
    zero-filled buffer from the last entry to the first. The last entry
    overwrites the pixels it covers; every earlier entry is blended over
    what is already there, so the first entry ends up on top. */
module Layer {
  import opened Wrappers
  import opened Internal
  import opened Colors
  import Blend
  import Canvas

  /** The blend equation and the four factor functions of a `LayerOp`. */
  datatype Blending = Blending(equation: Blend.BlendEquation,
                               srcColor: Blend.BlendFunc, dstColor: Blend.BlendFunc,
                               srcAlpha: Blend.BlendFunc, dstAlpha: Blend.BlendFunc)

  /** The blending the scripts use by default: ordinary "source over". */
  const SourceOver: Blending :=
    Blending(Blend.Add, Blend.SrcAlpha, Blend.OneMinusSrcAlpha, Blend.SrcAlpha, Blend.OneMinusSrcAlpha)

  /** `blend(src, dst, equation, srcColor, dstColor, srcAlpha, dstAlpha)`. */
  function Over(bl: Blending, src: Color, dst: Color): Color {
    Blend.BlendColors(src, dst, bl.equation, bl.srcColor, bl.dstColor, bl.srcAlpha, bl.dstAlpha)
  }

  /** A rendered child canvas with the offset of its `LayerOp.Entry`. */
  datatype Placed = Placed(canvas: Canvas.Canvas, xOffset: int, yOffset: int)

  /** Whether output pixel (x, y) falls on the child: `x - xOffset` and
      `y - yOffset` are non-negative and inside the child's boundary. */
  predicate Covers(p: Placed, x: nat, y: nat) {
    0 <= x - p.xOffset < p.canvas.width && 0 <= y - p.yOffset < p.canvas.height
  }

  /** The child's pixel that lands on output pixel (x, y). */
  function Sample(p: Placed, x: nat, y: nat): Color
    requires Covers(p, x, y)
  {
    Canvas.Get(p.canvas, x - p.xOffset, y - p.yOffset)
  }

  /** Output pixel (x, y) once `layers[i..]` have been painted, last first:
      the buffer starts transparent, the last layer writes its own pixel,
      every other layer blends its pixel over the one below. */
  function PixelFrom(layers: seq<Placed>, bl: Blending, i: nat, x: nat, y: nat): Color
    requires i <= |layers|
    decreases |layers| - i
  {
    if i == |layers| then Transparent
    else if !Covers(layers[i], x, y) then PixelFrom(layers, bl, i + 1, x, y)
    else if i == |layers| - 1 then Sample(layers[i], x, y)
    else Over(bl, Sample(layers[i], x, y), PixelFrom(layers, bl, i + 1, x, y))
  }

  /** The composited canvas, pixel by pixel. */
  function Composite(w: nat, h: nat, layers: seq<Placed>, bl: Blending): (c: Canvas.Canvas)
    ensures c.Mutable? && c.width == w && c.height == h
    ensures forall x: nat, y: nat :: x < w && y < h ==> Canvas.Get(c, x, y) == PixelFrom(layers, bl, 0, x, y)
  {
    Canvas.Fill(w, h, (x: nat, y: nat) => PixelFrom(layers, bl, 0, x, y))
  }

  // ---------------------------------------------------------------------------
  // What a pixel shows

  /** Layers that do not cover a pixel leave it alone. */
  lemma {:induction false} PassThrough(layers: seq<Placed>, bl: Blending, i: nat, j: nat, x: nat, y: nat)
    requires i <= j <= |layers|
    requires forall k :: i <= k < j ==> !Covers(layers[k], x, y)
    ensures PixelFrom(layers, bl, i, x, y) == PixelFrom(layers, bl, j, x, y)
    decreases j - i
  {
    if i < j {
      PassThrough(layers, bl, i + 1, j, x, y);
    }
  }

  /** A pixel no layer covers stays transparent. */
  lemma Uncovered(layers: seq<Placed>, bl: Blending, x: nat, y: nat)
    requires forall k :: 0 <= k < |layers| ==> !Covers(layers[k], x, y)
    ensures PixelFrom(layers, bl, 0, x, y) == Transparent
  {
    PassThrough(layers, bl, 0, |layers|, x, y);
  }

  /** A pixel covered by exactly one layer shows that layer's pixel if it is
      the last layer, and that pixel blended over transparency otherwise. */
  lemma OnlyCover(layers: seq<Placed>, bl: Blending, j: nat, x: nat, y: nat)
    requires j < |layers| && Covers(layers[j], x, y)
    requires forall k :: 0 <= k < |layers| && k != j ==> !Covers(layers[k], x, y)
    ensures PixelFrom(layers, bl, 0, x, y) ==
              if j == |layers| - 1 then Sample(layers[j], x, y) else Over(bl, Sample(layers[j], x, y), Transparent)
  {
    PassThrough(layers, bl, 0, j, x, y);
    PassThrough(layers, bl, j + 1, |layers|, x, y);
  }

  /** With source-over blending, the first layer that covers a pixel with an
      opaque colour hides every layer after it. */
  lemma OpaqueTopHides(layers: seq<Placed>, j: nat, x: nat, y: nat)
    requires j < |layers| && Covers(layers[j], x, y) && Alpha(Sample(layers[j], x, y)) == 255
    requires forall k :: 0 <= k < j ==> !Covers(layers[k], x, y)
    ensures PixelFrom(layers, SourceOver, 0, x, y) == Sample(layers[j], x, y)
  {
    PassThrough(layers, SourceOver, 0, j, x, y);
    if j < |layers| - 1 {
      Blend.SourceOverOpaque(Sample(layers[j], x, y), PixelFrom(layers, SourceOver, j + 1, x, y),
                             Blend.SrcAlpha, Blend.OneMinusSrcAlpha);
    }
  }

  /** A single layer at offset (0, 0) is copied where it lies and leaves
      the rest of the output transparent, whatever the blending. */
  lemma SingleLayer(p: Placed, bl: Blending, x: nat, y: nat)
    requires p.xOffset == 0 && p.yOffset == 0
    ensures x < p.canvas.width && y < p.canvas.height ==> PixelFrom([p], bl, 0, x, y) == Canvas.Get(p.canvas, x, y)
    ensures !(x < p.canvas.width && y < p.canvas.height) ==> PixelFrom([p], bl, 0, x, y) == Transparent
  {
  }

  // ---------------------------------------------------------------------------
  // The painting loop of `LayerOp.run`

  /** Pixel (x, y) comes before (x0, y0) in `forEachPixel` order (x outer, y inner). */
  predicate Before(x: nat, y: nat, x0: nat, y0: nat) {
    x < x0 || (x == x0 && y < y0)
  }

  /** Every pixel of the buffer holds its colour after `layers[i..]`. */
  ghost predicate PaintedDownTo(r: Canvas.Canvas, w: nat, h: nat, layers: seq<Placed>, bl: Blending, i: nat)
    requires i <= |layers|
  {
    r.Mutable? && r.width == w && r.height == h &&
    forall x: nat, y: nat :: x < w && y < h ==> Canvas.Get(r, x, y) == PixelFrom(layers, bl, i, x, y)
  }

  /** Midway through painting layer `i`: the pixels before (x0, y0) are done. */
  ghost predicate Painting(r: Canvas.Canvas, w: nat, h: nat, layers: seq<Placed>, bl: Blending, i: nat, x0: nat, y0: nat)
    requires i < |layers|
  {
    r.Mutable? && r.width == w && r.height == h &&
    forall x: nat, y: nat :: x < w && y < h ==>
      Canvas.Get(r, x, y) == if Before(x, y, x0, y0) then PixelFrom(layers, bl, i, x, y)
                             else PixelFrom(layers, bl, i + 1, x, y)
  }

  /** The body of the inner loop turns pixel (x0, y0) from its colour after
      `layers[i + 1..]` into its colour after `layers[i..]`. */
  lemma PaintStep(r: Canvas.Canvas, r': Canvas.Canvas, w: nat, h: nat, layers: seq<Placed>, bl: Blending,
                  i: nat, x0: nat, y0: nat)
    requires i < |layers| && x0 < w && y0 < h && Painting(r, w, h, layers, bl, i, x0, y0)
    requires !Covers(layers[i], x0, y0) ==> r' == r
    requires Covers(layers[i], x0, y0) ==>
               r' == Canvas.Set(r, x0, y0, if i == |layers| - 1 then Sample(layers[i], x0, y0)
                                           else Over(bl, Sample(layers[i], x0, y0), Canvas.Get(r, x0, y0)))
    ensures Painting(r', w, h, layers, bl, i, x0, y0 + 1)
  {
    forall x: nat, y: nat | x < w && y < h
      ensures Canvas.Get(r', x, y) == if Before(x, y, x0, y0 + 1) then PixelFrom(layers, bl, i, x, y)
                                      else PixelFrom(layers, bl, i + 1, x, y)
    {
      if (x, y) != (x0, y0) {
        assert Before(x, y, x0, y0 + 1) == Before(x, y, x0, y0);
      }
    }
  }

  /** The loop of `LayerOp.run` over `entries.reversed()` with its `first`
      flag, each pass a `forEachPixel` that skips the pixels the child does
      not cover. It computes the composite. */
  method Paint(w: nat, h: nat, layers: seq<Placed>, bl: Blending) returns (r: Canvas.Canvas)
    ensures r == Composite(w, h, layers, bl)
  {
    r := Canvas.Blank(w, h);
    var first := true;
    var i := |layers|;
    while i > 0
      invariant 0 <= i <= |layers|
      invariant first <==> i == |layers|
      invariant PaintedDownTo(r, w, h, layers, bl, i)
    {
      i := i - 1;
      var e := layers[i];
      var x := 0;
      while x < w
        invariant 0 <= x <= w
        invariant Painting(r, w, h, layers, bl, i, x, 0)
      {
        var y := 0;
        while y < h
          invariant 0 <= y <= h
          invariant Painting(r, w, h, layers, bl, i, x, y)
        {
          var x0 := x - e.xOffset;
          var y0 := y - e.yOffset;
          var r0 := r;
          if !(x0 < 0 || y0 < 0 || !Canvas.IsInBoundary(e.canvas, x0, y0)) {
            var src := Canvas.Get(e.canvas, x0, y0);
            r := Canvas.Set(r, x, y, if first then src else Over(bl, src, Canvas.Get(r, x, y)));
          }
          PaintStep(r0, r, w, h, layers, bl, i, x, y);
          y := y + 1;
        }
        x := x + 1;
      }
      first := false;
    }
    Canvas.MutableExtensional(r, Composite(w, h, layers, bl));
  }

  // ---------------------------------------------------------------------------
  // Gathering the children's results

  /** A child's result with the offset of its entry. */
  datatype Child = Child(result: Result<Canvas.Canvas>, xOffset: int, yOffset: int)

  /** The failures among the children, in entry order. */
  function Errors(children: seq<Child>): (errors: seq<Throwable>)
    ensures |errors| == 0 <==> forall i :: 0 <= i < |children| ==> children[i].result.Success?
    ensures |errors| <= |children|
  {
    if |children| == 0 then []
    else
      var rest := Errors(children[1..]);
      assert forall i :: 1 <= i < |children| ==> children[i] == children[1..][i - 1];
      if children[0].result.Failure? then [children[0].result.error] + rest else rest
  }

  /** Collecting the failures commutes with concatenating the entries. */
  lemma {:induction false} ErrorsAppend(c1: seq<Child>, c2: seq<Child>)
    ensures Errors(c1 + c2) == Errors(c1) + Errors(c2)
  {
    if |c1| == 0 {
      assert c1 + c2 == c2;
    } else {
      assert (c1 + c2)[1..] == c1[1..] + c2;
      ErrorsAppend(c1[1..], c2);
    }
  }

  /** The rendered children of an all-successful run. */
  function Rendered(children: seq<Child>): (layers: seq<Placed>)
    requires forall i :: 0 <= i < |children| ==> children[i].result.Success?
    ensures |layers| == |children|
    ensures forall i :: 0 <= i < |children| ==>
              layers[i] == Placed(children[i].result.value, children[i].xOffset, children[i].yOffset)
  {
    seq(|children|, i requires 0 <= i < |children| =>
      Placed(children[i].result.value, children[i].xOffset, children[i].yOffset))
  }

  /** Each error rendered by `toCanvasOperationError`. */
  function Messages(errors: seq<Throwable>): (ms: seq<string>)
    ensures |ms| == |errors| && forall i :: 0 <= i < |errors| ==> ms[i] == ToCanvasOperationError(errors[i])
  {
    seq(|errors|, i requires 0 <= i < |errors| => ToCanvasOperationError(errors[i]))
  }

  /** The header of the failure message. */
  const ChildFailed: string := "One of the child operations failed:\n  "

  /** The first child whose run threw, if any. */
  function FirstEscaped(children: seq<Child>, i: nat): (k: Option<nat>)
    requires i <= |children|
    ensures k.Some? ==> i <= k.value < |children| && Escapes(children[k.value].result)
    ensures k.Some? ==> forall j :: i <= j < k.value ==> !Escapes(children[j].result)
    ensures k.None? ==> forall j :: i <= j < |children| ==> !Escapes(children[j].result)
    decreases |children| - i
  {
    if i == |children| then None
    else if Escapes(children[i].result) then Some(i)
    else FirstEscaped(children, i + 1)
  }

  /** What `LayerOp.run` returns once the size is resolved and every child
      has run. A child that threw makes `awaitAll` rethrow, so the layer
      fails with that very exception; otherwise a failure lists every
      child error, one per indented line; with no entries the layer is a
      transparent constant canvas; else the composite. */
  function Compose(w: nat, h: nat, children: seq<Child>, bl: Blending): (r: Result<Canvas.Canvas>)
    ensures r.Failure? <==> exists i :: 0 <= i < |children| && children[i].result.Failure?
    ensures Escapes(r) <==> exists i :: 0 <= i < |children| && Escapes(children[i].result)
    ensures Escapes(r) ==> exists i :: 0 <= i < |children| && children[i].result == r
    ensures r.Failure? && !Escapes(r) ==>
              ToCanvasOperationError(r.error) == ChildFailed + Join("\n  ", Messages(Errors(children)))
    ensures r.Success? ==> r.value.width == w && r.value.height == h
    ensures |children| == 0 ==> r == Success(Canvas.SingleColor(w, h, Transparent))
    ensures r.Success? && |children| > 0 ==>
              r.value.Mutable? &&
              forall x: nat, y: nat :: x < w && y < h ==>
                Canvas.Get(r.value, x, y) == PixelFrom(Rendered(children), bl, 0, x, y)
  {
    var errors := Errors(children);
    match FirstEscaped(children, 0)
    case Some(k) => Failure(children[k].result.error)
    case None =>
      if |errors| > 0 then
        Fail(ChildFailed + Join("\n  ", Messages(errors)))
      else if |children| == 0 then
        Success(Canvas.SingleColor(w, h, Transparent))
      else
        Success(Composite(w, h, Rendered(children), bl))
  }
}

=== FILE: ops.dfy ===
/** The canvas operations (the `*Op.kt` files of lib/src/main/kotlin/canvas): a tree of
    operations, each run against the parent's width and height, which may
    be AUTO. Loading images and waiting for other entries go through the
    context, which the model takes as two plain functions. */
module Ops {
  import opened Wrappers
  import opened Internal
  import opened Colors
  import Dimension
  import Canvas
  import Gradient
  import Layer

  type Dim = Dimension.Dimension

  /** `LayerOp.Entry`: a child operation and its signed offset. */
  datatype Entry = Entry(op: CanvasOp, xOffset: int, yOffset: int)

  /** `GradientProvider`: a fixed `SimpleGradient`, or a
      `TextureGradientProvider` sampling one row or column of a rendered canvas. */
  datatype GradientProvider =
    | Simple(stops: Gradient.Stops)
    | Texture(texture: CanvasOp, index: nat, direction: Gradient.GradientDirection)

  datatype CanvasOp =
    | ColorFillOp(fill: Color, width: Dim, height: Dim)
    | ColorTintOp(target: CanvasOp, color: Color)
    | RegionOp(source: CanvasOp, xOffset: nat, yOffset: nat, width: Dim, height: Dim)
    | LayerOp(entries: seq<Entry>, width: Dim, height: Dim, blending: Layer.Blending)
    | GradientMapOp(target: CanvasOp, gradient: GradientProvider,
                    mapChannels: set<Component>, outputChannels: set<Component>, rescale: bool)
    | RawImageOp(path: string)
    | DependencyOp(path: string)

  /** `CanvasOp.Context`: `imageLoader.readFrom(path)` and
      `dependencyHandle.dependOn(entry)`. */
  datatype Context = Context(readImage: string -> Option<Canvas.Canvas>,
                             dependOn: string -> Result<Canvas.Canvas>)

  // ---------------------------------------------------------------------------
  // ColorFillOp

  /** `this.width.or(parentWidth).orElse { return fail("Cannot resolve …") }`. */
  function Resolve(d: Dim, parent: Dim, what: string): (r: Result<nat>)
    ensures r.Success? <==> Dimension.HasValue(d) || Dimension.HasValue(parent)
    ensures r.Success? ==> r.value == if Dimension.HasValue(d) then d.value else parent.value
    ensures r.Failure? ==> r.error.isCanvasOpException && ToCanvasOperationError(r.error) == "Cannot resolve " + what
  {
    var d' := Dimension.Or(d, parent);
    if Dimension.HasValue(d') then Success(d'.value) else Fail("Cannot resolve " + what)
  }

  /** `ColorFillOp.run`: a constant canvas of the resolved size; the width
      is resolved, and reported, before the height. */
  function Fill(fill: Color, width: Dim, height: Dim, pw: Dim, ph: Dim): (r: Result<Canvas.Canvas>)
    ensures r.Success? <==> Resolve(width, pw, "width").Success? && Resolve(height, ph, "height").Success?
    ensures Resolve(width, pw, "width").Failure? ==> r == Failure(Resolve(width, pw, "width").error)
    ensures Resolve(width, pw, "width").Success? && Resolve(height, ph, "height").Failure? ==>
              r == Failure(Resolve(height, ph, "height").error)
    ensures r.Success? ==>
              r.value.width == Resolve(width, pw, "width").value &&
              r.value.height == Resolve(height, ph, "height").value &&
              forall x: nat, y: nat :: x < r.value.width && y < r.value.height ==> Canvas.Get(r.value, x, y) == fill
  {
    match Resolve(width, pw, "width")
    case Failure(e) => Failure(e)
    case Success(w) =>
      match Resolve(height, ph, "height")
      case Failure(e) => Failure(e)
      case Success(h) => Success(Canvas.SingleColor(w, h, fill))
  }

  // ---------------------------------------------------------------------------
  // ColorTintOp

  /** One channel of `multiplyColor`: `a * b / 255`, never above either factor. */
  function MulChannel(p: Byte, q: Byte): (r: Byte)
    ensures r <= p && r <= q
    ensures q == 255 ==> r == p
    ensures q == 0 ==> r == 0
  {
    Canvas.MulMono(q, 255, p);
    Canvas.MulMono(p, 255, q);
    DivBound(p * q, 255, p);
    DivBound(p * q, 255, q);
    p * q / 255
  }

  /** Euclidean division by `d` stays at or below `m` when the dividend is at most `m * d`. */
  lemma DivBound(n: nat, d: nat, m: nat)
    requires 0 < d && n <= m * d
    ensures n / d <= m
  {
    var q := n / d;
    if q > m {
      Canvas.MulMono(m + 1, q, d);
      assert false;
    }
  }

  /** `multiplyColor(a, b)`: the channel-wise product, scaled back to 0..255. */
  function Multiply(a: Color, b: Color): (c: Color)
    ensures forall k :: Get(c, k) == MulChannel(Get(a, k), Get(b, k))
  {
    FromChannels(MulChannel(Alpha(a), Alpha(b)), MulChannel(Red(a), Red(b)),
                 MulChannel(Green(a), Green(b)), MulChannel(Blue(a), Blue(b)))
  }

  /** A tint never brightens a channel; white leaves a colour unchanged and
      transparent black wipes it out. */
  lemma MultiplyProperties(a: Color, b: Color)
    ensures forall k :: Get(Multiply(a, b), k) <= Get(a, k) && Get(Multiply(a, b), k) <= Get(b, k)
    ensures Multiply(a, White) == a
    ensures Multiply(a, Transparent) == Transparent
  {
    ChannelsDetermineColor(Multiply(a, White), a);
    ChannelsDetermineColor(Multiply(a, Transparent), Transparent);
  }

  /** The mapped canvas of `ColorTintOp.run`: every pixel multiplied by the tint. */
  function Tint(c: Canvas.Canvas, color: Color): (r: Canvas.Canvas)
    ensures r.Mutable? && r.width == c.width && r.height == c.height
    ensures forall x: nat, y: nat :: x < c.width && y < c.height ==>
              Canvas.Get(r, x, y) == Multiply(Canvas.Get(c, x, y), color)
  {
    Canvas.Fill(c.width, c.height, (x: nat, y: nat) requires x < c.width && y < c.height =>
      Multiply(Canvas.Get(c, x, y), color))
  }

  /** Tinting with white copies the pixels; tinting with transparent black clears them. */
  lemma TintExtremes(c: Canvas.Canvas)
    ensures Canvas.SamePixels(Tint(c, White), c)
    ensures forall x: nat, y: nat :: x < c.width && y < c.height ==> Canvas.Get(Tint(c, Transparent), x, y) == Transparent
  {
    forall x: nat, y: nat | x < c.width && y < c.height
      ensures Canvas.Get(Tint(c, White), x, y) == Canvas.Get(c, x, y)
      ensures Canvas.Get(Tint(c, Transparent), x, y) == Transparent
    {
      MultiplyProperties(Canvas.Get(c, x, y), White);
    }
  }

  // ---------------------------------------------------------------------------
  // RegionOp

  /** What a `UInt` subtraction that wraps below zero throws or yields in
      the source; the model stops with this failure instead. */
  const WrapAround: Throwable := Throwable(false, None, "UInt wrap-around")

  /** The message of `checkDimension`. */
  function OutsideMessage(xo: nat, yo: nat, width: Dim, height: Dim, iw: nat, ih: nat): string {
    "Region outside image boundary, region: [" + NatToString(xo) + ", " + NatToString(yo) + ", " +
    Dimension.ToString(width) + ", " + Dimension.ToString(height) + "], image dimension: " +
    NatToString(iw) + ", " + NatToString(ih)
  }

  /** Whether `checkDimension` rejects the region: only when both the width
      and the height are known. */
  predicate Outside(xo: nat, yo: nat, width: Dim, height: Dim, canvas: Canvas.Canvas) {
    Dimension.HasValue(width) && Dimension.HasValue(height) &&
    (xo + width.value > canvas.width || yo + height.value > canvas.height)
  }

  /** `width.orElse(canvas.width - xOffset)`: the known side, or what the
      source has left past the offset. */
  function Side(d: Dim, full: nat, offset: nat): int {
    if Dimension.HasValue(d) then d.value else full - offset
  }

  /** The `mapResult` step of `RegionOp.run`: `checkDimension`, then
      `copySubArea` of the known size, or of the rest of the source for an AUTO side. */
  function Crop(xo: nat, yo: nat, width: Dim, height: Dim, canvas: Canvas.Canvas): (r: Result<Canvas.Canvas>)
    ensures Outside(xo, yo, width, height, canvas) ==>
              r.Failure? && r.error.isCanvasOpException &&
              ToCanvasOperationError(r.error) == OutsideMessage(xo, yo, width, height, canvas.width, canvas.height)
    ensures r.Success? ==>
              r.value.width == Side(width, canvas.width, xo) && r.value.height == Side(height, canvas.height, yo)
  {
    if Outside(xo, yo, width, height, canvas) then
      Fail(OutsideMessage(xo, yo, width, height, canvas.width, canvas.height))
    else if (!Dimension.HasValue(width) && xo > canvas.width) || (!Dimension.HasValue(height) && yo > canvas.height) then
      Failure(WrapAround)
    else
      Canvas.CopySubArea(canvas, Side(width, canvas.width, xo), Side(height, canvas.height, yo), xo, yo)
  }

  /** A region that fits — either side known and inside, or AUTO and
      taking the rest of the source — succeeds and shows the source's
      pixels shifted by the offset. */
  lemma CropInside(xo: nat, yo: nat, width: Dim, height: Dim, canvas: Canvas.Canvas)
    requires Dimension.HasValue(width) ==> xo + width.value <= canvas.width
    requires Dimension.HasValue(height) ==> yo + height.value <= canvas.height
    requires !Dimension.HasValue(width) ==> xo <= canvas.width
    requires !Dimension.HasValue(height) ==> yo <= canvas.height
    ensures var r := Crop(xo, yo, width, height, canvas);
            r.Success? &&
            forall x: nat, y: nat :: x < r.value.width && y < r.value.height ==>
              Canvas.Get(r.value, x, y) == Canvas.Get(canvas, x + xo, y + yo)
  {
    Canvas.CopySubAreaInside(canvas, Side(width, canvas.width, xo), Side(height, canvas.height, yo), xo, yo);
  }

  // ---------------------------------------------------------------------------
  // GradientMapOp

  /** `GradientMapOp.run`: the target and the gradient run side by side in
      one `coroutineScope`, so an exception either of them throws escapes
      the scope (the target's first); otherwise the `mapResult` chain gives
      the target's failure first, then the gradient's, else a dense copy of
      the target with the gradient applied. */
  function GradientMapStep(target: Result<Canvas.Canvas>, gradient: Result<Gradient.Stops>,
                           mapChannels: set<Component>, outputChannels: set<Component>, rescale: bool)
    : (r: Result<Canvas.Canvas>)
    ensures r.Failure? <==> target.Failure? || gradient.Failure?
    ensures Escapes(target) ==> r == Failure(target.error)
    ensures !Escapes(target) && Escapes(gradient) ==> r == Failure(gradient.error)
    ensures target.Failure? && !Escapes(gradient) ==> r == Failure(target.error)
    ensures target.Success? && gradient.Failure? ==> r == Failure(gradient.error)
    ensures target.Success? && gradient.Success? ==>
              r.Success? && r.value.Mutable? &&
              r.value.width == target.value.width && r.value.height == target.value.height
    ensures target.Success? && gradient.Success? && (mapChannels == {} || outputChannels == {}) ==>
              Canvas.SamePixels(r.value, target.value)
  {
    if Escapes(target) then Failure(target.error)
    else if Escapes(gradient) then Failure(gradient.error)
    else
      MapResult(target, (c: Canvas.Canvas) =>
        MapResult(gradient, (g: Gradient.Stops) =>
          Success(Gradient.ApplyGradient(Canvas.CopyOf(c), g, mapChannels, outputChannels, rescale))))
  }

  // ---------------------------------------------------------------------------
  // RawImageOp

  /** `RawImageOp.run`: the loaded image, or a failure naming the path. */
  function ReadImage(ctx: Context, path: string): (r: Result<Canvas.Canvas>)
    ensures r.Success? <==> ctx.readImage(path).Some?
    ensures r.Success? ==> r.value == ctx.readImage(path).value
    ensures r.Failure? ==> ToCanvasOperationError(r.error) == "No image at path '" + path + "'"
  {
    match ctx.readImage(path)
    case Some(c) => Success(c)
    case None => Fail("No image at path '" + path + "'")
  }

  // ---------------------------------------------------------------------------
  // Running an operation tree

  /** `CanvasOp.run(ctx, parentWidth, parentHeight)` for every operation. */
  function Run(ctx: Context, op: CanvasOp, pw: Dim, ph: Dim): (r: Result<Canvas.Canvas>)
    ensures op.DependencyOp? ==> r == ctx.dependOn(op.path)
    ensures op.RawImageOp? ==> (r.Success? <==> ctx.readImage(op.path).Some?)
    ensures op.ColorTintOp? ==> (r.Success? <==> Run(ctx, op.target, pw, ph).Success?)
    decreases op
  {
    match op
    case ColorFillOp(fill, width, height) => Fill(fill, width, height, pw, ph)
    case ColorTintOp(target, color) =>
      (match Run(ctx, target, pw, ph)
       case Success(c) => Success(Tint(c, color))
       case Failure(e) => Failure(e))
    case RegionOp(source, xo, yo, width, height) =>
      var w := Dimension.Or(width, pw);
      var h := Dimension.Or(height, ph);
      MapResult(Run(ctx, source, Dimension.MapValue(w, v => v + xo), Dimension.MapValue(h, v => v + yo)),
                (c: Canvas.Canvas) => Crop(xo, yo, w, h, c))
    case LayerOp(entries, width, height, bl) =>
      (match Resolve(width, pw, "width")
       case Failure(e) => Failure(e)
       case Success(w) =>
         match Resolve(height, ph, "height")
         case Failure(e) => Failure(e)
         case Success(h) =>
           var children := seq(|entries|, i requires 0 <= i < |entries| =>
             Layer.Child(Run(ctx, entries[i].op, Dimension.Of(w), Dimension.Of(h)), entries[i].xOffset, entries[i].yOffset));
           Layer.Compose(w, h, children, bl))
    case GradientMapOp(target, gradient, mapChannels, outputChannels, rescale) =>
      var stops: Result<Gradient.Stops> :=
        (match gradient
         case Simple(s) => Success(s)
         case Texture(texture, index, direction) =>
           MapResult(Run(ctx, texture, Dimension.Auto, Dimension.Auto),
                     (t: Canvas.Canvas) => Gradient.SampleTexture(t, index, direction)));
      GradientMapStep(Run(ctx, target, pw, ph), stops, mapChannels, outputChannels, rescale)
    case RawImageOp(path) => ReadImage(ctx, path)
    case DependencyOp(path) => ctx.dependOn(path)
  }

  // ---------------------------------------------------------------------------
  // Properties of a run

  /** The size an operation promises before it runs, side by side: a fill,
      a region or a layer takes its own width and height, or the parent's
      when AUTO; a tint or gradient map keeps its target's; a raw image or
      a dependency promises nothing. */
  function ExpectedSize(op: CanvasOp, pw: Dim, ph: Dim): (Option<nat>, Option<nat>)
    decreases op
  {
    match op
    case ColorFillOp(_, width, height) =>
      (Dimension.ToNullable(Dimension.Or(width, pw)), Dimension.ToNullable(Dimension.Or(height, ph)))
    case ColorTintOp(target, _) => ExpectedSize(target, pw, ph)
    case RegionOp(_, _, _, width, height) =>
      (Dimension.ToNullable(Dimension.Or(width, pw)), Dimension.ToNullable(Dimension.Or(height, ph)))
    case LayerOp(_, width, height, _) =>
      (Dimension.ToNullable(Dimension.Or(width, pw)), Dimension.ToNullable(Dimension.Or(height, ph)))
    case GradientMapOp(target, _, _, _, _) => ExpectedSize(target, pw, ph)
    case RawImageOp(_) => (None, None)
    case DependencyOp(_) => (None, None)
  }

  /** A successful run delivers the size its operation promises. */
  lemma {:induction false} RunSize(ctx: Context, op: CanvasOp, pw: Dim, ph: Dim)
    ensures var r := Run(ctx, op, pw, ph);
            var e := ExpectedSize(op, pw, ph);
            (r.Success? && e.0.Some? ==> r.value.width == e.0.value) &&
            (r.Success? && e.1.Some? ==> r.value.height == e.1.value)
    decreases op
  {
    match op
    case ColorFillOp(_, _, _) =>
    case ColorTintOp(target, _) => RunSize(ctx, target, pw, ph);
    case RegionOp(_, _, _, _, _) =>
    case LayerOp(_, _, _, _) =>
    case GradientMapOp(target, _, _, _, _) => RunSize(ctx, target, pw, ph);
    case RawImageOp(_) =>
    case DependencyOp(_) =>
  }

  /** A failing target or source fails the tint, gradient map or region
      with the same error. */
  lemma FailurePropagates(ctx: Context, op: CanvasOp, pw: Dim, ph: Dim)
    ensures op.ColorTintOp? ==>
              Run(ctx, op.target, pw, ph).Failure? ==> Run(ctx, op, pw, ph) == Failure(Run(ctx, op.target, pw, ph).error)
    ensures op.GradientMapOp? ==>
              Run(ctx, op.target, pw, ph).Failure? ==> Run(ctx, op, pw, ph).Failure?
    ensures op.GradientMapOp? ==>
              Escapes(Run(ctx, op.target, pw, ph)) ==> Run(ctx, op, pw, ph) == Failure(Run(ctx, op.target, pw, ph).error)
    ensures op.RegionOp? ==>
              var sw := Dimension.MapValue(Dimension.Or(op.width, pw), v => v + op.xOffset);
              var sh := Dimension.MapValue(Dimension.Or(op.height, ph), v => v + op.yOffset);
              Run(ctx, op.source, sw, sh).Failure? ==> Run(ctx, op, pw, ph) == Failure(Run(ctx, op.source, sw, sh).error)
  {
  }

  /** A gradient map whose texture line lies outside the rendered texture
      fails with the index exception the sampling throws, whatever its
      target returned, unless the target threw too. */
  lemma TextureOutOfBoundsWins(ctx: Context, target: CanvasOp, texture: CanvasOp, t: Canvas.Canvas, index: nat,
                               direction: Gradient.GradientDirection, mapChannels: set<Component>,
                               outputChannels: set<Component>, rescale: bool, pw: Dim, ph: Dim)
    requires !Escapes(Run(ctx, target, pw, ph))
    requires Run(ctx, texture, Dimension.Auto, Dimension.Auto) == Success(t)
    requires !Gradient.LineInside(t, index, direction)
    ensures Run(ctx, GradientMapOp(target, Texture(texture, index, direction), mapChannels, outputChannels, rescale), pw, ph)
            == Failure(ArrayIndexOutOfBounds)
  {
  }

  /** Once its size resolves, a layer fails exactly when one of its
      children, run at that size, fails; with no entries it is a
      transparent constant canvas. */
  lemma LayerOutcome(ctx: Context, entries: seq<Entry>, width: Dim, height: Dim, bl: Layer.Blending,
                     pw: Dim, ph: Dim, w: nat, h: nat)
    requires Resolve(width, pw, "width") == Success(w) && Resolve(height, ph, "height") == Success(h)
    ensures var r := Run(ctx, LayerOp(entries, width, height, bl), pw, ph);
            (r.Failure? <==> exists i :: 0 <= i < |entries| && Run(ctx, entries[i].op, Dimension.Of(w), Dimension.Of(h)).Failure?) &&
            (Escapes(r) <==> exists i :: 0 <= i < |entries| && Escapes(Run(ctx, entries[i].op, Dimension.Of(w), Dimension.Of(h)))) &&
            (|entries| == 0 ==> r == Success(Canvas.SingleColor(w, h, Transparent)))
  {
    var children := seq(|entries|, i requires 0 <= i < |entries| =>
      Layer.Child(Run(ctx, entries[i].op, Dimension.Of(w), Dimension.Of(h)), entries[i].xOffset, entries[i].yOffset));
    assert Run(ctx, LayerOp(entries, width, height, bl), pw, ph) == Layer.Compose(w, h, children, bl);
    assert forall i :: 0 <= i < |entries| ==> children[i].result == Run(ctx, entries[i].op, Dimension.Of(w), Dimension.Of(h));
  }

  /** A region of an AUTO-sized fill: the fill is asked for the region's
      size plus its offset, so the window always fits, and every pixel has
      the fill colour. */
  lemma RegionOfAutoFill(ctx: Context, fill: Color, xo: nat, yo: nat, w: nat, h: nat, pw: Dim, ph: Dim)
    ensures var r := Run(ctx, RegionOp(ColorFillOp(fill, Dimension.Auto, Dimension.Auto), xo, yo,
                                       Dimension.Of(w), Dimension.Of(h)), pw, ph);
            r.Success? && r.value.width == w && r.value.height == h &&
            forall x: nat, y: nat :: x < w && y < h ==> Canvas.Get(r.value, x, y) == fill
  {
    var source := Canvas.SingleColor(w + xo, h + yo, fill);
    assert Run(ctx, ColorFillOp(fill, Dimension.Auto, Dimension.Auto),
               Dimension.MapValue(Dimension.Of(w), v => v + xo), Dimension.MapValue(Dimension.Of(h), v => v + yo))
           == Success(source);
    Canvas.CopySubAreaInside(source, w, h, xo, yo);
  }

  /** The entries an operation waits for: the paths of its `DependencyOp`s. */
  function Dependencies(op: CanvasOp): (deps: set<string>)
    decreases op
  {
    match op
    case ColorFillOp(_, _, _) => {}
    case ColorTintOp(target, _) => Dependencies(target)
    case RegionOp(source, _, _, _, _) => Dependencies(source)
    case LayerOp(entries, _, _, _) =>
      set i, p | 0 <= i < |entries| && p in Dependencies(entries[i].op) :: p
    case GradientMapOp(target, gradient, _, _, _) =>
      Dependencies(target) + (match gradient case Simple(_) => {} case Texture(texture, _, _) => Dependencies(texture))
    case RawImageOp(_) => {}
    case DependencyOp(path) => {path}
  }

  /** A run consults `dependOn` only for the operation's own dependencies:
      two contexts that load the same images and agree on those entries
      give the same result. */
  lemma {:induction false} RunUsesOnlyDependencies(ctx: Context, ctx': Context, op: CanvasOp, pw: Dim, ph: Dim)
    requires ctx.readImage == ctx'.readImage
    requires forall p :: p in Dependencies(op) ==> ctx.dependOn(p) == ctx'.dependOn(p)
    ensures Run(ctx, op, pw, ph) == Run(ctx', op, pw, ph)
    decreases op
  {
    match op
    case ColorFillOp(_, _, _) =>
    case ColorTintOp(target, _) => RunUsesOnlyDependencies(ctx, ctx', target, pw, ph);
    case RegionOp(source, xo, yo, width, height) =>
      var w := Dimension.Or(width, pw);
      var h := Dimension.Or(height, ph);
      RunUsesOnlyDependencies(ctx, ctx', source, Dimension.MapValue(w, v => v + xo), Dimension.MapValue(h, v => v + yo));
    case LayerOp(entries, width, height, bl) =>
      if Resolve(width, pw, "width").Success? && Resolve(height, ph, "height").Success? {
        var w, h := Resolve(width, pw, "width").value, Resolve(height, ph, "height").value;
        forall i | 0 <= i < |entries|
          ensures Run(ctx, entries[i].op, Dimension.Of(w), Dimension.Of(h)) == Run(ctx', entries[i].op, Dimension.Of(w), Dimension.Of(h))
        {
          RunUsesOnlyDependencies(ctx, ctx', entries[i].op, Dimension.Of(w), Dimension.Of(h));
        }
        var children := seq(|entries|, i requires 0 <= i < |entries| =>
          Layer.Child(Run(ctx, entries[i].op, Dimension.Of(w), Dimension.Of(h)), entries[i].xOffset, entries[i].yOffset));
        var children' := seq(|entries|, i requires 0 <= i < |entries| =>
          Layer.Child(Run(ctx', entries[i].op, Dimension.Of(w), Dimension.Of(h)), entries[i].xOffset, entries[i].yOffset));
        assert children == children';
      }
    case GradientMapOp(target, gradient, _, _, _) =>
      RunUsesOnlyDependencies(ctx, ctx', target, pw, ph);
      if gradient.Texture? {
        RunUsesOnlyDependencies(ctx, ctx', gradient.texture, Dimension.Auto, Dimension.Auto);
      }
    case RawImageOp(_) =>
    case DependencyOp(_) =>
  }
}

=== FILE: optimization_type.dfy ===
/** How an output image is compressed (script/src/main/kotlin/OptimizationType.kt),
    and the one-byte tag `metadata()` that identifies it. */
module Optimization {
  import opened Wrappers

  /** The constants in declaration order. */
  datatype OptimizationType = DefaultOptimization | ZopfliOptimization | NoOptimization

  /** `ordinal`: the position in the declaration. */
  function Ordinal(t: OptimizationType): (n: nat)
    ensures n < 3
  {
    match t
    case DefaultOptimization => 0
    case ZopfliOptimization => 1
    case NoOptimization => 2
  }

  /** `metadata()`: a single byte holding the ordinal. */
  function Metadata(t: OptimizationType): (m: seq<Byte>)
    ensures |m| == 1 && m[0] == Ordinal(t)
  {
    [Ordinal(t) as Byte]
  }

  /** Reads a tag back; any other byte string names no type. */
  function FromMetadata(m: seq<Byte>): (t: Option<OptimizationType>)
    ensures t.Some? ==> |m| == 1 && Ordinal(t.value) == m[0]
    ensures |m| == 1 && m[0] < 3 ==> t.Some?
  {
    if |m| != 1 then None
    else if m[0] == 0 then Some(DefaultOptimization)
    else if m[0] == 1 then Some(ZopfliOptimization)
    else if m[0] == 2 then Some(NoOptimization)
    else None
  }

  /** The tag identifies the type: it reads back, so distinct types have
      distinct tags. */
  lemma MetadataRoundTrip(t: OptimizationType, u: OptimizationType)
    ensures FromMetadata(Metadata(t)) == Some(t)
    ensures Metadata(t) == Metadata(u) ==> t == u
  {
    assert FromMetadata(Metadata(u)) == Some(u);
  }
}

=== FILE: root.dfy ===
/** The application's configuration receiver (script/src/main/kotlin/root.kt).
    It shares most builders with `Script` (the `region`, `layer`,
    `gradientMap`, texture `gradient`, `LayerBuilder.add` and `parseChannel`
    code is the same and is reused from there); it differs in what an entry
    holds (an `ImageGenEntry` carrying an optimisation type), in taking
    `Color` values instead of colour text, in not validating paths, and in
    accepting the gradient point 1. */
module RootScript {
  import opened Wrappers
  import opened Internal
  import opened Colors
  import Dimension
  import Gradient
  import Ops
  import Optimization
  import AppDispatcher
  import Script

  /** The receiver's state: the registered entries, the two default sizes
      and the default optimisation type. */
  datatype Root = Root(canvasOperations: map<string, AppDispatcher.ImageGenEntry>,
                       defaultWidth: Option<int>, defaultHeight: Option<int>,
                       defaultOptimizationType: Optimization.OptimizationType)

  /** A fresh receiver: nothing registered, no default sizes, `DefaultOptimization`. */
  const Initial: Root := Root(map[], None, None, Optimization.DefaultOptimization)

  // ---------------------------------------------------------------------------
  // Defaults

  function SetDefaultWidth(root: Root, value: Option<int>): (r: Result<Root>)
    ensures r.Success? <==> value.None? || value.value >= 0
    ensures r.Success? ==> r.value == root.(defaultWidth := value)
    ensures r.Failure? ==> r == Script.Thrown(Script.RuntimeException, "Negative width is not allowed")
  {
    if value.Some? && value.value < 0 then Script.Thrown(Script.RuntimeException, "Negative width is not allowed")
    else Success(root.(defaultWidth := value))
  }

  function SetDefaultHeight(root: Root, value: Option<int>): (r: Result<Root>)
    ensures r.Success? <==> value.None? || value.value >= 0
    ensures r.Success? ==> r.value == root.(defaultHeight := value)
    ensures r.Failure? ==> r == Script.Thrown(Script.RuntimeException, "Negative height is not allowed")
  {
    if value.Some? && value.value < 0 then Script.Thrown(Script.RuntimeException, "Negative height is not allowed")
    else Success(root.(defaultHeight := value))
  }

  // ---------------------------------------------------------------------------
  // Entries

  /** `generate(path, canvasOp, optimization = defaultOptimizationType)`:
      `putIfAbsent`, so an already registered path keeps its entry and the
      call throws. `optimization` is `None` when the argument is omitted. */
  function Generate(root: Root, path: string, op: Ops.CanvasOp, optimization: Option<Optimization.OptimizationType>)
    : (r: Result<(Root, Ops.CanvasOp)>)
    ensures r.Success? <==> path !in root.canvasOperations
    ensures r.Failure? ==> r == Script.Thrown(Script.IllegalStateException, Script.AlreadyExists(path))
    ensures r.Success? ==>
              r.value.1 == Ops.DependencyOp(path) &&
              r.value.0.canvasOperations.Keys == root.canvasOperations.Keys + {path} &&
              r.value.0.canvasOperations[path].operation == op &&
              r.value.0.canvasOperations[path].optimizationType == optimization.GetOr(root.defaultOptimizationType) &&
              (forall p :: p in root.canvasOperations ==> r.value.0.canvasOperations[p] == root.canvasOperations[p]) &&
              r.value.0.(canvasOperations := root.canvasOperations) == root
  {
    if path in root.canvasOperations then Script.Thrown(Script.IllegalStateException, Script.AlreadyExists(path))
    else
      var entry := AppDispatcher.ImageGenEntry(op, optimization.GetOr(root.defaultOptimizationType));
      Success((root.(canvasOperations := root.canvasOperations[path := entry]), Ops.DependencyOp(path)))
  }

  /** The paths of a sequence of `generate` calls. */
  function Paths(calls: seq<(string, Ops.CanvasOp)>): set<string> {
    set i | 0 <= i < |calls| :: calls[i].0
  }

  lemma PathsCons(calls: seq<(string, Ops.CanvasOp)>)
    requires |calls| > 0
    ensures Paths(calls) == {calls[0].0} + Paths(calls[1..])
  {
    forall i | 0 <= i < |calls| ensures calls[i].0 in {calls[0].0} + Paths(calls[1..]) {
      if i > 0 { assert calls[1..][i - 1] == calls[i]; }
    }
    forall i | 0 <= i < |calls[1..]| ensures calls[1..][i].0 in Paths(calls) {
      assert calls[1..][i] == calls[i + 1];
    }
  }

  /** A script is a sequence of `generate` calls; the first failure stops it. */
  function GenerateAll(root: Root, calls: seq<(string, Ops.CanvasOp)>): (r: Result<Root>)
    ensures r.Success? <==>
              (forall i :: 0 <= i < |calls| ==> calls[i].0 !in root.canvasOperations) &&
              (forall i, j :: 0 <= i < j < |calls| ==> calls[i].0 != calls[j].0)
    ensures r.Success? ==>
              r.value.canvasOperations.Keys == root.canvasOperations.Keys + Paths(calls)
    decreases |calls|
  {
    if |calls| == 0 then Success(root)
    else
      match Generate(root, calls[0].0, calls[0].1, None)
      case Failure(e) => Failure(e)
      case Success(step) =>
        var rest := GenerateAll(step.0, calls[1..]);
        PathsCons(calls);
        if rest.Failure? then
          assert !((forall i :: 0 <= i < |calls| ==> calls[i].0 !in root.canvasOperations) &&
                   (forall i, j :: 0 <= i < j < |calls| ==> calls[i].0 != calls[j].0)) by {
            if (forall i :: 0 <= i < |calls| ==> calls[i].0 !in root.canvasOperations) &&
               (forall i, j :: 0 <= i < j < |calls| ==> calls[i].0 != calls[j].0) {
              forall i | 0 <= i < |calls[1..]| ensures calls[1..][i].0 !in step.0.canvasOperations {
                assert calls[1..][i] == calls[i + 1];
              }
              forall i, j | 0 <= i < j < |calls[1..]| ensures calls[1..][i].0 != calls[1..][j].0 {
                assert calls[1..][i] == calls[i + 1] && calls[1..][j] == calls[j + 1];
              }
            }
          }
          rest
        else
          assert forall i :: 0 <= i < |calls[1..]| ==> calls[1..][i] == calls[i + 1];
          assert forall i :: 1 <= i < |calls| ==> calls[i] == calls[1..][i - 1];
          rest
  }

  /** The entries a script registers are exactly the ones the dispatcher
      starts: each with its own operation and optimisation type. */
  lemma GenerateThenDispatch(root: Root, path: string, op: Ops.CanvasOp,
                             optimization: Option<Optimization.OptimizationType>,
                             dw: nat, dh: nat, contexts: string -> Ops.Context)
    requires path !in root.canvasOperations
    ensures var d := AppDispatcher.Create(dw, dh, Generate(root, path, op, optimization).value.0.canvasOperations, contexts);
            AppDispatcher.Valid(d) &&
            d.ops.Keys == root.canvasOperations.Keys + {path} &&
            d.ops[path].optimizationType == optimization.GetOr(root.defaultOptimizationType) &&
            d.ops[path].canvasOp == AppDispatcher.Guard(Ops.Run(contexts(path), op, Dimension.Of(dw), Dimension.Of(dh)))
  {
  }

  /** `image(path)` and `output(path)` take any path: unlike the script
      receiver's `image`, nothing is validated. */
  function Image(path: string): (r: Ops.CanvasOp)
    ensures r.RawImageOp? && r.path == path
  {
    Ops.RawImageOp(path)
  }

  function Output(path: string): (r: Ops.CanvasOp)
    ensures r.DependencyOp? && r.path == path
  {
    Ops.DependencyOp(path)
  }

  /** A path the script receiver refuses is accepted here. */
  lemma ImageUnchecked()
    ensures Image("UI") == Ops.RawImageOp("UI")
    ensures Script.Image("UI").Failure?
  {
    Script.PathExamples();
  }

  /** `fill(color, width, height)`: the colour is a value, only the sizes are checked. */
  function Fill(color: Color, width: Option<int>, height: Option<int>): (r: Result<Ops.CanvasOp>)
    ensures r.Success? <==> (width.None? || width.value >= 0) && (height.None? || height.value >= 0)
    ensures r.Success? ==>
              r.value.ColorFillOp? && r.value.fill == color &&
              (width.None? <==> r.value.width == Dimension.Auto) &&
              (height.None? <==> r.value.height == Dimension.Auto)
    ensures width.Some? && width.value < 0 ==> r.Failure? && r.error.message == Some("Negative value is not allowed")
  {
    MapResult(Script.Dim(width), w =>
      MapResult(Script.Dim(height), h => Success(Ops.ColorFillOp(color, w, h))))
  }

  /** With parseable colour text, the script's `fill` builds what this one
      builds from the parsed colour. */
  lemma FillAgreesWithScript(text: string, width: Option<int>, height: Option<int>)
    requires TryParse(text).Some?
    ensures Script.Fill(text, width, height) == Fill(TryParse(text).value, width, height)
  {
  }

  /** `tint(target, color)`. */
  function Tint(target: Ops.CanvasOp, color: Color): (r: Ops.CanvasOp)
    ensures r.ColorTintOp? && r.target == target && r.color == color
  {
    Ops.ColorTintOp(target, color)
  }

  // ---------------------------------------------------------------------------
  // Colours

  /** A Kotlin `Int`. */
  predicate IsInt(x: int) {
    -0x8000_0000 <= x < 0x8000_0000
  }

  /** `rgb(rgb)`: `(rgb.toLong() or 0xFF000000).toInt()`. The low 24 bits of
      the two's complement value are kept and the alpha byte is set. */
  function RgbColor(rgb: int): (c: Color)
    requires IsInt(rgb)
    ensures Alpha(c) == 0xFF
    ensures Colors.Rgb(c) == rgb % Alpha24
  {
    Color(0xFF00_0000 + rgb % Alpha24)
  }

  /** `rgb(rgb)` is the opaque colour of the three bytes below the top one,
      read from the two's complement value, so only those bytes matter. */
  /** Euclidean division by 2^8 and 2^16 is determined by quotient and remainder. */
  lemma DivMod8(x: int, q: int, m: int)
    requires 0 <= m < 0x100 && x == q * 0x100 + m
    ensures x / 0x100 == q && x % 0x100 == m
  {
  }

  lemma DivMod16(x: int, q: int, m: int)
    requires 0 <= m < Red16 && x == q * Red16 + m
    ensures x / Red16 == q && x % Red16 == m
  {
  }

  lemma RgbColorChannels(rgb: int)
    requires IsInt(rgb)
    ensures RgbColor(rgb) == Opaque((rgb / Red16) % 0x100, (rgb / 0x100) % 0x100, rgb % 0x100)
  {
    var m := rgb % Alpha24;
    var q := rgb / Alpha24;
    var hi, lo := m / Red16, m % Red16;
    DivMod16(m, hi, lo);
    DivMod16(rgb, q * 0x100 + hi, lo);
    DivMod8(rgb / Red16, q, hi);
    var mid, b := m / 0x100, m % 0x100;
    DivMod8(rgb, q * Red16 + mid, b);
    var g := mid % 0x100;
    DivMod8(mid, hi, g);
    DivMod8(rgb / 0x100, q * 0x100 + hi, g);
    assert m == hi * Red16 + g * 0x100 + b;
    var c := RgbColor(rgb);
    assert c.argb == Pack(0xFF, hi, g, b);
    UnpackPack(0xFF, hi, g, b);
    ChannelsDetermineColor(c, Opaque(hi, g, b));
  }

  /** `argb(argb: Long)`: `argb.toInt()`, the low 32 bits. */
  function ArgbColor(argb: int): (c: Color)
    requires -0x8000_0000_0000_0000 <= argb < 0x8000_0000_0000_0000
    ensures (c.argb - argb) % 0x1_0000_0000 == 0
  {
    Color(argb % 0x1_0000_0000)
  }

  /** Written as a `Long`, an ARGB literal is the colour of its four bytes. */
  lemma ArgbColorChannels(a: Byte, r: Byte, g: Byte, b: Byte)
    ensures ArgbColor(Pack(a, r, g, b)) == FromChannels(a, r, g, b)
  {
    assert Clamp(a) == a && Clamp(r) == r && Clamp(g) == g && Clamp(b) == b;
    assert Pack(a, r, g, b) % 0x1_0000_0000 == Pack(a, r, g, b);
  }

  // ---------------------------------------------------------------------------
  // SimpleGradientBuilder

  /** `SimpleGradientBuilder.add(point, color)`: the closed range [0, 1],
      then duplicates are refused. */
  function GradientAdd(elements: Gradient.Stops, point: real, color: Color, show: Script.FloatText)
    : (r: Result<Gradient.Stops>)
    ensures r.Success? <==> 0.0 <= point <= 1.0 && point !in Script.Keys(elements)
    ensures !(0.0 <= point <= 1.0) ==> r == Script.Thrown(Script.IllegalArgumentException, Script.InvalidPoint(point, show))
    ensures 0.0 <= point <= 1.0 && point in Script.Keys(elements) ==>
              r == Script.Thrown(Script.IllegalStateException, Script.DuplicatedPoint(point, show))
    ensures r.Success? ==>
              |r.value| == |elements| + 1 &&
              forall e :: e in r.value <==> e in elements || e == (point, color)
  {
    if 0.0 <= point <= 1.0 then
      if point in Script.Keys(elements) then Script.Thrown(Script.IllegalStateException, Script.DuplicatedPoint(point, show))
      else Success(Script.Insert(elements, point, color))
    else Script.Thrown(Script.IllegalArgumentException, Script.InvalidPoint(point, show))
  }

  /** The two builders differ only at the end point: 1 is accepted here
      and refused by the script receiver's builder. */
  lemma GradientEndPoint(elements: Gradient.Stops, point: real, text: string, show: Script.FloatText)
    requires TryParse(text).Some? && point !in Script.Keys(elements)
    ensures point == 1.0 ==>
              GradientAdd(elements, point, TryParse(text).value, show).Success? &&
              Script.GradientAdd(elements, point, text, show).Failure?
    ensures point != 1.0 ==>
              GradientAdd(elements, point, TryParse(text).value, show) == Script.GradientAdd(elements, point, text, show)
  {
  }
}

=== FILE: save_handler.dfy ===
/** The later save path (app/src/main/kotlin/SaveHandler.kt): writing one
    image, with the progress stages it reports, and reconciling the cache
    once every task is done. The PNG encoder, the optimiser and the file
    system are given as outcomes. */
module SaveHandler {
  import opened Wrappers
  import opened Internal
  import Hash
  import Cache

  /** `OpTracker.Stage`. */
  datatype Stage = Processing | ProcessingFailed | Compressing | CompressingFailed
                 | Saving | SavingFailed | Skipped | Finished

  /** What `saveImage` did: its return value, the stages it reported in
      order, and the error report it added, if any. */
  datatype Saved = Saved(ok: bool, stages: seq<Stage>, report: Option<string>)

  /** `saveImage`: compress, then write. `optimized` is the optimiser's
      outcome; `writeError` the `IOException` text of a failed write. */
  function SaveImage(optimized: Result<seq<Byte>>, writeError: Option<string>): (s: Saved)
    ensures s.ok <==> optimized.Success? && writeError.None?
    ensures |s.stages| >= 1 && s.stages[0] == Compressing
    ensures s.ok ==> s.stages == [Compressing, Saving] && s.report.None?
    ensures optimized.Failure? ==>
              s.stages[|s.stages| - 1] == CompressingFailed &&
              s.report == Some("Cannot compress PNG file: " + ThrowableToString(optimized.error))
    ensures optimized.Success? && writeError.Some? ==>
              s.stages == [Compressing, Saving, SavingFailed] &&
              s.report == Some("Cannot write output: " + writeError.value)
    ensures Saving in s.stages <==> optimized.Success?
  {
    match optimized
    case Failure(e) =>
      Saved(false, [Compressing, CompressingFailed], Some("Cannot compress PNG file: " + ThrowableToString(e)))
    case Success(_) =>
      match writeError
      case Some(ex) => Saved(false, [Compressing, Saving, SavingFailed], Some("Cannot write output: " + ex))
      case None => Saved(true, [Compressing, Saving], None)
  }

  /** The entries whose task succeeded, in iteration order. */
  function Successes(ops: seq<(string, Result<Hash.Hash>)>): (es: seq<(string, Hash.Hash)>)
    ensures |es| <= |ops|
    decreases |ops|
  {
    if |ops| == 0 then []
    else
      var last := ops[|ops| - 1];
      Successes(ops[..|ops| - 1]) + (if last.1.Success? then [(last.0, last.1.value)] else [])
  }

  function SuccessPaths(ops: seq<(string, Result<Hash.Hash>)>): set<string> {
    set i | 0 <= i < |ops| && ops[i].1.Success? :: ops[i].0
  }

  /** What `updateCache` leaves behind: the cache file's new text (`None`
      with `noOutputCache`, where the file is not touched) and the outputs
      it deletes. */
  datatype Update = Update(cacheText: Option<string>, toDelete: set<string>)

  function UpdateCache(cache: Cache.CacheMap, ops: seq<(string, Result<Hash.Hash>)>, noOutputCache: bool): (u: Update)
    ensures u.cacheText.None? <==> noOutputCache
    ensures forall f :: f in u.toDelete <==> f in cache && f !in SuccessPaths(ops)
  {
    Update(if noOutputCache then None else Some(Cache.CacheText(Successes(ops))), cache.Keys - SuccessPaths(ops))
  }

  /** The deletion loop: every stale output is attempted, and a failure
      (`IOException` text from `deleteError`) only adds a generic report. */
  function DeleteReports(toDelete: set<string>, deleteError: string -> Option<string>): (reports: map<string, string>)
    ensures reports.Keys == set f | f in toDelete && deleteError(f).Some?
    ensures forall f :: f in reports ==>
              reports[f] == "Cannot delete outdated output entry " + f + " due to an exception: " + deleteError(f).value
  {
    map f | f in toDelete && deleteError(f).Some? ::
      "Cannot delete outdated output entry " + f + " due to an exception: " + deleteError(f).value
  }

  /** The task results as `main.kt` saw them: a success becomes a
      finished outcome, a failure `null`. */
  function AsOutcomes(ops: seq<(string, Result<Hash.Hash>)>, saved: string -> bool): (os: seq<(string, Option<Cache.Outcome>)>)
    ensures |os| == |ops|
  {
    seq(|ops|, i requires 0 <= i < |ops| =>
      (ops[i].0, if ops[i].1.Success? then Some(Cache.Outcome(ops[i].1.value, saved(ops[i].0))) else None))
  }

  /** The two reconciliations agree: `updateCache` writes the text and
      deletes the files that the earlier `save` does for the same results. */
  lemma {:induction false} AgreesWithSave(ops: seq<(string, Result<Hash.Hash>)>, saved: string -> bool)
    ensures Successes(ops) == Cache.Finished(AsOutcomes(ops, saved))
    ensures SuccessPaths(ops) == Cache.FinishedPaths(AsOutcomes(ops, saved))
    decreases |ops|
  {
    if |ops| > 0 {
      var n := |ops| - 1;
      AgreesWithSave(ops[..n], saved);
      assert AsOutcomes(ops, saved)[..n] == AsOutcomes(ops[..n], saved);
    }
    var os := AsOutcomes(ops, saved);
    forall f ensures f in SuccessPaths(ops) <==> f in Cache.FinishedPaths(os) {
      if f in SuccessPaths(ops) {
        var i :| 0 <= i < |ops| && ops[i].1.Success? && ops[i].0 == f;
        assert os[i].1.Some? && os[i].0 == f;
      }
      if f in Cache.FinishedPaths(os) {
        var i :| 0 <= i < |os| && os[i].1.Some? && os[i].0 == f;
        assert ops[i].1.Success?;
      }
    }
  }

  /** After `updateCache`, the next run reads the new cache as exactly
      the successful entries. */
  lemma UpdateThenRead(cache: Cache.CacheMap, ops: seq<(string, Result<Hash.Hash>)>)
    requires Cache.Writable(Successes(ops))
    ensures Cache.ReadCache(false, Some(Cache.Lines(UpdateCache(cache, ops, false).cacheText.value)))
            == Cache.ToMap(Successes(ops))
  {
    Cache.CacheFileRoundTrip(Successes(ops));
  }
}

=== FILE: script.dfy ===
/** The configuration script's receiver (script/src/main/kotlin/script.kt):
    the builders a `.sad.kts` script calls to register output entries and
    construct operations, and the validation they perform. A thrown
    exception is a `Failure` carrying its class and message. Float
    gradient points are reals, and their decimal text is a parameter. */
module Script {
  import opened Wrappers
  import opened Internal
  import opened Colors
  import Dimension
  import Gradient
  import Blend
  import Layers = Layer
  import Ops
  import Hash

  function Thrown<T>(className: string, message: string): (r: Result<T>)
    ensures r.Failure? && !r.error.isCanvasOpException && r.error.message == Some(message)
  {
    Failure(Throwable(false, Some(message), className))
  }

  const RuntimeException: string := "java.lang.RuntimeException"
  const IllegalStateException: string := "java.lang.IllegalStateException"
  const IllegalArgumentException: string := "java.lang.IllegalArgumentException"

  /** The receiver's state: the registered entries and the two defaults. */
  datatype Root = Root(canvasOperations: map<string, Ops.CanvasOp>,
                       defaultWidth: Option<int>, defaultHeight: Option<int>)

  // ---------------------------------------------------------------------------
  // Paths

  /** `isValidPathChar`: `[a-z0-9_./-]`. */
  predicate IsValidPathChar(c: char) {
    c == '_' || c == '-' || ('a' <= c <= 'z') || ('0' <= c <= '9') || c == '/' || c == '.'
  }

  predicate ValidPath(location: string) {
    forall i :: 0 <= i < |location| ==> IsValidPathChar(location[i])
  }

  /** `isValidLocation`: the loop that returns at the first bad character. */
  method IsValidLocation(location: string) returns (ok: bool)
    ensures ok <==> ValidPath(location)
    ensures !ok ==> exists i :: 0 <= i < |location| && !IsValidPathChar(location[i])
  {
    var i := 0;
    while i < |location|
      invariant 0 <= i <= |location|
      invariant forall j :: 0 <= j < i ==> IsValidPathChar(location[j])
    {
      if !IsValidPathChar(location[i]) {
        return false;
      }
      i := i + 1;
    }
    return true;
  }

  /** The empty path is valid; upper case, spaces and backslashes are not. */
  lemma PathExamples()
    ensures ValidPath("")
    ensures ValidPath("ui/button_1.hover")
    ensures !ValidPath("UI") && !ValidPath("a b") && !ValidPath("a\\b")
  {
    assert !IsValidPathChar("UI"[0]);
    assert !IsValidPathChar("a b"[1]);
    assert !IsValidPathChar("a\\b"[1]);
  }

  function NotALocation(path: string): string {
    "'" + path + "' is not a valid location"
  }

  function AlreadyExists(path: string): string {
    "Entry for location '" + path + "' already exists"
  }

  // ---------------------------------------------------------------------------
  // Numbers

  /** The `defaultWidth`/`defaultHeight` setter check: `null` and
      non-negative values are stored, negatives refused. */
  function CheckDefault(value: Option<int>, what: string): (r: Result<Option<int>>)
    ensures r.Success? <==> value.None? || value.value >= 0
    ensures r.Success? ==> r.value == value
    ensures r.Failure? ==> r.error.message == Some("Negative " + what + " is not allowed")
  {
    if value.Some? && value.value < 0 then Thrown(RuntimeException, "Negative " + what + " is not allowed")
    else Success(value)
  }

  function SetDefaultWidth(root: Root, value: Option<int>): (r: Result<Root>)
    ensures r.Success? <==> value.None? || value.value >= 0
    ensures r.Success? ==> r.value == root.(defaultWidth := value)
  {
    MapResult(CheckDefault(value, "width"), v => Success(root.(defaultWidth := v)))
  }

  function SetDefaultHeight(root: Root, value: Option<int>): (r: Result<Root>)
    ensures r.Success? <==> value.None? || value.value >= 0
    ensures r.Success? ==> r.value == root.(defaultHeight := value)
  {
    MapResult(CheckDefault(value, "height"), v => Success(root.(defaultHeight := v)))
  }

  /** `Int.toUIntChecked()`. */
  function ToUIntChecked(v: int): (r: Result<nat>)
    ensures r.Success? <==> v >= 0
    ensures r.Success? ==> r.value == v
    ensures r.Failure? ==> r.error.message == Some("Negative value is not allowed")
  {
    if v < 0 then Thrown(RuntimeException, "Negative value is not allowed") else Success(v)
  }

  /** `Int?.dim()`: `null` is AUTO, a value must be non-negative. */
  function Dim(v: Option<int>): (r: Result<Dimension.Dimension>)
    ensures v.None? ==> r == Success(Dimension.Auto)
    ensures v.Some? ==> (r.Success? <==> v.value >= 0)
    ensures r.Success? && v.Some? ==> Dimension.HasValue(r.value) && r.value.value == v.value
  {
    match v
    case None => Success(Dimension.Auto)
    case Some(n) => MapResult(ToUIntChecked(n), (u: nat) => Success(Dimension.Of(u)))
  }

  // ---------------------------------------------------------------------------
  // Entries and operations

  /** `generate(path, op)`: validate the path, refuse a path already
      registered (keeping the first mapping), and return a reference to it. */
  function Generate(root: Root, path: string, op: Ops.CanvasOp): (r: Result<(Root, Ops.CanvasOp)>)
    ensures r.Success? <==> ValidPath(path) && path !in root.canvasOperations
    ensures !ValidPath(path) ==> r == Thrown(IllegalArgumentException, NotALocation(path))
    ensures ValidPath(path) && path in root.canvasOperations ==> r == Thrown(IllegalStateException, AlreadyExists(path))
    ensures r.Success? ==>
              r.value.1 == Ops.DependencyOp(path) &&
              r.value.0 == root.(canvasOperations := root.canvasOperations[path := op])
  {
    if !ValidPath(path) then Thrown(IllegalArgumentException, NotALocation(path))
    else if path in root.canvasOperations then Thrown(IllegalStateException, AlreadyExists(path))
    else Success((root.(canvasOperations := root.canvasOperations[path := op]), Ops.DependencyOp(path)))
  }

  /** A registered path keeps its first operation whatever later
      `generate` calls attempt, and other paths are never touched. */
  lemma GenerateKeepsEntries(root: Root, path: string, op: Ops.CanvasOp, p: string)
    requires p in root.canvasOperations
    ensures Generate(root, path, op).Success? ==>
              p in Generate(root, path, op).value.0.canvasOperations &&
              Generate(root, path, op).value.0.canvasOperations[p] == root.canvasOperations[p]
  {
  }

  /** `image(path)`. */
  function Image(path: string): (r: Result<Ops.CanvasOp>)
    ensures r.Success? <==> ValidPath(path)
    ensures r.Success? ==> r.value == Ops.RawImageOp(path)
  {
    if ValidPath(path) then Success(Ops.RawImageOp(path)) else Thrown(IllegalArgumentException, NotALocation(path))
  }

  /** `fill(color, width, height)`: the colour text is parsed first
      (`toColorOrThrow`, which is `FromString`), then the two sizes. */
  function Fill(color: string, width: Option<int>, height: Option<int>): (r: Result<Ops.CanvasOp>)
    ensures r.Success? <==> TryParse(color).Some? && Dim(width).Success? && Dim(height).Success?
    ensures TryParse(color).None? ==> r.Failure? && r.error == FromString(color).error
    ensures r.Success? ==> r.value == Ops.ColorFillOp(TryParse(color).value, Dim(width).value, Dim(height).value)
  {
    MapResult(FromString(color), c =>
      MapResult(Dim(width), w =>
        MapResult(Dim(height), h => Success(Ops.ColorFillOp(c, w, h)))))
  }

  /** `region(source, xOffset, yOffset, width, height)`. */
  function Region(source: Ops.CanvasOp, xOffset: int, yOffset: int, width: Option<int>, height: Option<int>)
    : (r: Result<Ops.CanvasOp>)
    ensures r.Success? <==> xOffset >= 0 && yOffset >= 0 && Dim(width).Success? && Dim(height).Success?
    ensures r.Success? ==> r.value == Ops.RegionOp(source, xOffset, yOffset, Dim(width).value, Dim(height).value)
  {
    MapResult(ToUIntChecked(xOffset), x =>
      MapResult(ToUIntChecked(yOffset), y =>
        MapResult(Dim(width), w =>
          MapResult(Dim(height), h => Success(Ops.RegionOp(source, x, y, w, h))))))
  }

  /** The shorthand `layer` defaults. */
  const DefaultEquation: Blend.BlendEquation := Blend.Add
  const DefaultSrcBlend: Blend.BlendFunc := Blend.SrcAlpha
  const DefaultDstBlend: Blend.BlendFunc := Blend.OneMinusSrcAlpha

  /** `entries.map { LayerOp.Entry(it, 0, 0) }`. */
  function AtOrigin(entries: seq<Ops.CanvasOp>): (es: seq<Ops.Entry>)
    ensures |es| == |entries|
    ensures forall i :: 0 <= i < |entries| ==> es[i] == Ops.Entry(entries[i], 0, 0)
  {
    seq(|entries|, i requires 0 <= i < |entries| => Ops.Entry(entries[i], 0, 0))
  }

  /** The full `layer(vararg entries, equation, srcColor, dstColor, srcAlpha, dstAlpha, width, height)`. */
  function LayerOf(entries: seq<Ops.Entry>, bl: Layers.Blending, width: Option<int>, height: Option<int>)
    : (r: Result<Ops.CanvasOp>)
    ensures r.Success? <==> Dim(width).Success? && Dim(height).Success?
    ensures r.Success? ==> r.value == Ops.LayerOp(entries, Dim(width).value, Dim(height).value, bl)
  {
    MapResult(Dim(width), w => MapResult(Dim(height), h => Success(Ops.LayerOp(entries, w, h, bl))))
  }

  /** The shorthand `layer(vararg entries, equation, srcBlend, dstBlend, ...)`:
      one pair of functions for colour and alpha alike. */
  function Layer(entries: seq<Ops.CanvasOp>, equation: Blend.BlendEquation, srcBlend: Blend.BlendFunc,
                 dstBlend: Blend.BlendFunc, width: Option<int>, height: Option<int>): (r: Result<Ops.CanvasOp>)
    ensures r.Success? <==> Dim(width).Success? && Dim(height).Success?
    ensures r.Success? ==>
              r.value.LayerOp? && r.value.entries == AtOrigin(entries) &&
              r.value.width == Dim(width).value && r.value.height == Dim(height).value
    ensures r.Success? ==>
              r.value.LayerOp? && r.value.blending.srcColor == r.value.blending.srcAlpha == srcBlend &&
              r.value.blending.dstColor == r.value.blending.dstAlpha == dstBlend &&
              r.value.blending.equation == equation
  {
    LayerOf(AtOrigin(entries), Layers.Blending(equation, srcBlend, dstBlend, srcBlend, dstBlend), width, height)
  }

  /** With its defaults, the shorthand `layer` blends source-over and
      puts every entry at (0, 0). */
  lemma LayerDefaults(entries: seq<Ops.CanvasOp>)
    ensures var r := Layer(entries, DefaultEquation, DefaultSrcBlend, DefaultDstBlend, None, None);
            r.Success? && r.value.blending == Layers.SourceOver &&
            r.value.width == Dimension.Auto && r.value.height == Dimension.Auto &&
            |r.value.entries| == |entries| &&
            forall i :: 0 <= i < |entries| ==> r.value.entries[i] == Ops.Entry(entries[i], 0, 0)
  {
  }

  /** `LayerBuilder.add(op, xOffset = 0, yOffset = 0)`. */
  function LayerBuilderAdd(entries: seq<Ops.Entry>, op: Ops.CanvasOp, xOffset: int, yOffset: int)
    : (es: seq<Ops.Entry>)
    ensures |es| == |entries| + 1 && es[..|entries|] == entries
    ensures es[|entries|] == Ops.Entry(op, xOffset, yOffset)
  {
    entries + [Ops.Entry(op, xOffset, yOffset)]
  }

  /** `gradient(texture, index, direction)`. */
  function TextureGradient(texture: Ops.CanvasOp, index: int, direction: Gradient.GradientDirection)
    : (r: Result<Ops.GradientProvider>)
    ensures r.Success? <==> index >= 0
    ensures r.Success? ==> r.value == Ops.Texture(texture, index, direction)
  {
    MapResult(ToUIntChecked(index), (i: nat) => Success(Ops.Texture(texture, i, direction)))
  }

  // ---------------------------------------------------------------------------
  // SimpleGradientBuilder

  function Keys(stops: seq<(real, Color)>): set<real> {
    set i | 0 <= i < |stops| :: stops[i].0
  }

  /** `elements[point] = color` on a sorted map that lacks `point`. */
  function Insert(stops: Gradient.Stops, point: real, color: Color): (r: Gradient.Stops)
    requires point !in Keys(stops)
    ensures |r| == |stops| + 1
    ensures forall e :: e in r <==> e in stops || e == (point, color)
    decreases |stops|
  {
    if |stops| == 0 || point < stops[0].0 then [(point, color)] + stops
    else
      assert forall e :: e in stops[1..] ==> e.0 > stops[0].0;
      assert point !in Keys(stops[1..]) by {
        forall i | 0 <= i < |stops[1..]| ensures stops[1..][i].0 != point {
          assert stops[1..][i] == stops[i + 1];
        }
      }
      var rest := Insert(stops[1..], point, color);
      assert point != stops[0].0 by {
        assert stops[0].0 in Keys(stops);
      }
      [stops[0]] + rest
  }

  /** The point's decimal text, as Kotlin prints a `Float`. */
  type FloatText = real -> string

  function DuplicatedPoint(point: real, show: FloatText): string {
    "Duplicated gradient point at value " + show(point)
  }

  function InvalidPoint(point: real, show: FloatText): string {
    "Invalid point value " + show(point) + ", must be in range of 0 ~ 1"
  }

  /** `SimpleGradientBuilder.add(point, color)`: the range is [0, 1),
      then duplicates are refused, then the colour text is parsed. */
  function GradientAdd(elements: Gradient.Stops, point: real, color: string, show: FloatText)
    : (r: Result<Gradient.Stops>)
    ensures r.Success? <==> 0.0 <= point < 1.0 && point !in Keys(elements) && TryParse(color).Some?
    ensures !(0.0 <= point < 1.0) ==> r == Thrown(IllegalArgumentException, InvalidPoint(point, show))
    ensures 0.0 <= point < 1.0 && point in Keys(elements) ==>
              r == Thrown(IllegalStateException, DuplicatedPoint(point, show))
    ensures r.Success? ==>
              forall e :: e in r.value <==> e in elements || e == (point, TryParse(color).value)
  {
    if 0.0 <= point < 1.0 then
      if point in Keys(elements) then Thrown(IllegalStateException, DuplicatedPoint(point, show))
      else MapResult(FromString(color), c => Success(Insert(elements, point, c)))
    else Thrown(IllegalArgumentException, InvalidPoint(point, show))
  }

  // ---------------------------------------------------------------------------
  // parseChannel

  /** The flag letters, in either case. */
  function ComponentOf(ch: char): (k: Option<Component>)
    ensures k == Some(A) <==> ch == 'A' || ch == 'a'
    ensures k == Some(R) <==> ch == 'R' || ch == 'r'
    ensures k == Some(G) <==> ch == 'G' || ch == 'g'
    ensures k == Some(B) <==> ch == 'B' || ch == 'b'
  {
    if ch == 'A' || ch == 'a' then Some(A)
    else if ch == 'R' || ch == 'r' then Some(R)
    else if ch == 'G' || ch == 'g' then Some(G)
    else if ch == 'B' || ch == 'b' then Some(B)
    else None
  }

  /** The report for a character that names no component: the character
      and its code in lower-case hex. */
  function UnknownFlag(ch: char): (msg: string)
    ensures exists code :: msg == "Unknown color component flag '" + [ch] + "'(" + code + "); allowed values are: [A, R, G, B]" &&
                           Colors.AllHex(code) && Hash.HexValue(code) == ch as int
  {
    Hash.HexValueOfDigits(ch as int);
    "Unknown color component flag '" + [ch] + "'(" + Hash.ToHexDigits(ch as int) +
    "); allowed values are: [A, R, G, B]"
  }

  function DuplicatedFlag(ch: char): string {
    "Duplicated color component '" + [ch] + "'"
  }

  /** The channel set and the non-error reports made along the way. */
  datatype Channels = Channels(components: set<Component>, reports: seq<string>)

  /** One flag character: a new component is added, anything else reported. */
  function AddFlag(p: Channels, ch: char): (r: Channels)
    ensures p.components <= r.components && p.reports <= r.reports
    ensures |r.components| + |r.reports| == |p.components| + |p.reports| + 1
    ensures r.components == p.components <==> |r.reports| == |p.reports| + 1
  {
    match ComponentOf(ch)
    case None => Channels(p.components, p.reports + [UnknownFlag(ch)])
    case Some(k) =>
      if k in p.components then Channels(p.components, p.reports + [DuplicatedFlag(ch)])
      else Channels(p.components + {k}, p.reports)
  }

  /** `parseChannel`: each flag adds its component; an unknown or
      repeated flag is reported and skipped. Every character either
      contributes a new channel or makes exactly one report. */
  function ParseChannel(s: string): (p: Channels)
    ensures forall k :: k in p.components <==> exists i :: 0 <= i < |s| && ComponentOf(s[i]) == Some(k)
    ensures |p.components| + |p.reports| == |s|
    decreases |s|
  {
    if |s| == 0 then Channels({}, [])
    else
      var init := s[..|s| - 1];
      assert forall i :: 0 <= i < |init| ==> init[i] == s[i];
      AddFlag(ParseChannel(init), s[|s| - 1])
  }

  lemma ParseChannelSnoc(s: string, ch: char)
    ensures ParseChannel(s + [ch]) == AddFlag(ParseChannel(s), ch)
  {
    assert (s + [ch])[..|s|] == s;
  }

  /** Text whose characters all name components, no component twice,
      parses without a report. */
  lemma {:induction false} DistinctFlagsNoReports(s: string)
    requires forall i :: 0 <= i < |s| ==> ComponentOf(s[i]).Some?
    requires forall i, j :: 0 <= i < j < |s| ==> ComponentOf(s[i]) != ComponentOf(s[j])
    ensures ParseChannel(s).reports == []
    decreases |s|
  {
    if |s| > 0 {
      var init := s[..|s| - 1];
      assert forall i :: 0 <= i < |init| ==> init[i] == s[i];
      DistinctFlagsNoReports(init);
      assert ComponentOf(s[|s| - 1]).value !in ParseChannel(init).components;
    }
  }

  /** A flag naming a component not yet chosen adds it without a report. */
  lemma AddNewFlag(s: string, ch: char, k: Component)
    requires ComponentOf(ch) == Some(k) && k !in ParseChannel(s).components
    ensures ParseChannel(s + [ch]) == Channels(ParseChannel(s).components + {k}, ParseChannel(s).reports)
  {
    ParseChannelSnoc(s, ch);
  }

  lemma ParseChannelR()
    ensures ParseChannel("R") == Channels({R}, [])
  {
    AddNewFlag("", 'R', R);
    assert "" + ['R'] == "R";
  }

  lemma ParseChannelRG()
    ensures ParseChannel("RG") == Channels({R, G}, [])
  {
    ParseChannelR();
    AddNewFlag("R", 'G', G);
    assert "R" + ['G'] == "RG";
  }

  lemma ParseChannelRGB()
    ensures ParseChannel("RGB") == Channels({R, G, B}, [])
  {
    ParseChannelRG();
    AddNewFlag("RG", 'B', B);
    assert "RG" + ['B'] == "RGB";
  }

  /** The default channel string of `gradientMap`, "RGB", parses to the
      three colour channels and "RGBA" to all four, without reports. */
  lemma ParseChannelDefaults()
    ensures ParseChannel("RGB") == Channels({R, G, B}, [])
    ensures ParseChannel("RGBA") == Channels({R, G, B, A}, [])
  {
    ParseChannelRGB();
    AddNewFlag("RGB", 'A', A);
    assert "RGB" + ['A'] == "RGBA";
  }

  /** `gradientMap(target, gradient, mapChannel = "RGB", outputChannel = "RGBA", rescale = true)`. */
  function GradientMap(target: Ops.CanvasOp, gradient: Ops.GradientProvider, mapChannel: string,
                       outputChannel: string, rescale: bool): (r: (Ops.CanvasOp, seq<string>))
    ensures r.0.GradientMapOp? && r.0.target == target && r.0.gradient == gradient && r.0.rescale == rescale
    ensures forall k :: k in r.0.mapChannels <==> exists i :: 0 <= i < |mapChannel| && ComponentOf(mapChannel[i]) == Some(k)
    ensures forall k :: k in r.0.outputChannels <==> exists i :: 0 <= i < |outputChannel| && ComponentOf(outputChannel[i]) == Some(k)
    ensures |r.1| == |mapChannel| - |r.0.mapChannels| + |outputChannel| - |r.0.outputChannels|
  {
    var m, o := ParseChannel(mapChannel), ParseChannel(outputChannel);
    (Ops.GradientMapOp(target, gradient, m.components, o.components, rescale), m.reports + o.reports)
  }
}

=== FILE: wrappers.dfy ===
/** Small shared datatypes: Kotlin's nullable values and the unsigned
    integer views used throughout the model. */
module Wrappers {

  /** A Kotlin nullable value: `null` is `None`. */
  datatype Option<+T> = None | Some(value: T) {

    /** `this ?: default` */
    function GetOr(default: T): T {
      match this
      case Some(v) => v
      case None => default
    }
  }

  /** A Kotlin `Int` (or `UInt`) seen as its 32 unsigned bits. */
  type Word = x: int | 0 <= x < 0x1_0000_0000

  /** One byte, as an unsigned value. */
  type Byte = x: int | 0 <= x < 0x100
}
